=== FILE: README.md ===
# VibeChat core, modelled in Dafny

VibeChat is an Android chat app. Its data lives in two places:

- Cloud Firestore is the shared, authoritative store. It holds user documents, per-user
  `contacts`, `conversations` and `blockedUsers` sub-collections, group documents, and
  per-room message collections.
- A Room (SQLite) database on the device is a cache of the same rows.

This project models the parts of the app that decide what gets written where, and what the
screens show. It covers:

- the repositories that create, change and leave groups, add, delete and block contacts,
  and fan profile changes out to conversations;
- the five Room DAOs and the mappers between Firestore objects and Room entities;
- the screen logic that keeps the two stores in step and decides what is drawn and which
  actions are offered: home list filters, chat rooms and read receipts, group details,
  member pickers, contact profile, phone sign-in and the OTP screen;
- the push-notification service, the timestamp formatters and the presence manager.

The model is functional:

- Room is the record `LocalStore.Db`: one map per table, keyed by the table's primary key.
  `@Insert(onConflict = REPLACE)` is an upsert, and a list insert is an upsert of each row
  in list order. `Valid(db)` says every row sits under its own key.
- Firestore is `RemoteStore.Store`: one map per collection. Documents in sub-collections
  are keyed by `DocId(parent, id)`.
- Each repository call returns the new local and remote state together with its `Result`.
  A Firestore batch or transaction either happens completely or not at all. Room writes
  made before a failing commit stay, as in the app.
- The things the app asks the platform for become parameters: the signed-in uid, the
  current time, generated ids, uploaded URLs, query results, and the clock's rendering of
  a date.

Each file is one module:

| file | module | models |
|---|---|---|
| wrappers.dfy | Wrappers | `Option`, `Result` |
| seqs.dfy | Seqs | Kotlin `filter`, `map`, `distinct`, list minus, `arrayUnion` |
| text.dfy | Text | `isBlank`, `isDigit`, `contains(ignoreCase = true)` |
| sorting.dfy | Sorting | `ORDER BY` over nullable and text keys |
| model.dfy | Model | the data classes and Room entities |
| mappers.dfy | Mappers | the `to…Entity` / `toData…` mappers |
| local_store.dfy | LocalStore | the Room tables and DAOs |
| remote_store.dfy | RemoteStore | Firestore collections, batch helpers, the phone query |
| group_repository.dfy | GroupRepository | `GroupRepository` |
| user_repository.dfy | UserRepository | `UserRepository` |
| contact_repository.dfy | ContactRepository | `ContactRepository` |
| chat_screen.dfy | ChatScreen | rooms, unread reset, read receipts, sending, status icon |
| home_screen.dfy | HomeScreen | sync listeners, display list, filters, badge |
| selection.dfy | Selection | the toggled contact set of the group screens |
| group_details_screen.dfy | GroupDetailsScreen | admin gating, member rows, group listener |
| add_group_members_screen.dfy | AddGroupMembersScreen | candidates, confirm, result |
| create_group_screen.dfy | CreateGroupScreen | validation, toggle, result |
| contact_profile_screen.dfy | ContactProfileScreen | listeners, common groups, block button |
| select_contact_screen.dfy | SelectContactScreen | contact list, open chat, delete |
| phone_auth.dfy | PhoneAuth | `PhoneAuthViewModel` and its UI states |
| phone_number_screen.dfy | PhoneNumberScreen | country picker, submit, error reset |
| otp_screen.dfy | OtpScreen | digit cells, verify, sign-in routing, resend timer |
| messaging_service.dfy | MessagingService | FCM payload handling, `String.hashCode`, token save |
| formatters.dfy | Formatters | `formatTimestamp`, `formatLastSeen` |
| presence.dfy | Presence | `PresenceManager` |

Two data classes lack fields that the rest of the code uses:

- `data/Conversation.kt` declares neither `unreadCount` nor `isGroup`, yet the mappers,
  repositories and screens read and write both. The model's `Conversation` has them.
- `data/Message.kt` declares only `mediaUrl`, while the mappers also use `imageUrl` and
  `videoUrl`. The model's `Message` has all three.

## Model

| member | source | states |
|---|---|---|
| LocalStore.InsertAll | app/src/main/java/com/example/vibechat/data/local/daos/ConversationDao.kt:12-13 | inserting a list with REPLACE leaves, under each key, the last row of the list with that key; keys the list does not mention keep their old rows |
| LocalStore.UpsertAll | app/src/main/java/com/example/vibechat/data/local/daos/ContactDao.kt:12-13 | the same as a pure function: the table's keys are the old keys plus the list's keys, the last row per key wins, and every row stays under its own key |
| LocalStore.Upsert | app/src/main/java/com/example/vibechat/data/local/daos/ContactDao.kt:9-10 | a REPLACE insert puts the row under its key and leaves every other key's row as it was |
| LocalStore.Delete | app/src/main/java/com/example/vibechat/data/local/daos/ContactDao.kt:18-19 | a delete by primary key removes that key and nothing else |
| LocalStore.DeleteIdempotent | app/src/main/java/com/example/vibechat/data/local/daos/ContactDao.kt:18-19 | deleting a missing key changes nothing, and deleting twice is deleting once |
| LocalStore.DeleteUndoesUpsert | app/src/main/java/com/example/vibechat/data/local/daos/ContactDao.kt:9-19 | inserting a row and then deleting its key gives the table that deleting the key alone gives |
| LocalStore.UpsertIdempotent | app/src/main/java/com/example/vibechat/data/local/daos/ContactDao.kt:9-10 | inserting the same row twice gives the same table as inserting it once |
| LocalStore.LookupAfterUpsertAll | app/src/main/java/com/example/vibechat/data/local/daos/UserDao.kt:12-16 | after a list insert, a key the list mentions reads back as the list's last row with that key |
| LocalStore.Rows | app/src/main/java/com/example/vibechat/data/local/daos/ContactDao.kt:15-16 | a table scan yields every row once: its rows are exactly the table's values and there is one per key |
| LocalStore.InsertConversation | app/src/main/java/com/example/vibechat/data/local/daos/ConversationDao.kt:9-10 | the conversation lands under its partnerId; every other row and every other table is unchanged |
| LocalStore.InsertAllConversations | app/src/main/java/com/example/vibechat/data/local/daos/ConversationDao.kt:12-13 | each partnerId in the list holds the list's last conversation with that id; other rows and tables are unchanged |
| LocalStore.DeleteConversationByPartnerId | app/src/main/java/com/example/vibechat/data/local/daos/ConversationDao.kt:18-19 | the conversation with that partnerId is gone and all others are kept |
| LocalStore.GetAllConversations | app/src/main/java/com/example/vibechat/data/local/daos/ConversationDao.kt:15-16 | returns every stored conversation once, newest timestamp first, rows without a timestamp last |
| LocalStore.InsertMessage | app/src/main/java/com/example/vibechat/data/local/daos/MessageDao.kt:9-10 | the message lands under its id; every other message is unchanged |
| LocalStore.InsertAllMessages | app/src/main/java/com/example/vibechat/data/local/daos/MessageDao.kt:12-13 | each message id in the list holds the list's last message with that id; other messages are unchanged |
| LocalStore.MessageMovesBetweenChats | app/src/main/java/com/example/vibechat/data/local/daos/MessageDao.kt:9-16 | because the key is the message id alone, re-inserting a message under another chatId moves it: it leaves the old chat's query and joins the new one |
| LocalStore.DeleteAllMessagesForChat | app/src/main/java/com/example/vibechat/data/local/daos/MessageDao.kt:18-19 | exactly the messages of that chat are removed; all others are kept unchanged |
| LocalStore.GetMessagesForChat | app/src/main/java/com/example/vibechat/data/local/daos/MessageDao.kt:15-16 | returns the chat's messages, one row per stored message of the chat (the count equals the chat's ids), oldest first, rows without a timestamp first |
| LocalStore.ChatIdsAfterInsert | app/src/main/java/com/example/vibechat/data/local/daos/MessageDao.kt:9-16 | inserting a message adds its id to its own chat's query and takes it out of every other chat's query |
| LocalStore.InsertContact | app/src/main/java/com/example/vibechat/data/local/daos/ContactDao.kt:9-10 | the contact lands under its uid; every other contact is unchanged |
| LocalStore.InsertAllContacts | app/src/main/java/com/example/vibechat/data/local/daos/ContactDao.kt:12-13 | each uid in the list holds the list's last contact with that uid; other contacts are unchanged |
| LocalStore.DeleteContactByUid | app/src/main/java/com/example/vibechat/data/local/daos/ContactDao.kt:18-19 | the contact with that uid is gone and all others are kept |
| LocalStore.GetAllContacts | app/src/main/java/com/example/vibechat/data/local/daos/ContactDao.kt:15-16 | returns every stored contact once, in ascending order of customName |
| LocalStore.InsertGroup | app/src/main/java/com/example/vibechat/data/local/daos/GroupDao.kt:9-10 | the group lands under its id; every other group is unchanged |
| LocalStore.InsertAllGroups | app/src/main/java/com/example/vibechat/data/local/daos/GroupDao.kt:12-13 | each group id in the list holds the list's last group with that id; other groups are unchanged |
| LocalStore.GetGroupById | app/src/main/java/com/example/vibechat/data/local/daos/GroupDao.kt:15-16 | yields a row iff the id is stored, and that row is the stored one, carrying the id |
| LocalStore.GroupReadsBack | app/src/main/java/com/example/vibechat/data/local/daos/GroupDao.kt:9-16 | a group read back after its insert is the inserted row, and other ids read as before |
| LocalStore.DeleteGroupById | app/src/main/java/com/example/vibechat/data/local/daos/GroupDao.kt:18-19 | afterwards the group reads as absent and every other group id reads as before |
| LocalStore.InsertUser | app/src/main/java/com/example/vibechat/data/local/daos/UserDao.kt:9-10 | the user lands under its uid; every other user is unchanged |
| LocalStore.InsertAllUsers | app/src/main/java/com/example/vibechat/data/local/daos/UserDao.kt:12-13 | each uid in the list holds the list's last user with that uid; other users are unchanged |
| LocalStore.GetUserById | app/src/main/java/com/example/vibechat/data/local/daos/UserDao.kt:15-16 | yields a row iff the uid is stored, and that row is the stored one, carrying the uid |
| LocalStore.GetUserAfterInsertAll | app/src/main/java/com/example/vibechat/data/local/daos/UserDao.kt:12-16 | a user named by a list insert reads back as the list's last row with that uid |
| LocalStore.InsertIsInsertAllOfOne | app/src/main/java/com/example/vibechat/data/local/daos/UserDao.kt:9-13 | inserting one user is the same as inserting a one-element list |
| Mappers.ConversationEntityFields | app/src/main/java/com/example/vibechat/data/local/entities/ConversationMappers.kt:6-17 | the entity copies every field, and the timestamp is stored as whole seconds |
| Mappers.ConversationNullDefaults | app/src/main/java/com/example/vibechat/data/local/entities/ConversationMappers.kt:19-29 | reading back, a null lastMessage becomes "" and a null timestamp becomes "now" |
| Mappers.ConversationEntityRoundTrip | app/src/main/java/com/example/vibechat/data/local/entities/ConversationMappers.kt:6-29 | entity to object and back is the identity for rows with lastMessage and timestamp set |
| Mappers.ConversationDataRoundTrip | app/src/main/java/com/example/vibechat/data/local/entities/ConversationMappers.kt:6-29 | object to entity and back loses only the sub-second part of the timestamp |
| Mappers.GroupFields | app/src/main/java/com/example/vibechat/data/local/entities/GroupMappers.kt:6-27 | member and admin lists are copied unchanged both ways, and a timestamp is present after mapping iff it was present before |
| Mappers.GroupEntityRoundTrip | app/src/main/java/com/example/vibechat/data/local/entities/GroupMappers.kt:6-27 | entity to group and back is the identity |
| Mappers.GroupDataRoundTrip | app/src/main/java/com/example/vibechat/data/local/entities/GroupMappers.kt:6-27 | group to entity and back loses only the sub-second part of the timestamp |
| Mappers.MessageFields | app/src/main/java/com/example/vibechat/data/local/entities/MessageMappers.kt:6-16 | the entity carries the given chatId and copies the other fields |
| Mappers.MessageEntityRoundTrip | app/src/main/java/com/example/vibechat/data/local/entities/MessageMappers.kt:6-26 | entity to message and back, under the same chatId, is the identity |
| Mappers.MessageDataRoundTrip | app/src/main/java/com/example/vibechat/data/local/entities/MessageMappers.kt:6-26 | message to entity and back drops the sub-second part of the timestamp, resets `status` to "SENT" and `mediaUrl` to null, and keeps every other field |
| Mappers.UserFields | app/src/main/java/com/example/vibechat/data/local/entities/UserMappers.kt:5-14 | a null uid becomes the empty key ""; the other fields are copied |
| Mappers.UserEntityRoundTrip | app/src/main/java/com/example/vibechat/data/local/entities/UserMappers.kt:5-24 | entity to user and back is the identity |
| Mappers.UserDataRoundTrip | app/src/main/java/com/example/vibechat/data/local/entities/UserMappers.kt:5-24 | user to entity and back is the identity iff the user has a uid |
| Mappers.ContactRoundTrips | app/src/main/java/com/example/vibechat/data/local/entities/ContactMappers.kt:5-20 | contact and entity map to each other losslessly in both directions, keyed by uid |
| RemoteStore.SetForOwners | app/src/main/java/com/example/vibechat/repository/GroupRepository.kt:67-73 | the batch `set` writes the same conversation under every listed owner, and no other document changes |
| RemoteStore.UpdateWhere | app/src/main/java/com/example/vibechat/repository/UserRepository.kt:118-133 | the batch update changes exactly the selected documents and creates none |
| RemoteStore.FindUserByPhone | app/src/main/java/com/example/vibechat/repository/UserRepository.kt:26-30 | the phone query finds a user with that phone number iff one exists |
| GroupRepository.Uids | app/src/main/java/com/example/vibechat/repository/GroupRepository.kt:31-32 | the uid list has one entry per chosen contact, and its uids are exactly those of the contacts |
| GroupRepository.GroupConversation | app/src/main/java/com/example/vibechat/repository/GroupRepository.kt:56-63 | the group's conversation row is keyed by the group id, named after the group, marked as a group and has no unread messages |
| GroupRepository.CreateGroup | app/src/main/java/com/example/vibechat/repository/GroupRepository.kt:25-86 | signed out means failure with nothing written; otherwise the group's members are the creator plus the chosen contacts with no duplicate, the creator is the only admin, every member gets the same group conversation, no other document or collection changes, and Room caches the group and its conversation and changes no other row |
| GroupRepository.RemoveLocally | app/src/main/java/com/example/vibechat/repository/GroupRepository.kt:95-101 | the cached group loses the member from its member and admin lists; a group that is not cached is left alone |
| GroupRepository.RemoveMemberFromGroup | app/src/main/java/com/example/vibechat/repository/GroupRepository.kt:88-114 | succeeds iff the group exists; then the member leaves both lists, the rest of the group document and every other group stay as they were, the member's conversation document is deleted, and no other collection changes. Locally the cached group loses the member from both lists and the caller's conversation row is deleted in every case |
| GroupRepository.RemoveKeepsOthers | app/src/main/java/com/example/vibechat/repository/GroupRepository.kt:97-107 | removing one member keeps every other member, in order, together with their admin rights |
| GroupRepository.AddMembersToGroup | app/src/main/java/com/example/vibechat/repository/GroupRepository.kt:116-155 | a missing group fails with nothing written; otherwise the remote list is the arrayUnion of the old list and the new uids (old members keep their order, a list without duplicates stays so), the rest of the group document is unchanged, each new member gets a "you were added" conversation, no other document changes, and the cached row, when present, has the new uids appended and nothing else changed |
| GroupRepository.AppendIsUnionWhenFresh | app/src/main/java/com/example/vibechat/repository/GroupRepository.kt:119-147 | when the added uids are distinct and not yet members, the cached append and Firestore's arrayUnion give the same list |
| GroupRepository.AppendIsUnionIff | app/src/main/java/com/example/vibechat/repository/GroupRepository.kt:119-147 | for a member list without duplicates, append and arrayUnion agree exactly when the added uids are distinct and not yet members |
| Seqs.ArrayUnionLength | app/src/main/java/com/example/vibechat/repository/GroupRepository.kt:141 | arrayUnion grows the list by at most the number of arguments, and by fewer when one of them is already present |
| GroupRepository.ReAddDuplicatesLocally | app/src/main/java/com/example/vibechat/repository/GroupRepository.kt:119-147 | whenever a new uid is already a member of a group whose two copies agreed, the call leaves the cached list with a duplicate and different from Firestore's list |
| GroupRepository.RemoveUndoesAdd | app/src/main/java/com/example/vibechat/repository/GroupRepository.kt:88-147 | adding a uid that was not a member and then removing it restores the member list |
| GroupRepository.RenameGroup | app/src/main/java/com/example/vibechat/repository/GroupRepository.kt:157-190 | a blank name and a missing group fail with nothing written; otherwise the batch succeeds iff every member has the group's conversation document, and then renames the group (its other fields and every other group unchanged) and exactly the members' conversations, each of which changes only in its partner name, with no other collection touched. The cached row, when present, is renamed before the batch and nothing else in Room changes |
| GroupRepository.RenameIdempotent | app/src/main/java/com/example/vibechat/repository/GroupRepository.kt:157-190 | renaming again to the same name succeeds and changes nothing more |
| GroupRepository.LeaveLocally | app/src/main/java/com/example/vibechat/repository/GroupRepository.kt:202-211 | the caller's conversation row goes; a cached group with at most one member is deleted, otherwise the caller leaves its member and admin lists |
| GroupRepository.LeaveGroup | app/src/main/java/com/example/vibechat/repository/GroupRepository.kt:192-242 | signed out means failure; otherwise the caller's group conversation document is deleted, and the group document is deleted iff the caller was its only member, else the caller is removed from both lists and the rest of the group document is kept; other groups and other collections are unchanged |
| GroupRepository.LeaverIsGone | app/src/main/java/com/example/vibechat/repository/GroupRepository.kt:221-233 | after leaving, the caller is neither member nor admin of a group that still exists |
| GroupRepository.SoleOtherMemberKeepsGroup | app/src/main/java/com/example/vibechat/repository/GroupRepository.kt:221-233 | a group whose one member is somebody else is kept, with that member, when a non-member leaves |
| UserRepository.NewContact | app/src/main/java/com/example/vibechat/repository/UserRepository.kt:35-40 | the contact stores the found uid, the chosen name, the typed phone number and the user's picture |
| UserRepository.ContactConversation | app/src/main/java/com/example/vibechat/repository/UserRepository.kt:50-57 | the new conversation is keyed by the contact's uid, carries the custom name and the user's phone ("" if none), and is not a group |
| UserRepository.AddContactWith | app/src/main/java/com/example/vibechat/repository/UserRepository.kt:22-67 | fails when signed out, when no user has the phone, or when the user has no uid; succeeds exactly otherwise, and then writes the contact built from the found user and the conversation named after the contact (every field overwritten) to Firestore, and the user, that contact and that conversation to Room; nothing else changes in either store |
| UserRepository.AddContact | app/src/main/java/com/example/vibechat/repository/UserRepository.kt:22-67 | running the phone query: signed out or an unknown phone fails with nothing written; a phone whose users all have a uid succeeds; a success stores, for some user with that phone, the contact built from that user with the typed phone and name, and a conversation named after the contact |
| UserRepository.DeleteContact | app/src/main/java/com/example/vibechat/repository/UserRepository.kt:69-84 | signed out fails; otherwise the contact and conversation documents are deleted remotely (nothing else in Firestore changes) and the contact row locally, while the local conversation row and every other table stay as they were |
| UserRepository.DeleteAfterAddLeavesLocalConversation | app/src/main/java/com/example/vibechat/repository/UserRepository.kt:22-84 | after adding then deleting a contact, both documents and the contact row are gone but the local conversation row is still there |
| UserRepository.IsContactBlocked | app/src/main/java/com/example/vibechat/repository/UserRepository.kt:87-96 | true iff signed in and the blockedUsers document for that uid exists |
| UserRepository.BlockContact | app/src/main/java/com/example/vibechat/repository/UserRepository.kt:98-106 | signed in: the blockedUsers document is created and nothing else changes; signed out: failure |
| UserRepository.UnblockContact | app/src/main/java/com/example/vibechat/repository/UserRepository.kt:108-116 | signed in: the blockedUsers document is deleted and nothing else changes; signed out: failure |
| UserRepository.BlockUnblockObserved | app/src/main/java/com/example/vibechat/repository/UserRepository.kt:87-116 | after blocking the check says blocked, after unblocking it says not blocked, and other uids are unaffected |
| UserRepository.UnblockUndoesBlock | app/src/main/java/com/example/vibechat/repository/UserRepository.kt:98-116 | blocking then unblocking a uid that was not blocked restores the store |
| UserRepository.UpdateUserPictureInAllConversations | app/src/main/java/com/example/vibechat/repository/UserRepository.kt:118-133 | every conversation whose partner is the user gets the new picture; all other conversations and collections are unchanged |
| UserRepository.UpdateUserNameInAllConversations | app/src/main/java/com/example/vibechat/repository/UserRepository.kt:135-150 | every conversation whose partner is the user gets the new name; all other conversations and collections are unchanged |
| UserRepository.NameFanOutReachesAll | app/src/main/java/com/example/vibechat/repository/UserRepository.kt:135-150 | afterwards no conversation with that partner carries another name |
| UserRepository.UpdateUserProfilePicture | app/src/main/java/com/example/vibechat/repository/UserRepository.kt:154-173 | the cached user gets the picture and no other Room row changes; the remote update succeeds iff the user document exists, and then only that user document's picture and the conversations naming the user change |
| UserRepository.UpdateUserName | app/src/main/java/com/example/vibechat/repository/UserRepository.kt:175-194 | the cached user gets the name and no other Room row changes; the remote update succeeds iff the user document exists, and then only that user document's name and the conversations naming the user change |
| UserRepository.UpdateUserStatus | app/src/main/java/com/example/vibechat/repository/UserRepository.kt:196-212 | the cached user gets the status and no other Room row changes; the remote update succeeds iff the user document exists, and then only that user document's status changes |
| ContactRepository.AddContactWith | app/src/main/java/com/example/vibechat/repository/ContactRepository.kt:13-51 | fails when signed out, when no user has the phone, or when the user has no uid; on success it writes only the contact document, built from the found user |
| ContactRepository.AddContact | app/src/main/java/com/example/vibechat/repository/ContactRepository.kt:13-51 | running the phone query: signed out or an unknown phone fails with nothing written; a phone whose users all have a uid succeeds; a success writes only the contact document of some user with that phone, holding that uid, the typed name and phone, and the user's picture |
| ChatScreen.RoomsMirror | app/src/main/java/com/example/vibechat/ui/screens/ChatScreen.kt:57-58 | my receiver room is my partner's sender room, and the other way round |
| ChatScreen.RoomsInjectiveForEqualLengths | app/src/main/java/com/example/vibechat/ui/screens/ChatScreen.kt:57-58 | when the uids have equal length, the room id determines both uids |
| ChatScreen.RoomsCollideForUnequalLengths | app/src/main/java/com/example/vibechat/ui/screens/ChatScreen.kt:57-58 | uids of different lengths can share a room id |
| ChatScreen.OpenChat | app/src/main/java/com/example/vibechat/ui/screens/ChatScreen.kt:60-68 | opening a chat zeroes the unread count of my conversation with the partner if it exists, and changes nothing else |
| ChatScreen.Unread | app/src/main/java/com/example/vibechat/ui/screens/ChatScreen.kt:94-97 | the messages that need a receipt are exactly those in my room that I did not send and that are not READ |
| ChatScreen.ReadReceipts | app/src/main/java/com/example/vibechat/ui/screens/ChatScreen.kt:94-103 | the batch succeeds iff every such message has both copies; then both copies become READ and no other message changes; on failure nothing is written |
| ChatScreen.ReadReceiptsIdempotent | app/src/main/java/com/example/vibechat/ui/screens/ChatScreen.kt:94-103 | after one receipt pass, no message in the room needs a receipt, and a second pass writes nothing more |
| ChatScreen.SendNeedsEnabledComposer | app/src/main/java/com/example/vibechat/ui/screens/ChatScreen.kt:224-234 | a message can only be sent when the composer is enabled (not blocked) and the text is not empty |
| ChatScreen.Outgoing | app/src/main/java/com/example/vibechat/ui/screens/ChatScreen.kt:235-236 | the sent message carries its id, its text, my uid, the send time and status SENT |
| ChatScreen.UpdateConversation | app/src/main/java/com/example/vibechat/ui/screens/ChatScreen.kt:309-365 | nothing is written unless both user documents exist; then my conversation is overwritten with unread 0 and the partner's gets the message with unread one higher; no other conversation changes |
| ChatScreen.Send | app/src/main/java/com/example/vibechat/ui/screens/ChatScreen.kt:232-243 | when sending is allowed the same message goes into both rooms, the conversations are those `updateConversation` writes, nothing else changes, the peer's unread count rises by one and the field is cleared; otherwise nothing is written and the text stays |
| ChatScreen.SendMany | app/src/main/java/com/example/vibechat/ui/screens/ChatScreen.kt:232-243 | any number of presses of the send button leaves the user documents unchanged |
| ChatScreen.UnreadCountsEverySend | app/src/main/java/com/example/vibechat/ui/screens/ChatScreen.kt:343-353 | after any series of presses of the send button, the partner's unread count has grown by exactly the number of presses that passed the guard, counting from 0 when their row was missing; the row exists afterwards exactly when it existed before or some send was accepted |
| ChatScreen.OpenAfterSendsClears | app/src/main/java/com/example/vibechat/ui/screens/ChatScreen.kt:60-68 | when the partner opens the chat after any number of sends, their unread count is 0 |
| ChatScreen.StatusIcon | app/src/main/java/com/example/vibechat/ui/screens/ChatScreen.kt:428-434 | the icon is blue iff the status is READ, and a double tick iff the status is READ or DELIVERED |
| HomeScreen.SyncConversations | app/src/main/java/com/example/vibechat/ui/screens/HomeScreen.kt:161-169 | a snapshot upserts its conversations into Room, each partnerId holding the entity of the snapshot's last conversation with it, and a failed listen changes nothing; no row is ever deleted, and a row the snapshot does not mention is unchanged |
| HomeScreen.SyncContacts | app/src/main/java/com/example/vibechat/ui/screens/HomeScreen.kt:171-179 | a snapshot upserts its contacts into Room, each uid holding the entity of the snapshot's last contact with it, and a failed listen changes nothing; no row is ever deleted, and a row the snapshot does not mention is unchanged |
| HomeScreen.SyncNeverDeletes | app/src/main/java/com/example/vibechat/ui/screens/HomeScreen.kt:161-169 | a conversation delivered once survives a later snapshot that no longer lists it |
| HomeScreen.BlockedIds | app/src/main/java/com/example/vibechat/ui/screens/HomeScreen.kt:181-187 | the blocked set is exactly the document ids of the user's blockedUsers collection |
| HomeScreen.SyncBlocked | app/src/main/java/com/example/vibechat/ui/screens/HomeScreen.kt:181-187 | a snapshot replaces the blocked set with its ids; a missing snapshot keeps it |
| HomeScreen.CustomNameFor | app/src/main/java/com/example/vibechat/ui/screens/HomeScreen.kt:195 | a name is found iff some contact row has the uid, and the name belongs to such a row |
| HomeScreen.Display | app/src/main/java/com/example/vibechat/ui/screens/HomeScreen.kt:196-199 | a row shows the contact's name when there is one, otherwise the stored partner name; every other field comes from the mapper |
| HomeScreen.DisplayList | app/src/main/java/com/example/vibechat/ui/screens/HomeScreen.kt:192-200 | one display row per stored conversation, in the same order, with the same partner, unread count and group flag |
| HomeScreen.DisplayNameFromTable | app/src/main/java/com/example/vibechat/ui/screens/HomeScreen.kt:192-200 | reading the contacts table, a partner who is a contact is shown under the table's name, and any other partner under the stored name |
| HomeScreen.NotBlocked | app/src/main/java/com/example/vibechat/ui/screens/HomeScreen.kt:206 | the first stage keeps a row iff its partner is not blocked |
| HomeScreen.MatchesQuery | app/src/main/java/com/example/vibechat/ui/screens/HomeScreen.kt:211-213 | the search stage keeps a row iff its name contains the query, ignoring case |
| HomeScreen.InCategory | app/src/main/java/com/example/vibechat/ui/screens/HomeScreen.kt:215-219 | "Não lidas" keeps unread rows, "Grupos" keeps group rows, and any other chip keeps everything |
| HomeScreen.Filtered | app/src/main/java/com/example/vibechat/ui/screens/HomeScreen.kt:203-220 | the list shown keeps display order, and a row is in it iff it is unblocked, matches the query (a blank query matches all) and fits the chip |
| HomeScreen.FilteredIsOneFilter | app/src/main/java/com/example/vibechat/ui/screens/HomeScreen.kt:203-220 | the three stages together equal one filter by the combined condition |
| HomeScreen.DefaultShowsEverything | app/src/main/java/com/example/vibechat/ui/screens/HomeScreen.kt:45 | on the initial chip, with an empty search and nobody blocked, every display row is shown |
| HomeScreen.UnreadChipListsBadgedRows | app/src/main/java/com/example/vibechat/ui/screens/HomeScreen.kt:280 | "Não lidas" lists exactly the rows that "Todas" lists and that carry the unread badge |
| Text.ContainsIsCaseBlind | app/src/main/java/com/example/vibechat/ui/screens/HomeScreen.kt:211-213 | the search result does not change when the query's case changes |
| Selection.Toggle | app/src/main/java/com/example/vibechat/ui/screens/AddGroupMembersScreen.kt:100-106 | a click adds the contact if it was not selected and removes it if it was; no other contact changes and no duplicate appears |
| Selection.ToggleTwice | app/src/main/java/com/example/vibechat/ui/screens/AddGroupMembersScreen.kt:100-106 | clicking the same contact twice restores the selection |
| Selection.ToggleUnlessLoading | app/src/main/java/com/example/vibechat/ui/screens/CreateGroupScreen.kt:181-189 | while the group is being created a click changes nothing; otherwise it toggles |
| GroupDetailsScreen.Header | app/src/main/java/com/example/vibechat/ui/screens/GroupDetailsScreen.kt:88 | rename and "add participants" are offered iff the group is loaded and the viewer is one of its admins |
| GroupDetailsScreen.MemberName | app/src/main/java/com/example/vibechat/ui/screens/GroupDetailsScreen.kt:174-176 | a member is shown under the viewer's contact name, else their profile name, else "Utilizador" |
| GroupDetailsScreen.Row | app/src/main/java/com/example/vibechat/ui/screens/GroupDetailsScreen.kt:173-180 | the admin badge shows iff the member is an admin; the remove option shows iff the viewer is an admin and the member is not the viewer |
| GroupDetailsScreen.NoSelfRemoval | app/src/main/java/com/example/vibechat/ui/screens/GroupDetailsScreen.kt:180 | nobody is offered to remove themselves, and whoever is offered removal sees the admin actions |
| GroupDetailsScreen.AdminOwnRow | app/src/main/java/com/example/vibechat/ui/screens/GroupDetailsScreen.kt:179-180 | an admin's own row has the badge and no remove option |
| GroupDetailsScreen.AssociateBy | app/src/main/java/com/example/vibechat/ui/screens/GroupDetailsScreen.kt:61-62 | the name map has a uid iff some contact has it, under the last such contact's name |
| GroupDetailsScreen.EveryContactNamed | app/src/main/java/com/example/vibechat/ui/screens/GroupDetailsScreen.kt:61-62 | every contact's uid is in the map, under the name of a contact with that uid |
| GroupDetailsScreen.OnContactsSnapshot | app/src/main/java/com/example/vibechat/ui/screens/GroupDetailsScreen.kt:57-64 | a snapshot replaces the names with exactly the snapshot's uids, each mapped to the name of the last contact with that uid; a missing snapshot keeps them |
| GroupDetailsScreen.OnGroupSnapshot | app/src/main/java/com/example/vibechat/ui/screens/GroupDetailsScreen.kt:66-81 | a group with members starts a member query; a missing or empty group clears the members, and an existing empty group makes the screen leave |
| GroupDetailsScreen.OnMembersSnapshot | app/src/main/java/com/example/vibechat/ui/screens/GroupDetailsScreen.kt:71-74 | the members become the snapshot's users, or none on error; nothing else changes |
| GroupDetailsScreen.RemovingLastMemberLeaves | app/src/main/java/com/example/vibechat/ui/screens/GroupDetailsScreen.kt:75-79 | removing the last member leaves an empty group document, whose snapshot makes the screen leave |
| GroupDetailsScreen.DeletedGroupDoesNotLeave | app/src/main/java/com/example/vibechat/ui/screens/GroupDetailsScreen.kt:75-79 | a deleted group document empties the member list but does not make the screen leave |
| AddGroupMembersScreen.Candidates | app/src/main/java/com/example/vibechat/ui/screens/AddGroupMembersScreen.kt:43-51 | the candidates are the contacts, in order, that are not members of the group (all contacts when the group cannot be read) |
| AddGroupMembersScreen.LoadCandidates | app/src/main/java/com/example/vibechat/ui/screens/AddGroupMembersScreen.kt:37-54 | nothing changes unless signed in and both reads succeed; then the list becomes the candidates |
| AddGroupMembersScreen.OnToggle | app/src/main/java/com/example/vibechat/ui/screens/AddGroupMembersScreen.kt:100-106 | a click toggles the contact in the selection, with no duplicate and no other change |
| AddGroupMembersScreen.OnConfirm | app/src/main/java/com/example/vibechat/ui/screens/AddGroupMembersScreen.kt:69-73 | the repository is called iff something is selected, with exactly the selection, and the screen starts loading |
| AddGroupMembersScreen.OnAddResult | app/src/main/java/com/example/vibechat/ui/screens/AddGroupMembersScreen.kt:74-80 | loading stops, and the screen goes back iff the call succeeded |
| AddGroupMembersScreen.CandidatesKeepListsEqual | app/src/main/java/com/example/vibechat/ui/screens/AddGroupMembersScreen.kt:43-73 | adding distinct candidates keeps the cached member list equal to Firestore's |
| CreateGroupScreen.OnCreate | app/src/main/java/com/example/vibechat/ui/screens/CreateGroupScreen.kt:92-108 | a blank name or an empty selection shows its message and calls nothing; otherwise the repository is called with the name, picture and selection, and the screen starts loading |
| CreateGroupScreen.OnToggle | app/src/main/java/com/example/vibechat/ui/screens/CreateGroupScreen.kt:181-189 | clicks are ignored while loading, otherwise they toggle the contact |
| CreateGroupScreen.OnCreateResult | app/src/main/java/com/example/vibechat/ui/screens/CreateGroupScreen.kt:110-119 | loading stops, and the screen goes back iff the group was created |
| CreateGroupScreen.CreatedFromForm | app/src/main/java/com/example/vibechat/ui/screens/CreateGroupScreen.kt:92-119 | a group created from the form has a non-blank name, the creator as a member and its only admin, and every selected contact as a member |
| ContactProfileScreen.OnOpen | app/src/main/java/com/example/vibechat/ui/screens/ContactProfileScreen.kt:67-83 | with a profile id and a signed-in viewer, the block state is read from the store and the button is enabled; otherwise nothing happens |
| ContactProfileScreen.OnUserSnapshot | app/src/main/java/com/example/vibechat/ui/screens/ContactProfileScreen.kt:69-77 | a readable user document is cached in Room; a missing one changes nothing |
| ContactProfileScreen.CommonGroups | app/src/main/java/com/example/vibechat/ui/screens/ContactProfileScreen.kt:89-90 | the common groups are, in order, the viewer's groups that also list the contact as a member |
| ContactProfileScreen.OnGroupsSnapshot | app/src/main/java/com/example/vibechat/ui/screens/ContactProfileScreen.kt:86-94 | the common groups are shown and upserted into Room, each id holding the last group listed with it; no cached group is deleted and no other table changes |
| ContactProfileScreen.CommonGroupsHoldBoth | app/src/main/java/com/example/vibechat/ui/screens/ContactProfileScreen.kt:86-90 | every group shown has both the viewer and the contact as members |
| ContactProfileScreen.OnBlockButton | app/src/main/java/com/example/vibechat/ui/screens/ContactProfileScreen.kt:200-220 | a disabled button does nothing; an enabled one unblocks a blocked contact and blocks otherwise, and the shown state flips iff the write succeeded |
| ContactProfileScreen.ShownStateTracksStore | app/src/main/java/com/example/vibechat/ui/screens/ContactProfileScreen.kt:80-83 | after opening, and after a toggle whatever its outcome, the shown state equals the store's blocked state |
| ContactProfileScreen.InactiveButtonStaysDisabled | app/src/main/java/com/example/vibechat/ui/screens/ContactProfileScreen.kt:56-57 | without a profile id or a viewer the button stays disabled and a click writes nothing |
| SelectContactScreen.OnContactsSnapshot | app/src/main/java/com/example/vibechat/ui/screens/SelectContactScreen.kt:51-57 | the list becomes the snapshot's contacts; a failed listen empties it |
| SelectContactScreen.OpenChat | app/src/main/java/com/example/vibechat/ui/screens/SelectContactScreen.kt:87-93 | a chat opens iff the contact has a uid and a name, on the route built from name, uid and phone |
| SelectContactScreen.OnDeleteIcon | app/src/main/java/com/example/vibechat/ui/screens/SelectContactScreen.kt:95-98 | the icon remembers the contact and opens the dialog, and the list is unchanged |
| SelectContactScreen.OnConfirmDelete | app/src/main/java/com/example/vibechat/ui/screens/SelectContactScreen.kt:103-130 | the repository is called iff a contact with a uid is pending; the dialog closes either way |
| SelectContactScreen.ConfirmedDeleteRemoves | app/src/main/java/com/example/vibechat/ui/screens/SelectContactScreen.kt:111-127 | confirming the deletion of a contact with a uid removes its contact and conversation documents and its contact row |
| PhoneAuth.Step | app/src/main/java/com/example/vibechat/viewmodel/PhoneAuthViewModel.kt:20-45 | a start shows Loading; the started verification's callbacks show Idle, the error message (or the default text) and CodeSent; a reset shows Idle |
| PhoneAuth.Run | app/src/main/java/com/example/vibechat/viewmodel/PhoneAuthViewModel.kt:16-45 | the set of started phone numbers only grows |
| PhoneAuth.RunConsistent | app/src/main/java/com/example/vibechat/viewmodel/PhoneAuthViewModel.kt:16-54 | in any event sequence, a CodeSent state always names a phone number that was started |
| PhoneAuth.StartThenCodeSent | app/src/main/java/com/example/vibechat/viewmodel/PhoneAuthViewModel.kt:29-37 | a start followed by a code shows CodeSent for that phone, and a failure without a message shows "Ocorreu um erro desconhecido." |
| PhoneNumberScreen.Opened | app/src/main/java/com/example/vibechat/ui/screens/EnterPhoneNumberScreen.kt:38-48 | the screen opens on Brasil with +55 and an empty number |
| PhoneNumberScreen.PickCountry | app/src/main/java/com/example/vibechat/ui/screens/EnterPhoneNumberScreen.kt:130-133 | picking a country sets its name and code together and keeps the number |
| PhoneNumberScreen.PickedPairsMatch | app/src/main/java/com/example/vibechat/ui/screens/EnterPhoneNumberScreen.kt:38-43 | the code after any picks is the last picked country's, and different countries have different codes |
| PhoneNumberScreen.OnSubmit | app/src/main/java/com/example/vibechat/ui/screens/EnterPhoneNumberScreen.kt:181-196 | a disabled button (Loading) does nothing; an enabled one starts verification of code + number iff it has more than 5 characters, and otherwise shows the invalid-number toast |
| PhoneNumberScreen.BrazilNeedsThreeDigits | app/src/main/java/com/example/vibechat/ui/screens/EnterPhoneNumberScreen.kt:181-187 | with the default +55, the number needs at least 3 characters to start a verification; a shorter one shows the invalid-number toast |
| PhoneNumberScreen.OnUiState | app/src/main/java/com/example/vibechat/ui/screens/EnterPhoneNumberScreen.kt:50-55 | an Error state is shown and reset to Idle; any other state is left alone |
| PhoneNumberScreen.SubmitStartsLoading | app/src/main/java/com/example/vibechat/ui/screens/EnterPhoneNumberScreen.kt:181-196 | an accepted submit puts the view model in Loading, which disables the button |
| OtpScreen.Opened | app/src/main/java/com/example/vibechat/ui/screens/OtpVerificationScreen.kt:37-41 | the screen opens with six empty cells, no error, not loading, and a 30-second resend timer |
| OtpScreen.OnInput | app/src/main/java/com/example/vibechat/ui/screens/OtpVerificationScreen.kt:90-105 | an empty or single-digit input replaces that cell and any other input is ignored; the cells stay six single digits or empty |
| OtpScreen.Join | app/src/main/java/com/example/vibechat/ui/screens/OtpVerificationScreen.kt:149 | the joined code has one character per filled cell and only digits |
| OtpScreen.OnVerify | app/src/main/java/com/example/vibechat/ui/screens/OtpVerificationScreen.kt:146-173 | a six-character code is sent and loading starts; anything else shows "Digite os 6 dígitos." |
| OtpScreen.EnabledSendsSixDigits | app/src/main/java/com/example/vibechat/ui/screens/OtpVerificationScreen.kt:178 | when the button is enabled, verifying always sends six digits |
| OtpScreen.OnSignIn | app/src/main/java/com/example/vibechat/ui/screens/OtpVerificationScreen.kt:153-168 | a new user goes to profile creation, an existing or unknown one to home, and a rejected code stays with "Código inválido. Tente novamente."; loading stops in every case |
| OtpScreen.Tick | app/src/main/java/com/example/vibechat/ui/screens/OtpVerificationScreen.kt:43-48 | each second lowers a positive timer by one and leaves zero alone |
| OtpScreen.TicksCountDown | app/src/main/java/com/example/vibechat/ui/screens/OtpVerificationScreen.kt:43-48 | after n seconds the timer reads max(0, start − n) |
| OtpScreen.OnResend | app/src/main/java/com/example/vibechat/ui/screens/OtpVerificationScreen.kt:198-202 | resend works only at zero and restarts the timer at 30 |
| OtpScreen.ResendAfterThirtySeconds | app/src/main/java/com/example/vibechat/ui/screens/OtpVerificationScreen.kt:41-48 | resend becomes available after exactly 30 seconds |
| MessagingService.Utf16 | app/src/main/java/com/example/vibechat/services/MyFirebaseMessagingService.kt:94 | a string becomes 16-bit code units, one per character outside the supplementary planes |
| MessagingService.HashCode | app/src/main/java/com/example/vibechat/services/MyFirebaseMessagingService.kt:94 | the hash is a signed 32-bit value congruent, modulo 2^32, to the polynomial Σ 31^(n−1−i)·unit[i] |
| MessagingService.HashLoopIsPoly | app/src/main/java/com/example/vibechat/services/MyFirebaseMessagingService.kt:94 | the wrapping loop h = 31·h + c computes that polynomial modulo 2^32 |
| MessagingService.HashExamples | app/src/main/java/com/example/vibechat/services/MyFirebaseMessagingService.kt:94 | "" hashes to 0 and "ab" to 97·31 + 98 |
| MessagingService.NotificationId | app/src/main/java/com/example/vibechat/services/MyFirebaseMessagingService.kt:70 | the notification id is the partner uid's hash, or 0 without a partner |
| MessagingService.OnMessageReceived | app/src/main/java/com/example/vibechat/services/MyFirebaseMessagingService.kt:28-49 | a payload with a notification part shows nothing; a data payload shows its title (default "VibeChat"), its body (default "") and its partner fields |
| MessagingService.SamePartnerSameNotification | app/src/main/java/com/example/vibechat/services/MyFirebaseMessagingService.kt:85-95 | two messages from the same partner share one notification id, so the later replaces the earlier |
| MessagingService.OnNewToken | app/src/main/java/com/example/vibechat/services/MyFirebaseMessagingService.kt:20-26 | the token is written to the signed-in user's document when the uid is non-empty and the document exists; otherwise nothing changes |
| MessagingService.LatestTokenWins | app/src/main/java/com/example/vibechat/services/MyFirebaseMessagingService.kt:98-104 | a later token replaces an earlier one: two refreshes leave the store as the later one alone does |
| Formatters.FormatTimestamp | app/src/main/java/com/example/vibechat/utils/Formatters.kt:8-12 | no timestamp gives "", otherwise its HH:mm rendering |
| Formatters.Classify | app/src/main/java/com/example/vibechat/utils/Formatters.kt:15-40 | 0 means never seen; the same day and year means today; the previous day of the same year means yesterday; anything else means a date |
| Formatters.FormatLastSeen | app/src/main/java/com/example/vibechat/utils/Formatters.kt:15-40 | each case gives its text: "", "visto por último hoje às …", "visto por último ontem às …" or "visto por último em …" |
| Formatters.NewYearIsNotYesterday | app/src/main/java/com/example/vibechat/utils/Formatters.kt:31-34 | a visit on 31 December, seen on 1 January, is shown as a date and not as "ontem" |
| Presence.Initialize | app/src/main/java/com/example/vibechat/utils/PresenceManager.kt:13-25 | the first call while signed in binds the status reference and arms the disconnect hook; any later call changes nothing |
| Presence.InitializeOnce | app/src/main/java/com/example/vibechat/utils/PresenceManager.kt:15 | initialising again, even as another user, keeps the first binding |
| Presence.Write | app/src/main/java/com/example/vibechat/utils/PresenceManager.kt:28-45 | going online or offline writes the flag under the bound uid, and only when signed in and initialised |
| Presence.Disconnect | app/src/main/java/com/example/vibechat/utils/PresenceManager.kt:20-23 | a dropped connection sets the armed uid offline and spends the hook |
| Presence.LastEventWins | app/src/main/java/com/example/vibechat/utils/PresenceManager.kt:13-45 | up to and including the first drop, the user is online iff the last event was going online |
| Presence.SpentHookIgnoresDrops | app/src/main/java/com/example/vibechat/utils/PresenceManager.kt:13-25 | once the hook has fired, a drop changes nothing |
| Presence.StaleOnlineAfterSecondDrop | app/src/main/java/com/example/vibechat/utils/PresenceManager.kt:13-45 | initialise, go online, drop, go online, drop: the user is still shown online |
| Presence.ApplyRearmed | app/src/main/java/com/example/vibechat/utils/PresenceManager.kt:28-35 | the corrected goOnline re-arms the hook and writes what goOnline writes |
| Presence.RearmedLastEventWins | app/src/main/java/com/example/vibechat/utils/PresenceManager.kt:13-45 | with re-arming, after any event sequence the user is online iff the last event was going online |
| Presence.UninitializedIgnoresEvents | app/src/main/java/com/example/vibechat/utils/PresenceManager.kt:28-45 | before initialisation, no event writes anything |

## Left out

- Firebase itself is not modelled: Auth, Firestore, Realtime Database, Storage and Messaging.
  Their answers are parameters. These include the signed-in uid, document reads, query
  results, the success or failure of a write, and uploaded picture URLs.
- Concurrency and listener timing are not modelled. Coroutines, `await`, and the order in
  which callbacks and snapshots arrive are outside the model. Each listener callback is
  one function applied to the state it sees.
- Network and permission failures are not modelled. The only failures are the ones the
  code itself decides: signed out, not found, blank name, and a batch `update` of a
  missing document.
- Clocks, locales and time zones are not modelled. `Timestamp.now()`,
  `System.currentTimeMillis()`, `Calendar` and `SimpleDateFormat` become parameters: the
  time, the day of year and year, and the rendered text.
- createGroup: its two `Timestamp.now()` calls are modelled as one instant.
- ChatScreen.Send: the message's `Timestamp.now()` and the two inside `updateConversation`
  are modelled as one instant.
- Compose rendering, focus movement, toasts other than the validation messages, navigation
  back-stack options, and the notification channel and intent flags are left out. The
  model keeps the decisions those calls depend on.
- Presence: the server-side `lastSeen` timestamp is not modelled. Only the `isOnline`
  flag is.
- The image picker and the Storage upload in createGroup and updateUserProfilePicture are
  left out. The upload's URL is a parameter.
- The `whereIn` limit of ten ids and the order of documents within a snapshot are not
  modelled. A snapshot is any sequence.
- `toObject` conversion failures are modelled only as a missing user or a missing uid.
  `mapNotNull` is not modelled.
- addContact's `limit(1)` query: which of several matching users it returns is left open.
  Any user with that phone is allowed.
- Sorting.Sort: ties between rows with equal sort keys may come back in any order. SQLite
  leaves this unspecified.
- Text.IsDigit: accepts ASCII digits only, while Kotlin's `isDigit` also accepts other
  Unicode decimal digits.
- Text.Lower: folds only ASCII letters, while `ignoreCase = true` folds all of Unicode.
- ChatScreen.UpdateConversation: the unread count is an unbounded integer. The 64-bit
  wrap-around of `FieldValue.increment` is not modelled.
- GroupDetailsScreen.OnGroupSnapshot: member-query listeners are only recorded, never
  removed, as in the app. Their later snapshots are `OnMembersSnapshot` calls, in any
  order.
- PhoneAuth.Step: the verification's callbacks carry the phone number they belong to. A
  callback for a number never started is ignored. The app's screens never observe
  `CodeSent`.
- PhoneNumberScreen.OnSubmit: `EnterPhoneNumberScreen.kt:184` passes a navigation controller
  that `PhoneAuthViewModel.kt:20` no longer takes. The model reads the call as a start with
  the full number. The route `MainActivity.kt:170-176` builds for the chat screen is not
  modelled either.
- Profile, login, sign-up, add-contact and main-activity screens are outside the modelled
  core. So are the database singleton and the sealed-class boilerplate.

## Findings

| source | as written | input that shows it | evidently intended | confidence | as-written member | corrected member |
|---|---|---|---|---|---|---|
| app/src/main/java/com/example/vibechat/utils/PresenceManager.kt:13-25 | the `onDisconnect` write is armed once, by the first `initialize`, and the `database == null` guard stops any later call from arming it again; the realtime database runs an `onDisconnect` operation once | initialize while signed in, go online, connection drops, go online, connection drops | every drop of the connection marks the user offline, which holds when going online re-arms the hook | medium, not executed | Presence.StaleOnlineAfterSecondDrop | Presence.RearmedLastEventWins |

=== FILE: add_group_members_screen.dfy ===
/** The add-participants screen: the contacts that are not yet members, the
    selection, and the confirm button. */
module AddGroupMembersScreen {
  import opened Wrappers
  import opened Model
  import opened Seqs
  import opened Selection
  import opened LocalStore
  import opened RemoteStore
  import GroupRepository

  /** The caller's contacts minus the group's members, in the contacts' order.
      A missing group document counts as a group without members. */
  function Candidates(group: Option<Group>, contacts: seq<Contact>): (r: seq<Contact>)
    ensures Subseq(r, contacts)
    ensures forall c :: c in r <==> c in contacts && (group.None? || c.uid !in group.value.memberIds)
  {
    var memberIds := if group.None? then [] else group.value.memberIds;
    Filter((c: Contact) => c.uid !in memberIds, contacts)
  }

  datatype AddMembers = AddMembers(candidates: seq<Contact>, selected: seq<Contact>, isLoading: bool)

  const Opened: AddMembers := AddMembers([], [], false)

  /** The effect that loads the candidates. `groupRead` is the group document
      read (`None`: the read failed; `Some(None)`: no such document) and
      `contactsRead` the caller's contacts (`None`: the read failed). Nothing
      changes when nobody is signed in or a read fails. */
  function LoadCandidates(s: AddMembers, me: Option<string>, groupRead: Option<Option<Group>>,
                          contactsRead: Option<seq<Contact>>): (r: AddMembers)
    ensures me.None? || groupRead.None? || contactsRead.None? ==> r == s
    ensures me.Some? && groupRead.Some? && contactsRead.Some? ==>
      && r == s.(candidates := r.candidates)
      && forall c :: c in r.candidates <==>
           c in contactsRead.value && (groupRead.value.None? || c.uid !in groupRead.value.value.memberIds)
  {
    if me.None? || groupRead.None? || contactsRead.None? then s
    else s.(candidates := Candidates(groupRead.value, contactsRead.value))
  }

  /** A click on a candidate row. */
  function OnToggle(s: AddMembers, c: Contact): (r: AddMembers)
    ensures r == s.(selected := r.selected)
    ensures c in r.selected <==> c !in s.selected
    ensures forall x :: x != c ==> (x in r.selected <==> x in s.selected)
    ensures NoDup(s.selected) ==> NoDup(r.selected)
  {
    s.(selected := Toggle(s.selected, c))
  }

  /** A click on the confirm button and the call it makes, if any. */
  datatype Click = Click(state: AddMembers, call: Option<seq<Contact>>)

  /** The button does nothing with an empty selection; otherwise it shows the
      spinner and calls addMembersToGroup with exactly the selection. */
  function OnConfirm(s: AddMembers): (r: Click)
    ensures r.call.Some? <==> |s.selected| > 0
    ensures r.call.Some? ==> r.call.value == s.selected && r.state == s.(isLoading := true)
    ensures r.call.None? ==> r.state == s
  {
    if |s.selected| == 0 then Click(s, None)
    else Click(s.(isLoading := true), Some(s.selected))
  }

  /** The screen after the call returns, and whether it navigates back. */
  datatype Returned = Returned(state: AddMembers, back: bool)

  function OnAddResult(s: AddMembers, result: Result<()>): (r: Returned)
    ensures !r.state.isLoading
    ensures r.back <==> result.Success?
    ensures r.state == s.(isLoading := false)
  {
    Returned(s.(isLoading := false), result.Success?)
  }

  /** Adding a duplicate-free selection of candidates keeps the local and the
      remote member lists equal, because no selected uid is already a member. */
  lemma CandidatesKeepListsEqual(local: Db, remote: Store, groupId: string, contacts: seq<Contact>,
                                 selected: seq<Contact>, now: Timestamp)
    requires Valid(local)
    requires groupId in remote.groups && groupId in local.groups
    requires local.groups[groupId].memberIds == remote.groups[groupId].memberIds
    requires NoDup(remote.groups[groupId].memberIds)
    requires NoDup(GroupRepository.Uids(selected))
    requires forall c :: c in selected ==> c in Candidates(Some(remote.groups[groupId]), contacts)
    ensures var r := GroupRepository.AddMembersToGroup(local, remote, groupId, selected, now);
      && groupId in r.local.groups && groupId in r.remote.groups
      && r.local.groups[groupId].memberIds == r.remote.groups[groupId].memberIds
  {
    var prev := remote.groups[groupId].memberIds;
    var added := GroupRepository.Uids(selected);
    forall u | u in added
      ensures u !in prev
    {
      var i :| 0 <= i < |selected| && selected[i].uid == u;
      assert selected[i] in selected;
    }
    NoDupAppend(prev, added);
    GroupRepository.AppendIsUnionWhenFresh(prev, added);
  }
}

=== FILE: chat_screen.dfy ===
/** The one-to-one messaging protocol of `ChatScreen`: every chat has two
    mirrored rooms, a send writes the same message into both, a read-receipt
    batch marks the peer's messages "READ" in both, and the two users'
    conversation rows count unread messages. `me` is the signed-in user and
    `peer` the other side. */
module ChatScreen {
  import opened Wrappers
  import opened Model
  import opened Text
  import opened RemoteStore

  // ----- rooms -----

  /** The room this user reads and writes: `senderUid + receiverUid`. */
  function SenderRoom(me: string, peer: string): string { me + peer }

  /** The peer's copy of the chat: `receiverUid + senderUid`. */
  function ReceiverRoom(me: string, peer: string): string { peer + me }

  /** My receiver room is the peer's sender room and the other way round. */
  lemma RoomsMirror(me: string, peer: string)
    ensures ReceiverRoom(me, peer) == SenderRoom(peer, me)
    ensures SenderRoom(me, peer) == ReceiverRoom(peer, me)
  {
  }

  /** Among uids of one length, a room names exactly one ordered pair. */
  lemma RoomsInjectiveForEqualLengths(a: string, b: string, a': string, b': string)
    requires |a| == |a'|
    requires SenderRoom(a, b) == SenderRoom(a', b')
    ensures a == a' && b == b'
  {
    assert a == SenderRoom(a, b)[..|a|] && a' == SenderRoom(a', b')[..|a'|];
    assert b == SenderRoom(a, b)[|a|..] && b' == SenderRoom(a', b')[|a'|..];
  }

  /** Without that, two different pairs of users can share a room. */
  lemma RoomsCollideForUnequalLengths()
    ensures SenderRoom("ab", "c") == SenderRoom("a", "bc")
  {
  }

  // ----- opening a chat -----

  /** Opening the chat resets my unread count for the peer, only if my row exists. */
  function OpenChat(remote: Store, me: string, peer: string): (r: Store)
    ensures r.conversations.Keys == remote.conversations.Keys
    ensures DocId(me, peer) in remote.conversations ==>
      r.conversations[DocId(me, peer)] == remote.conversations[DocId(me, peer)].(unreadCount := 0)
    ensures forall p :: p in remote.conversations && p != DocId(me, peer) ==>
      r.conversations[p] == remote.conversations[p]
    ensures r == remote.(conversations := r.conversations)
  {
    var key := DocId(me, peer);
    if key in remote.conversations then
      remote.(conversations := remote.conversations[key := remote.conversations[key].(unreadCount := 0)])
    else remote
  }

  // ----- read receipts -----

  /** A message the batch marks read: not sent by me (a null sender counts
      as not me) and not yet "READ". */
  predicate NeedsReceipt(m: Message, me: string) {
    m.senderId != Some(me) && m.status != READ
  }

  /** The ids of the messages in my room that need a receipt. */
  function Unread(remote: Store, me: string, peer: string): (ids: set<string>)
    ensures forall id :: id in ids <==>
      DocId(SenderRoom(me, peer), id) in remote.messages
      && NeedsReceipt(remote.messages[DocId(SenderRoom(me, peer), id)], me)
  {
    set p | p in remote.messages && p.parent == SenderRoom(me, peer)
                                 && NeedsReceipt(remote.messages[p], me) :: p.id
  }

  /** Every marked message has its mirror in the peer's room, so no `update` of the batch fails. */
  predicate MirrorsExist(remote: Store, me: string, peer: string) {
    forall id :: id in Unread(remote, me, peer) ==> DocId(ReceiverRoom(me, peer), id) in remote.messages
  }

  /** The batch run on each snapshot of my room: status "READ" in both rooms
      for every message needing a receipt, all or nothing. */
  function ReadReceipts(remote: Store, me: string, peer: string): (r: Written<()>)
    ensures r.result.Success? <==> MirrorsExist(remote, me, peer)
    ensures r.result.Failure? ==> r.remote == remote
    ensures r.remote == remote.(messages := r.remote.messages)
    ensures r.remote.messages.Keys == remote.messages.Keys
    ensures r.result.Success? ==> forall id :: id in Unread(remote, me, peer) ==>
      && r.remote.messages[DocId(SenderRoom(me, peer), id)]
         == remote.messages[DocId(SenderRoom(me, peer), id)].(status := READ)
      && r.remote.messages[DocId(ReceiverRoom(me, peer), id)]
         == remote.messages[DocId(ReceiverRoom(me, peer), id)].(status := READ)
    ensures forall p :: p in remote.messages && p.id !in Unread(remote, me, peer) ==>
      r.remote.messages[p] == remote.messages[p]
    ensures forall p :: p in remote.messages && p.parent != SenderRoom(me, peer) && p.parent != ReceiverRoom(me, peer) ==>
      r.remote.messages[p] == remote.messages[p]
  {
    var ids := Unread(remote, me, peer);
    if !MirrorsExist(remote, me, peer) then Written(Failure(NotFound), remote)
    else
      var rooms := {SenderRoom(me, peer), ReceiverRoom(me, peer)};
      Written(Success(()), remote.(messages :=
        map p | p in remote.messages ::
          if p.parent in rooms && p.id in ids then remote.messages[p].(status := READ) else remote.messages[p]))
  }

  /** After a successful batch no message in my room needs a receipt, so a
      second run writes nothing. */
  lemma ReadReceiptsIdempotent(remote: Store, me: string, peer: string)
    requires ReadReceipts(remote, me, peer).result.Success?
    ensures var once := ReadReceipts(remote, me, peer).remote;
      Unread(once, me, peer) == {} && ReadReceipts(once, me, peer) == Written(Success(()), once)
  {
    var once := ReadReceipts(remote, me, peer).remote;
    var room := SenderRoom(me, peer);
    forall id | DocId(room, id) in once.messages
      ensures !NeedsReceipt(once.messages[DocId(room, id)], me)
    {
      if id in Unread(remote, me, peer) {
        assert once.messages[DocId(room, id)].status == READ;
      } else {
        assert once.messages[DocId(room, id)] == remote.messages[DocId(room, id)];
      }
    }
    assert Unread(once, me, peer) == {};
    assert ReadReceipts(once, me, peer).remote.messages == once.messages;
  }

  // ----- sending -----

  /** The message field accepts input only while the peer is not blocked. */
  predicate ComposerEnabled(isBlocked: bool) { !isBlocked }

  /** The send button acts only when the peer is not blocked and the text is not blank. */
  predicate CanSend(isBlocked: bool, text: string) { !isBlocked && !IsBlank(text) }

  lemma SendNeedsEnabledComposer(isBlocked: bool, text: string)
    ensures CanSend(isBlocked, text) ==> ComposerEnabled(isBlocked)
    ensures CanSend(isBlocked, text) ==> |text| > 0
  {
    if CanSend(isBlocked, text) && |text| == 0 {
      assert IsBlank(text);
    }
  }

  /** The message a send writes: the text, my uid, the clock and status "SENT". */
  function Outgoing(messageId: string, me: string, text: string, now: Timestamp): (m: Message)
    ensures m.id == messageId && m.message == Some(text) && m.senderId == Some(me)
    ensures m.status == SENT && m.timestamp == Some(now)
  {
    Message(messageId, Some(text), Some(me), Some(now), SENT, None, None, None)
  }

  const NoName: string := "Utilizador"

  /** `updateConversation`. Nothing is written unless both profiles exist.
      My row is replaced (`set`) with unread count 0 and the name I gave the
      peer; the peer's row is merged with my profile's name (or "Utilizador")
      and its unread count goes up by one (`FieldValue.increment(1)`, which
      counts from 0 on a missing row). */
  function UpdateConversation(remote: Store, me: string, peer: string, peerCustomName: string,
                              lastMessage: string, now: Timestamp): (r: Store)
    ensures peer !in remote.users || me !in remote.users ==> r == remote
    ensures peer in remote.users && me in remote.users ==>
      && DocId(peer, me) in r.conversations && DocId(me, peer) in r.conversations
      && var mine := r.conversations[DocId(me, peer)];
      && var theirs := r.conversations[DocId(peer, me)];
      && theirs.lastMessage == lastMessage
      && theirs.partnerName == remote.users[me].name.GetOr(NoName)
      && theirs.partnerId == me
      && (me != peer ==> mine.unreadCount == 0 && mine.partnerName == peerCustomName
                         && mine.lastMessage == lastMessage && mine.partnerId == peer)
    ensures peer in remote.users && me in remote.users && me != peer ==>
      r.conversations[DocId(peer, me)].unreadCount ==
        (if DocId(peer, me) in remote.conversations then remote.conversations[DocId(peer, me)].unreadCount + 1 else 1)
    ensures forall p :: p != DocId(me, peer) && p != DocId(peer, me) ==>
      (p in r.conversations <==> p in remote.conversations)
      && (p in remote.conversations ==> r.conversations[p] == remote.conversations[p])
    ensures r == remote.(conversations := r.conversations)
  {
    if peer !in remote.users || me !in remote.users then remote
    else
      var receiver := remote.users[peer];
      var sender := remote.users[me];
      var mine := Conversation(peer, peerCustomName, receiver.profilePictureUrl, lastMessage, now,
                               receiver.phoneNumber.GetOr(""), 0, false);
      var convs := remote.conversations[DocId(me, peer) := mine];
      var prior := if DocId(peer, me) in convs then Some(convs[DocId(peer, me)]) else None;
      var theirs := Conversation(me, sender.name.GetOr(NoName), sender.profilePictureUrl, lastMessage, now,
                                 sender.phoneNumber.GetOr(""),
                                 if prior.Some? then prior.value.unreadCount + 1 else 1,
                                 prior.Some? && prior.value.isGroup);
      remote.(conversations := convs[DocId(peer, me) := theirs])
  }

  /** The peer's unread count for our chat: 0 while their row does not exist,
      which is where `FieldValue.increment(1)` starts from. */
  function PeerUnread(remote: Store, me: string, peer: string): int {
    if DocId(peer, me) in remote.conversations then remote.conversations[DocId(peer, me)].unreadCount else 0
  }

  /** The outcome of pressing send: the store and the text left in the field. */
  datatype Sent = Sent(remote: Store, text: string)

  /** The send button: both rooms get the identical message, then the
      conversation rows are updated and the field is cleared. */
  function Send(remote: Store, me: string, peer: string, peerCustomName: string, isBlocked: bool,
                text: string, messageId: string, now: Timestamp): (r: Sent)
    ensures !CanSend(isBlocked, text) ==> r == Sent(remote, text)
    ensures CanSend(isBlocked, text) ==>
      && r.text == ""
      && DocId(SenderRoom(me, peer), messageId) in r.remote.messages
      && DocId(ReceiverRoom(me, peer), messageId) in r.remote.messages
      && r.remote.messages[DocId(SenderRoom(me, peer), messageId)] == Outgoing(messageId, me, text, now)
      && r.remote.messages[DocId(ReceiverRoom(me, peer), messageId)] == Outgoing(messageId, me, text, now)
      && (forall p: DocId :: p.id != messageId ==>
            (p in r.remote.messages <==> p in remote.messages)
            && (p in remote.messages ==> r.remote.messages[p] == remote.messages[p]))
      && r.remote.conversations == UpdateConversation(remote, me, peer, peerCustomName, text, now).conversations
      && r.remote == remote.(messages := r.remote.messages, conversations := r.remote.conversations)
    ensures CanSend(isBlocked, text) && me != peer && me in remote.users && peer in remote.users ==>
      PeerUnread(r.remote, me, peer) == PeerUnread(remote, me, peer) + 1
  {
    if !CanSend(isBlocked, text) then Sent(remote, text)
    else
      var m := Outgoing(messageId, me, text, now);
      var messages := remote.messages[DocId(SenderRoom(me, peer), messageId) := m]
                                     [DocId(ReceiverRoom(me, peer), messageId) := m];
      var after := UpdateConversation(remote.(messages := messages), me, peer, peerCustomName, text, now);
      assert after.conversations == UpdateConversation(remote, me, peer, peerCustomName, text, now).conversations;
      Sent(after, "")
  }

  /** One press of the send button: whether the peer was blocked at that
      moment, the typed text, and the id the new message document gets. */
  datatype Press = Press(isBlocked: bool, text: string, messageId: string)

  /** The store after a series of presses of the send button. */
  function SendMany(remote: Store, me: string, peer: string, peerCustomName: string, presses: seq<Press>,
                    now: Timestamp): (r: Store)
    ensures r.users == remote.users
    decreases |presses|
  {
    if |presses| == 0 then remote
    else
      var b := presses[0];
      SendMany(Send(remote, me, peer, peerCustomName, b.isBlocked, b.text, b.messageId, now).remote,
               me, peer, peerCustomName, presses[1..], now)
  }

  /** The presses that pass the send guard. */
  function Accepted(presses: seq<Press>): (n: nat)
    ensures n <= |presses|
    decreases |presses|
  {
    if |presses| == 0 then 0
    else (if CanSend(presses[0].isBlocked, presses[0].text) then 1 else 0) + Accepted(presses[1..])
  }

  /** With both profiles present, the peer's unread count grows by exactly one
      per accepted send, from 0 when their row did not exist yet; blank texts
      and sends while blocked count nothing. */
  lemma {:induction false} UnreadCountsEverySend(remote: Store, me: string, peer: string,
                                                 peerCustomName: string, presses: seq<Press>, now: Timestamp)
    requires me != peer && me in remote.users && peer in remote.users
    ensures var r := SendMany(remote, me, peer, peerCustomName, presses, now);
      && PeerUnread(r, me, peer) == PeerUnread(remote, me, peer) + Accepted(presses)
      && (DocId(peer, me) in r.conversations <==> DocId(peer, me) in remote.conversations || Accepted(presses) > 0)
    decreases |presses|
  {
    if |presses| > 0 {
      var b := presses[0];
      var next := Send(remote, me, peer, peerCustomName, b.isBlocked, b.text, b.messageId, now).remote;
      UnreadCountsEverySend(next, me, peer, peerCustomName, presses[1..], now);
    }
  }

  /** When the peer opens the chat, the count goes back to zero. */
  lemma OpenAfterSendsClears(remote: Store, me: string, peer: string, peerCustomName: string,
                             presses: seq<Press>, now: Timestamp)
    requires me != peer && me in remote.users && peer in remote.users
    requires DocId(peer, me) in remote.conversations || Accepted(presses) > 0
    ensures var s := SendMany(remote, me, peer, peerCustomName, presses, now);
      DocId(peer, me) in s.conversations && OpenChat(s, peer, me).conversations[DocId(peer, me)].unreadCount == 0
  {
    UnreadCountsEverySend(remote, me, peer, peerCustomName, presses, now);
  }

  // ----- status icon -----

  datatype Glyph = Done | DoneAll
  datatype Tint = Blue | Gray

  /** `MessageStatusIcon`: two blue ticks for "READ", two grey ticks for
      "DELIVERED", one grey tick for every other status. */
  function StatusIcon(status: string): (r: (Glyph, Tint))
    ensures r.1 == Blue <==> status == READ
    ensures r.0 == DoneAll <==> status == READ || status == DELIVERED
  {
    if status == READ then (DoneAll, Blue)
    else if status == DELIVERED then (DoneAll, Gray)
    else (Done, Gray)
  }
}

=== FILE: contact_profile_screen.dfy ===
/** The contact profile screen: the listeners it registers, the groups shared
    with the contact, and the block / unblock button. */
module ContactProfileScreen {
  import opened Wrappers
  import opened Model
  import opened Seqs
  import opened Text
  import opened Mappers
  import opened LocalStore
  import opened RemoteStore
  import UserRepository

  /** The screen's state: whether the contact is shown as blocked, whether a
      block action (or the initial check) is pending, and the common groups. */
  datatype Profile = Profile(isBlocked: bool, loading: bool, commonGroups: seq<Group>)

  const Opened: Profile := Profile(false, true, [])

  /** The listeners and the initial check run only for a non-empty profile id
      while someone is signed in. */
  predicate ListenersActive(userId: string, me: Option<string>) {
    IsNotEmpty(userId) && me.Some?
  }

  /** The initial check: the stored block state, after which the button is enabled.
      Without listeners nothing runs, so the button stays disabled. */
  function OnOpen(p: Profile, remote: Store, me: Option<string>, userId: string): (r: Profile)
    ensures !ListenersActive(userId, me) ==> r == p
    ensures ListenersActive(userId, me) ==>
      r == p.(isBlocked := DocId(me.value, userId) in remote.blocked, loading := false)
  {
    if ListenersActive(userId, me) then
      p.(isBlocked := UserRepository.IsContactBlocked(remote, me, userId), loading := false)
    else p
  }

  /** The profile listener stores each snapshot of the user in the local users table. */
  function OnUserSnapshot(db: Db, userData: Option<User>): (r: Db)
    requires Valid(db)
    ensures Valid(r)
    ensures userData.None? ==> r == db
    ensures userData.Some? ==>
      var e := ToUserEntity(userData.value);
      e.uid in r.users && r.users[e.uid] == e && r == db.(users := r.users)
  {
    if userData.None? then db else InsertUser(db, ToUserEntity(userData.value))
  }

  /** The groups of the query result that the profile's user belongs to. */
  function CommonGroups(myGroups: seq<Group>, userId: string): (r: seq<Group>)
    ensures Subseq(r, myGroups)
    ensures forall g :: g in r <==> g in myGroups && userId in g.memberIds
  {
    Filter((g: Group) => userId in g.memberIds, myGroups)
  }

  /** `whereArrayContains("memberIds", me)`: every listed group is a stored
      group document that has `me` as a member. */
  predicate AnswersMemberQuery(remote: Store, me: string, groups: seq<Group>) {
    forall g :: g in groups ==> g.id in remote.groups && remote.groups[g.id] == g && me in g.memberIds
  }

  /** The group rows of a list carry exactly the ids of its groups. */
  lemma GroupRowKeys(groups: seq<Group>)
    ensures forall k :: LastWithKey(Map(ToGroupEntity, groups), GroupKey, k).Some? <==>
      exists g :: g in groups && g.id == k
  {
    var rows := Map(ToGroupEntity, groups);
    forall k | LastWithKey(rows, GroupKey, k).Some?
      ensures exists g :: g in groups && g.id == k
    {
      var i :| 0 <= i < |rows| && rows[i] == LastWithKey(rows, GroupKey, k).value;
      assert groups[i] in groups && groups[i].id == k;
    }
    forall k | exists g :: g in groups && g.id == k
      ensures LastWithKey(rows, GroupKey, k).Some?
    {
      var g :| g in groups && g.id == k;
      var i :| 0 <= i < |groups| && groups[i] == g;
      assert GroupKey(rows[i]) == k;
    }
  }

  /** The screen and the local store after a groups snapshot. */
  datatype Synced = Synced(profile: Profile, local: Db)

  /** A groups snapshot (`None`: the listener failed, read as no groups): the
      common groups replace the shown list and are upserted locally. */
  function OnGroupsSnapshot(p: Profile, local: Db, userId: string, snapshot: Option<seq<Group>>)
    : (r: Synced)
    requires Valid(local)
    ensures Valid(r.local)
    ensures r.profile == p.(commonGroups := CommonGroups(snapshot.GetOr([]), userId))
    ensures r.local == local.(groups := r.local.groups)
    ensures forall g :: g in r.profile.commonGroups ==> g.id in r.local.groups
    ensures forall k :: k in r.local.groups <==>
      k in local.groups || exists g :: g in r.profile.commonGroups && g.id == k
    ensures forall k :: k in local.groups && (forall g :: g in r.profile.commonGroups ==> g.id != k) ==>
      r.local.groups[k] == local.groups[k]
    ensures forall k :: LastWithKey(Map(ToGroupEntity, r.profile.commonGroups), GroupKey, k).Some? ==>
      r.local.groups[k] == LastWithKey(Map(ToGroupEntity, r.profile.commonGroups), GroupKey, k).value
  {
    var common := CommonGroups(snapshot.GetOr([]), userId);
    var rows := Map(ToGroupEntity, common);
    GroupRowKeys(common);
    Synced(p.(commonGroups := common), InsertAllGroups(local, rows))
  }

  /** Every common group taken from the member query holds both the viewer and
      the profile's user. */
  lemma CommonGroupsHoldBoth(remote: Store, me: string, userId: string, snapshot: seq<Group>)
    requires AnswersMemberQuery(remote, me, snapshot)
    ensures forall g :: g in CommonGroups(snapshot, userId) ==>
      me in g.memberIds && userId in g.memberIds && g.id in remote.groups
  {
  }

  // ----- block / unblock -----

  /** The button is enabled only while no action is pending. */
  predicate ButtonEnabled(p: Profile) {
    !p.loading
  }

  /** The screen and the database after a click on the button. */
  datatype Toggled = Toggled(profile: Profile, remote: Store)

  /** A click: unblock when shown as blocked, block otherwise; the shown state
      flips only when the call succeeds, and the button is enabled again
      afterwards. A click on the disabled button does nothing. */
  function OnBlockButton(p: Profile, remote: Store, me: Option<string>, userId: string): (r: Toggled)
    ensures !ButtonEnabled(p) ==> r == Toggled(p, remote)
    ensures ButtonEnabled(p) ==> ButtonEnabled(r.profile) && r.profile.commonGroups == p.commonGroups
    ensures ButtonEnabled(p) && p.isBlocked ==> r.remote == UserRepository.UnblockContact(remote, me, userId).remote
    ensures ButtonEnabled(p) && !p.isBlocked ==> r.remote == UserRepository.BlockContact(remote, me, userId).remote
    ensures ButtonEnabled(p) && me.Some? ==> r.profile.isBlocked == !p.isBlocked
    ensures ButtonEnabled(p) && me.None? ==> r.profile.isBlocked == p.isBlocked
  {
    if !ButtonEnabled(p) then Toggled(p, remote)
    else
      var w := if p.isBlocked then UserRepository.UnblockContact(remote, me, userId)
               else UserRepository.BlockContact(remote, me, userId);
      var flipped := if w.result.Success? then !p.isBlocked else p.isBlocked;
      Toggled(p.(isBlocked := flipped, loading := false), w.remote)
  }

  /** Once the initial check has run, the shown state always equals the stored
      one: clicks keep the two in step whatever the outcome. */
  lemma ShownStateTracksStore(p: Profile, remote: Store, me: Option<string>, userId: string)
    requires ListenersActive(userId, me)
    ensures var q := OnOpen(p, remote, me, userId);
      && q.isBlocked == UserRepository.IsContactBlocked(remote, me, userId)
      && var t := OnBlockButton(q, remote, me, userId);
      t.profile.isBlocked == UserRepository.IsContactBlocked(t.remote, me, userId)
  {
  }

  /** Without a signed-in user (or with an empty id) the button is never enabled. */
  lemma InactiveButtonStaysDisabled(remote: Store, me: Option<string>, userId: string)
    requires !ListenersActive(userId, me)
    ensures !ButtonEnabled(OnOpen(Opened, remote, me, userId))
    ensures OnBlockButton(OnOpen(Opened, remote, me, userId), remote, me, userId).remote == remote
  {
  }
}

=== FILE: contact_repository.dfy ===
/** `ContactRepository.addContact`: the older contact flow, which only
    writes the contact document under the signed-in user. */
module ContactRepository {
  import opened Wrappers
  import opened Model
  import opened RemoteStore

  const NotSignedIn: string := "Utilizador não autenticado."
  const NoUserWithPhone: string := "Utilizador não encontrado com este número de telefone."
  const NullUid: string := "NullPointerException"

  /** addContact once the phone-number query has answered `hit`. */
  function AddContactWith(remote: Store, me: Option<string>, hit: Option<User>,
                          phone: string, customName: string): (r: Written<()>)
    ensures me.None? ==> r == Written(Failure(NotSignedIn), remote)
    ensures me.Some? && hit.None? ==> r == Written(Failure(NoUserWithPhone), remote)
    ensures r.result.Success? <==> me.Some? && hit.Some? && hit.value.uid.Some?
    ensures r.result.Failure? ==> r.remote == remote
    ensures r.result.Success? ==>
      var key := DocId(me.value, hit.value.uid.value);
      r.remote == remote.(contacts := r.remote.contacts)
      && r.remote.contacts == remote.contacts[key := Contact(hit.value.uid.value, customName, phone,
                                                             hit.value.profilePictureUrl)]
  {
    if me.None? then Written(Failure(NotSignedIn), remote)
    else if hit.None? then Written(Failure(NoUserWithPhone), remote)
    else if hit.value.uid.None? then Written(Failure(NullUid), remote)
    else
      var uid := hit.value.uid.value;
      var contact := Contact(uid, customName, phone, hit.value.profilePictureUrl);
      Written(Success(()), remote.(contacts := remote.contacts[DocId(me.value, uid) := contact]))
  }

  method AddContact(remote: Store, me: Option<string>, phone: string, customName: string)
    returns (r: Written<()>)
    ensures me.None? ==> r == Written(Failure(NotSignedIn), remote)
    ensures me.Some? && (forall k :: k in remote.users ==> remote.users[k].phoneNumber != Some(phone)) ==>
      r == Written(Failure(NoUserWithPhone), remote)
    ensures (&& me.Some?
             && (exists k :: k in remote.users && remote.users[k].phoneNumber == Some(phone))
             && (forall k :: k in remote.users && remote.users[k].phoneNumber == Some(phone) ==>
                   remote.users[k].uid.Some?)) ==>
      r.result.Success?
    ensures r.result.Failure? ==> r.remote == remote
    ensures r.result.Success? ==>
      && r.remote == remote.(contacts := r.remote.contacts)
      && exists u :: u in remote.users.Values && u.phoneNumber == Some(phone) && u.uid.Some?
           && r.remote.contacts == remote.contacts[DocId(me.value, u.uid.value) :=
                                                   Contact(u.uid.value, customName, phone, u.profilePictureUrl)]
  {
    if me.None? {
      return Written(Failure(NotSignedIn), remote);
    }
    var hit := FindUserByPhone(remote, phone);
    r := AddContactWith(remote, me, hit, phone, customName);
  }
}

=== FILE: create_group_screen.dfy ===
/** The new-group form: name and selection checks before createGroup is called,
    the selection toggle, and the spinner. */
module CreateGroupScreen {
  import opened Wrappers
  import opened Model
  import opened Seqs
  import opened Text
  import opened Selection
  import opened LocalStore
  import opened RemoteStore
  import GroupRepository

  const BlankNameToast: string := "O nome do grupo não pode estar vazio."
  const NoMemberToast: string := "Selecione pelo menos um participante."

  /** The form: the typed name, the picked picture (its URL once uploaded), the
      selected contacts and the spinner flag. */
  datatype Form = Form(name: string, picture: Option<string>, selected: seq<Contact>, isLoading: bool)

  const Opened: Form := Form("", None, [], false)

  /** The arguments of a createGroup call. */
  datatype Request = Request(name: string, picture: Option<string>, members: seq<Contact>)

  /** A click on the create button: the form afterwards, the message shown, and
      the call made, if any. */
  datatype Click = Click(form: Form, toast: Option<string>, call: Option<Request>)

  /** The name is checked first, then the selection; only a form that passes
      both calls createGroup, with exactly the typed name, picture and selection. */
  function OnCreate(f: Form): (r: Click)
    ensures IsBlank(f.name) ==> r == Click(f, Some(BlankNameToast), None)
    ensures !IsBlank(f.name) && |f.selected| == 0 ==> r == Click(f, Some(NoMemberToast), None)
    ensures r.call.Some? <==> !IsBlank(f.name) && |f.selected| > 0
    ensures r.call.Some? ==>
      r.call.value == Request(f.name, f.picture, f.selected) && r.form == f.(isLoading := true)
  {
    if IsBlank(f.name) then Click(f, Some(BlankNameToast), None)
    else if |f.selected| == 0 then Click(f, Some(NoMemberToast), None)
    else Click(f.(isLoading := true), None, Some(Request(f.name, f.picture, f.selected)))
  }

  /** A click on a contact row; ignored while the group is being created. */
  function OnToggle(f: Form, c: Contact): (r: Form)
    ensures r == f.(selected := r.selected)
    ensures f.isLoading ==> r == f
    ensures !f.isLoading ==> (c in r.selected <==> c !in f.selected)
    ensures forall x :: x != c ==> (x in r.selected <==> x in f.selected)
    ensures NoDup(f.selected) ==> NoDup(r.selected)
  {
    f.(selected := ToggleUnlessLoading(f.selected, c, f.isLoading))
  }

  /** The form after the call returns, and whether the screen navigates back. */
  datatype Returned = Returned(form: Form, back: bool)

  function OnCreateResult(f: Form, result: Result<string>): (r: Returned)
    ensures !r.form.isLoading
    ensures r.back <==> result.Success?
    ensures r.form == f.(isLoading := false)
  {
    Returned(f.(isLoading := false), result.Success?)
  }

  /** A group created from the form has a non-blank name, its creator as a
      member and sole admin, and every selected contact as a member. */
  lemma CreatedFromForm(f: Form, local: Db, remote: Store, me: string, groupId: string, now: Timestamp)
    requires Valid(local)
    requires OnCreate(f).call.Some?
    ensures var req := OnCreate(f).call.value;
      var r := GroupRepository.CreateGroup(local, remote, Some(me), req.name, req.picture, req.members, groupId, now);
      && r.result == Success(groupId)
      && groupId in r.remote.groups
      && !IsBlank(r.remote.groups[groupId].name)
      && me in r.remote.groups[groupId].memberIds
      && r.remote.groups[groupId].adminIds == [me]
      && (forall c :: c in f.selected ==> c.uid in r.remote.groups[groupId].memberIds)
  {
    var req := OnCreate(f).call.value;
    var r := GroupRepository.CreateGroup(local, remote, Some(me), req.name, req.picture, req.members, groupId, now);
    forall c | c in f.selected
      ensures c.uid in r.remote.groups[groupId].memberIds
    {
      var i :| 0 <= i < |f.selected| && f.selected[i] == c;
      assert c.uid in GroupRepository.Uids(f.selected);
    }
  }
}

=== FILE: formatters.dfy ===
/** The time labels: the hour label of a conversation row and the "last seen"
    line. Rendering a time ("HH:mm", "dd/MM/yy") depends on the clock's time
    zone and locale, so the rendered pieces are inputs; what is modelled is
    which label is chosen. */
module Formatters {
  import opened Wrappers
  import opened Model

  /** `formatTimestamp`: nothing for a missing timestamp, else its "HH:mm" rendering. */
  function FormatTimestamp(t: Option<Timestamp>, hhmm: Timestamp -> string): (r: string)
    ensures t.None? ==> r == ""
    ensures t.Some? ==> r == hhmm(t.value)
  {
    match t
    case None => ""
    case Some(ts) => hhmm(ts)
  }

  /** A calendar day in the device's time zone. */
  datatype Day = Day(dayOfYear: int, year: int)

  datatype LastSeen = Never | Today | Yesterday | OnDate

  /** Which line `formatLastSeen` shows, given the calendar days of the last-seen
      instant and of now. A zero instant means the time was never recorded. */
  function Classify(lastSeen: int, seen: Day, now: Day): (r: LastSeen)
    ensures r == Never <==> lastSeen == 0
    ensures r == Today <==> lastSeen != 0 && seen == now
    ensures r == Yesterday <==> lastSeen != 0 && seen.year == now.year && seen.dayOfYear == now.dayOfYear - 1
    ensures r == OnDate <==>
      lastSeen != 0 && seen != now && !(seen.year == now.year && seen.dayOfYear == now.dayOfYear - 1)
  {
    if lastSeen == 0 then Never
    else if seen.dayOfYear == now.dayOfYear && seen.year == now.year then Today
    else if seen.dayOfYear == now.dayOfYear - 1 && seen.year == now.year then Yesterday
    else OnDate
  }

  /** The shown text: empty, or a prefix followed by the rendered time or date. */
  function FormatLastSeen(lastSeen: int, seen: Day, now: Day, hhmm: string, dateAndTime: string): (r: string)
    ensures lastSeen == 0 ==> r == ""
    ensures Classify(lastSeen, seen, now) == Today ==> r == "visto por último hoje às " + hhmm
    ensures Classify(lastSeen, seen, now) == Yesterday ==> r == "visto por último ontem às " + hhmm
    ensures Classify(lastSeen, seen, now) == OnDate ==> r == "visto por último em " + dateAndTime
  {
    match Classify(lastSeen, seen, now)
    case Never => ""
    case Today => "visto por último hoje às " + hhmm
    case Yesterday => "visto por último ontem às " + hhmm
    case OnDate => "visto por último em " + dateAndTime
  }

  /** Seen on the last day of a year and looked at on the first day of the next,
      the line falls back to the full date instead of "ontem". */
  lemma NewYearIsNotYesterday(lastSeen: int, year: int, lastDay: int)
    requires lastSeen != 0 && (lastDay == 365 || lastDay == 366)
    ensures Classify(lastSeen, Day(lastDay, year), Day(1, year + 1)) == OnDate
  {
  }
}

=== FILE: group_details_screen.dfy ===
/** The group details screen: who may rename the group and manage members,
    how a member's name is chosen, and what the screen does with each snapshot
    of the group document. */
module GroupDetailsScreen {
  import opened Wrappers
  import opened Model
  import opened Seqs
  import opened LocalStore
  import opened RemoteStore
  import GroupRepository

  const NoName: string := "Utilizador"

  // ----- admin gating -----

  /** `group?.adminIds?.contains(currentUserUid) == true`: false while the group
      is not loaded and when nobody is signed in. */
  predicate IsAdmin(group: Option<Group>, viewer: Option<string>) {
    group.Some? && viewer.Some? && viewer.value in group.value.adminIds
  }

  /** The actions the header offers: rename and add participants. */
  datatype HeaderActions = HeaderActions(rename: bool, addParticipants: bool)

  function Header(group: Option<Group>, viewer: Option<string>): (r: HeaderActions)
    ensures r.rename <==> group.Some? && viewer.Some? && viewer.value in group.value.adminIds
    ensures r.addParticipants == r.rename
  {
    var admin := IsAdmin(group, viewer);
    HeaderActions(admin, admin)
  }

  /** How one member row is drawn: the admin badge and the remove button. */
  datatype MemberRow = MemberRow(name: string, adminBadge: bool, removeOption: bool)

  /** `contactNames[member.uid] ?: member.name ?: "Utilizador"`. */
  function MemberName(contactNames: map<string, string>, member: User): (r: string)
    ensures member.uid.Some? && member.uid.value in contactNames ==> r == contactNames[member.uid.value]
    ensures (member.uid.None? || member.uid.value !in contactNames) && member.name.Some? ==> r == member.name.value
    ensures (member.uid.None? || member.uid.value !in contactNames) && member.name.None? ==> r == NoName
  {
    if member.uid.Some? && member.uid.value in contactNames then contactNames[member.uid.value]
    else member.name.GetOr(NoName)
  }

  function Row(group: Option<Group>, viewer: Option<string>, contactNames: map<string, string>, member: User)
    : (r: MemberRow)
    ensures r.name == MemberName(contactNames, member)
    ensures r.adminBadge <==> group.Some? && member.uid.Some? && member.uid.value in group.value.adminIds
    ensures r.removeOption <==> IsAdmin(group, viewer) && member.uid != viewer
  {
    MemberRow(MemberName(contactNames, member),
              IsAdmin(group, member.uid),
              IsAdmin(group, viewer) && member.uid != viewer)
  }

  /** Nobody is offered to remove themselves, and only admins see the option. */
  lemma NoSelfRemoval(group: Option<Group>, viewer: Option<string>, contactNames: map<string, string>, member: User)
    ensures Row(group, viewer, contactNames, member).removeOption ==>
      && viewer.Some? && member.uid != viewer
      && Header(group, viewer).rename
    ensures member.uid == viewer ==> !Row(group, viewer, contactNames, member).removeOption
  {
  }

  /** An admin looking at their own row sees the admin badge but no remove button. */
  lemma AdminOwnRow(group: Group, me: string, contactNames: map<string, string>, self: User)
    requires me in group.adminIds && self.uid == Some(me)
    ensures Row(Some(group), Some(me), contactNames, self).adminBadge
    ensures !Row(Some(group), Some(me), contactNames, self).removeOption
  {
  }

  // ----- contact names -----

  function ContactUid(c: Contact): string { c.uid }

  /** `associateBy({ it.uid }, { it.customName })`: the map from uid to the
      name of the last contact with that uid. */
  function AssociateBy(contacts: seq<Contact>): (r: map<string, string>)
    ensures forall u :: u in r <==> LastWithKey(contacts, ContactUid, u).Some?
    ensures forall u :: u in r ==> r[u] == LastWithKey(contacts, ContactUid, u).value.customName
    decreases |contacts|
  {
    if |contacts| == 0 then map[]
    else
      var last := contacts[|contacts| - 1];
      AssociateBy(contacts[..|contacts| - 1])[last.uid := last.customName]
  }

  /** Every contact's uid is in the map, under the name of some contact with that uid. */
  lemma EveryContactNamed(contacts: seq<Contact>, i: nat)
    requires i < |contacts|
    ensures contacts[i].uid in AssociateBy(contacts)
    ensures exists j :: 0 <= j < |contacts| && contacts[j].uid == contacts[i].uid
                     && AssociateBy(contacts)[contacts[i].uid] == contacts[j].customName
  {
    var hit := LastWithKey(contacts, ContactUid, contacts[i].uid);
    assert hit.Some?;
    var j :| 0 <= j < |contacts| && contacts[j] == hit.value;
  }

  /** The contacts listener: a snapshot replaces the whole map; an error keeps it. */
  function OnContactsSnapshot(names: map<string, string>, snapshot: Option<seq<Contact>>)
    : (r: map<string, string>)
    ensures snapshot.None? ==> r == names
    ensures snapshot.Some? ==> forall u :: u in r <==> exists c :: c in snapshot.value && c.uid == u
    ensures snapshot.Some? ==> forall u :: u in r ==>
      r[u] == LastWithKey(snapshot.value, ContactUid, u).value.customName
  {
    if snapshot.None? then names
    else
      var m := AssociateBy(snapshot.value);
      assert forall u :: u in m ==> LastWithKey(snapshot.value, ContactUid, u).value in snapshot.value;
      assert forall c :: c in snapshot.value ==> LastWithKey(snapshot.value, ContactUid, c.uid).Some?;
      m
  }

  // ----- group listener -----

  /** The screen's view of the group: the loaded document, the member profiles,
      the member-id lists it has subscribed to (one listener per group snapshot;
      earlier listeners are never removed), and whether it has left the screen. */
  datatype Details = Details(group: Option<Group>, members: seq<User>, queries: seq<seq<string>>, left: bool)

  const Opened: Details := Details(None, [], [], false)

  /** A snapshot of the group document (`None`: no document, or it could not be read). */
  function OnGroupSnapshot(d: Details, groupData: Option<Group>): (r: Details)
    ensures r.group == groupData
    ensures groupData.Some? && |groupData.value.memberIds| > 0 ==>
      r.queries == d.queries + [groupData.value.memberIds] && r.members == d.members && r.left == d.left
    ensures groupData.None? || |groupData.value.memberIds| == 0 ==>
      r.members == [] && r.queries == d.queries
    ensures r.left <==> d.left || (groupData.Some? && |groupData.value.memberIds| == 0)
  {
    if groupData.Some? && |groupData.value.memberIds| > 0 then
      d.(group := groupData, queries := d.queries + [groupData.value.memberIds])
    else
      d.(group := groupData, members := [], left := d.left || groupData.Some?)
  }

  /** A snapshot of a `whereIn("uid", ids)` member query; an error empties the list. */
  function OnMembersSnapshot(d: Details, users: Option<seq<User>>): (r: Details)
    ensures r == d.(members := r.members)
    ensures users.Some? ==> r.members == users.value
    ensures users.None? ==> r.members == []
  {
    d.(members := users.GetOr([]))
  }

  /** Removing the last member leaves the group document with no members, and the
      next snapshot of it makes the screen leave. */
  lemma RemovingLastMemberLeaves(local: Db, remote: Store, groupId: string, member: string, d: Details)
    requires Valid(local)
    requires groupId in remote.groups && remote.groups[groupId].memberIds == [member]
    ensures var after := GroupRepository.RemoveMemberFromGroup(local, remote, groupId, member).remote;
      && groupId in after.groups
      && var r := OnGroupSnapshot(d, Some(after.groups[groupId]));
      r.left && r.members == []
  {
    var after := GroupRepository.RemoveMemberFromGroup(local, remote, groupId, member).remote;
    assert Without([member], member) == [];
  }

  /** When the group document is deleted (its sole member left), the screen
      empties its member list but does not leave by itself. */
  lemma DeletedGroupDoesNotLeave(d: Details)
    requires !d.left
    ensures OnGroupSnapshot(d, None).members == [] && !OnGroupSnapshot(d, None).left
  {
  }
}

=== FILE: group_repository.dfy ===
/** `GroupRepository`: group creation, membership changes, renaming and
    leaving, each keeping the local group row, the remote group document and
    one conversation document per member in step. The signed-in user is `me`
    (None when nobody is signed in) and `now` is the clock. */
module GroupRepository {
  import opened Wrappers
  import opened Model
  import opened Seqs
  import opened Text
  import opened Mappers
  import opened LocalStore
  import opened RemoteStore

  type Step<T> = Outcome<T, Db>

  const NotSignedIn: string := "Usuário não autenticado."
  const GroupNotFound: string := "Grupo não encontrado."
  const BlankName: string := "O nome não pode estar vazio."
  const GroupCreated: string := "Grupo criado."
  const YouWereAdded: string := "Você foi adicionado(a)."

  /** The uids of a list of contacts (`mapNotNull { it.uid }`; a contact's uid is never null). */
  function Uids(cs: seq<Contact>): (r: seq<string>)
    ensures |r| == |cs|
    ensures forall u :: u in r <==> exists i :: 0 <= i < |cs| && cs[i].uid == u
  {
    Map((c: Contact) => c.uid, cs)
  }

  /** The conversation row every member of a group gets. */
  function GroupConversation(groupId: string, name: string, picture: Option<string>,
                             lastMessage: string, now: Timestamp): (c: Conversation)
    ensures c.partnerId == groupId && c.partnerName == name && c.isGroup
    ensures c.lastMessage == lastMessage && c.unreadCount == 0
  {
    Conversation(groupId, name, picture, lastMessage, now, "", 0, true)
  }

  // ----- createGroup -----

  /** `members` are the chosen contacts, `picture` the uploaded picture's URL
      (if any), `groupId` the id of the new document. */
  function CreateGroup(local: Db, remote: Store, me: Option<string>, name: string,
                       picture: Option<string>, members: seq<Contact>, groupId: string,
                       now: Timestamp): (r: Step<string>)
    requires Valid(local)
    ensures Valid(r.local)
    ensures me.None? ==> r == Outcome(Failure(NotSignedIn), local, remote)
    ensures me.Some? ==> r.result == Success(groupId)
    ensures me.Some? ==>
      && groupId in r.remote.groups
      && var g := r.remote.groups[groupId];
      && NoDup(g.memberIds)
      && (forall u :: u in g.memberIds <==> u == me.value || u in Uids(members))
      && g.adminIds == [me.value]
      && g.name == name && g.lastMessage == GroupCreated
      && (forall u :: u in g.memberIds ==>
            DocId(u, groupId) in r.remote.conversations
            && r.remote.conversations[DocId(u, groupId)]
               == GroupConversation(groupId, name, picture, GroupCreated, now))
    ensures me.Some? ==> forall p: DocId :: p.id != groupId || p.parent !in r.remote.groups[groupId].memberIds ==>
      (p in r.remote.conversations <==> p in remote.conversations)
      && (p in remote.conversations ==> r.remote.conversations[p] == remote.conversations[p])
    ensures me.Some? ==> forall k :: k != groupId ==>
      (k in r.remote.groups <==> k in remote.groups) && (k in remote.groups ==> r.remote.groups[k] == remote.groups[k])
    ensures me.Some? ==> r.remote == remote.(groups := r.remote.groups, conversations := r.remote.conversations)
    ensures me.Some? ==> GetGroupById(r.local, groupId) == Some(ToGroupEntity(r.remote.groups[groupId]))
    ensures me.Some? ==>
      && groupId in r.local.conversations
      && r.local.conversations[groupId]
         == ToConversationEntity(GroupConversation(groupId, name, picture, GroupCreated, now))
      && (forall k :: k != groupId ==>
            (k in r.local.groups <==> k in local.groups) && (k in local.groups ==> r.local.groups[k] == local.groups[k])
            && (k in r.local.conversations <==> k in local.conversations)
            && (k in local.conversations ==> r.local.conversations[k] == local.conversations[k]))
      && r.local == local.(groups := r.local.groups, conversations := r.local.conversations)
  {
    if me.None? then Outcome(Failure(NotSignedIn), local, remote)
    else
      var memberIds := Distinct(Uids(members) + [me.value]);
      var group := Group(groupId, name, memberIds, [me.value], picture, GroupCreated, Some(now));
      var conv := GroupConversation(groupId, name, picture, GroupCreated, now);
      var remote1 := remote.(groups := remote.groups[groupId := group]);
      var local1 := InsertGroup(local, ToGroupEntity(group));
      var remote2 := remote1.(conversations := SetForOwners(remote1.conversations, memberIds, groupId, conv));
      var local2 := InsertConversation(local1, ToConversationEntity(conv));
      Outcome(Success(groupId), local2, remote2)
  }

  // ----- removeMemberFromGroup -----

  /** Removes `member` from both lists of a local group row, if the row exists. */
  function RemoveLocally(local: Db, groupId: string, member: string): (r: Db)
    requires Valid(local)
    ensures Valid(r)
    ensures groupId in local.groups ==>
      && groupId in r.groups
      && r.groups[groupId].memberIds == Without(local.groups[groupId].memberIds, member)
      && r.groups[groupId].adminIds == Without(local.groups[groupId].adminIds, member)
    ensures groupId !in local.groups ==> r == local
    ensures r == local.(groups := r.groups)
  {
    match GetGroupById(local, groupId)
    case None => local
    case Some(g) =>
      InsertGroup(local, g.(memberIds := Without(g.memberIds, member), adminIds := Without(g.adminIds, member)))
  }

  /** The local step deletes the CALLER's conversation row for the group
      (`deleteConversationByPartnerId(groupId)`), whoever is removed. The
      transaction removes `member` from both remote lists and deletes the
      member's conversation document; it fails if the group document is gone. */
  function RemoveMemberFromGroup(local: Db, remote: Store, groupId: string, member: string): (r: Step<()>)
    requires Valid(local)
    ensures Valid(r.local)
    ensures r.result.Success? <==> groupId in remote.groups
    ensures groupId !in r.local.conversations
    ensures groupId in local.groups ==>
      && groupId in r.local.groups
      && member !in r.local.groups[groupId].memberIds && member !in r.local.groups[groupId].adminIds
    ensures r.local == DeleteConversationByPartnerId(RemoveLocally(local, groupId, member), groupId)
    ensures groupId in remote.groups ==>
      && groupId in r.remote.groups
      && r.remote.groups[groupId].memberIds == Without(remote.groups[groupId].memberIds, member)
      && r.remote.groups[groupId].adminIds == Without(remote.groups[groupId].adminIds, member)
      && r.remote.groups == remote.groups[groupId := remote.groups[groupId].(
           memberIds := Without(remote.groups[groupId].memberIds, member),
           adminIds := Without(remote.groups[groupId].adminIds, member))]
      && DocId(member, groupId) !in r.remote.conversations
      && r.remote.conversations == remote.conversations - {DocId(member, groupId)}
      && r.remote == remote.(groups := r.remote.groups, conversations := r.remote.conversations)
    ensures groupId !in remote.groups ==> r.remote == remote
  {
    var local1 := DeleteConversationByPartnerId(RemoveLocally(local, groupId, member), groupId);
    if groupId !in remote.groups then Outcome(Failure(NotFound), local1, remote)
    else
      var g := remote.groups[groupId];
      var g1 := g.(memberIds := Without(g.memberIds, member), adminIds := Without(g.adminIds, member));
      Outcome(Success(()), local1,
              remote.(groups := remote.groups[groupId := g1],
                      conversations := remote.conversations - {DocId(member, groupId)}))
  }

  /** Removal keeps every other member, in order, with their admin rights. */
  lemma RemoveKeepsOthers(remote: Store, local: Db, groupId: string, member: string, other: string)
    requires Valid(local) && groupId in remote.groups && other != member
    ensures var r := RemoveMemberFromGroup(local, remote, groupId, member).remote.groups[groupId];
      && (other in r.memberIds <==> other in remote.groups[groupId].memberIds)
      && (other in r.adminIds <==> other in remote.groups[groupId].adminIds)
      && Subseq(r.memberIds, remote.groups[groupId].memberIds)
  {
  }

  // ----- addMembersToGroup -----

  function AddMembersToGroup(local: Db, remote: Store, groupId: string, newMembers: seq<Contact>,
                             now: Timestamp): (r: Step<()>)
    requires Valid(local)
    ensures Valid(r.local)
    ensures groupId !in remote.groups ==> r == Outcome(Failure(GroupNotFound), local, remote)
    ensures groupId in remote.groups ==>
      && r.result.Success?
      && var g := remote.groups[groupId];
      && groupId in r.remote.groups
      && (forall u :: u in r.remote.groups[groupId].memberIds <==> u in g.memberIds || u in Uids(newMembers))
      && |g.memberIds| <= |r.remote.groups[groupId].memberIds|
      && r.remote.groups[groupId].memberIds[..|g.memberIds|] == g.memberIds
      && r.remote.groups[groupId].memberIds == ArrayUnion(g.memberIds, Uids(newMembers))
      && (NoDup(g.memberIds) ==> NoDup(r.remote.groups[groupId].memberIds))
      && r.remote.groups[groupId] == g.(memberIds := r.remote.groups[groupId].memberIds)
      && (forall u :: u in Uids(newMembers) ==>
            DocId(u, groupId) in r.remote.conversations
            && r.remote.conversations[DocId(u, groupId)]
               == GroupConversation(groupId, g.name, g.groupPictureUrl, YouWereAdded, now))
      && (forall p: DocId :: p.id != groupId || p.parent !in Uids(newMembers) ==>
            (p in r.remote.conversations <==> p in remote.conversations)
            && (p in remote.conversations ==> r.remote.conversations[p] == remote.conversations[p]))
      && (forall k :: k != groupId ==>
            (k in r.remote.groups <==> k in remote.groups) && (k in remote.groups ==> r.remote.groups[k] == remote.groups[k]))
      && r.remote == remote.(groups := r.remote.groups, conversations := r.remote.conversations)
      && r.local == local.(groups := r.local.groups)
      && (forall k :: k != groupId ==>
            (k in r.local.groups <==> k in local.groups) && (k in local.groups ==> r.local.groups[k] == local.groups[k]))
    ensures groupId in remote.groups && groupId !in local.groups ==> r.local == local
    ensures groupId in remote.groups && groupId in local.groups ==>
      && groupId in r.local.groups
      && r.local.groups[groupId].memberIds == local.groups[groupId].memberIds + Uids(newMembers)
      && r.local.groups[groupId] == local.groups[groupId].(memberIds := r.local.groups[groupId].memberIds)
  {
    if groupId !in remote.groups then Outcome(Failure(GroupNotFound), local, remote)
    else
      var g := remote.groups[groupId];
      var newIds := Uids(newMembers);
      var conv := GroupConversation(groupId, g.name, g.groupPictureUrl, YouWereAdded, now);
      var local1 := match GetGroupById(local, groupId)
        case None => local
        case Some(e) => InsertGroup(local, e.(memberIds := e.memberIds + newIds));
      var g1 := g.(memberIds := ArrayUnion(g.memberIds, newIds));
      Outcome(Success(()), local1,
              remote.(groups := remote.groups[groupId := g1],
                      conversations := SetForOwners(remote.conversations, newIds, groupId, conv)))
  }

  /** The local list (prev ++ new) and the remote list (arrayUnion) agree
      when the new uids are distinct and not yet members. */
  lemma {:induction false} AppendIsUnionWhenFresh(prev: seq<string>, added: seq<string>)
    requires NoDup(prev + added)
    ensures ArrayUnion(prev, added) == prev + added
    decreases |added|
  {
    if |added| > 0 {
      assert (prev + added)[|prev|] == added[0];
      assert forall i :: 0 <= i < |prev| ==> (prev + added)[i] == prev[i];
      assert added[0] !in prev;
      var next := prev + [added[0]];
      assert next + added[1..] == prev + added;
      AppendIsUnionWhenFresh(next, added[1..]);
    }
  }

  /** For a member list without duplicates, the two lists agree exactly when
      the new uids are distinct and not yet members. */
  lemma AppendIsUnionIff(prev: seq<string>, added: seq<string>)
    requires NoDup(prev)
    ensures ArrayUnion(prev, added) == prev + added <==> NoDup(prev + added)
  {
    if NoDup(prev + added) {
      AppendIsUnionWhenFresh(prev, added);
    }
  }

  /** Re-adding a current member puts a second copy in the local row while the
      remote list keeps one: the two copies of a group that agreed before the
      call disagree after it. */
  lemma ReAddDuplicatesLocally(local: Db, remote: Store, groupId: string, newMembers: seq<Contact>,
                               now: Timestamp)
    requires Valid(local) && groupId in remote.groups && groupId in local.groups
    requires local.groups[groupId].memberIds == remote.groups[groupId].memberIds
    requires exists u :: u in Uids(newMembers) && u in remote.groups[groupId].memberIds
    ensures var r := AddMembersToGroup(local, remote, groupId, newMembers, now);
      && r.local.groups[groupId].memberIds != r.remote.groups[groupId].memberIds
      && !NoDup(r.local.groups[groupId].memberIds)
  {
    var prev := remote.groups[groupId].memberIds;
    var added := Uids(newMembers);
    ArrayUnionLength(prev, added);
    var u :| u in added && u in prev;
    var i :| 0 <= i < |prev| && prev[i] == u;
    var j :| 0 <= j < |added| && added[j] == u;
    assert (prev + added)[i] == (prev + added)[|prev| + j];
  }

  /** Adding a uid that was not a member and then removing it restores the member list. */
  lemma RemoveUndoesAdd(members: seq<string>, u: string)
    requires u !in members
    ensures Without(ArrayUnion(members, [u]), u) == members
  {
    Seqs.WithoutAppended(members, u);
  }

  // ----- renameGroup -----

  /** Every member's conversation document for the group exists, so the
      batch's `update` calls can all succeed. */
  predicate MemberRowsExist(remote: Store, groupId: string, members: seq<string>) {
    forall u :: u in members ==> DocId(u, groupId) in remote.conversations
  }

  /** A blank name is refused before any store is touched; a missing group
      document fails without writing. The local row is renamed before the
      batch, so it stays renamed if the batch fails on a missing member row. */
  function RenameGroup(local: Db, remote: Store, groupId: string, newName: string): (r: Step<()>)
    requires Valid(local)
    ensures Valid(r.local)
    ensures IsBlank(newName) ==> r == Outcome(Failure(BlankName), local, remote)
    ensures !IsBlank(newName) && groupId !in remote.groups ==> r == Outcome(Failure(GroupNotFound), local, remote)
    ensures !IsBlank(newName) && groupId in remote.groups ==>
      && (groupId in local.groups ==>
            r.local.groups == local.groups[groupId := local.groups[groupId].(name := newName)])
      && (groupId !in local.groups ==> r.local == local)
      && r.local == local.(groups := r.local.groups)
      && var members := remote.groups[groupId].memberIds;
      && (r.result.Success? <==> MemberRowsExist(remote, groupId, members))
      && (r.result.Failure? ==> r.remote == remote)
      && (r.result.Success? ==>
            && r.remote.groups == remote.groups[groupId := remote.groups[groupId].(name := newName)]
            && r.remote == remote.(groups := r.remote.groups, conversations := r.remote.conversations)
            && r.remote.conversations.Keys == remote.conversations.Keys
            && (forall u :: u in members ==>
                  r.remote.conversations[DocId(u, groupId)] ==
                  remote.conversations[DocId(u, groupId)].(partnerName := newName))
            && (forall p :: p in remote.conversations && (p.id != groupId || p.parent !in members) ==>
                  r.remote.conversations[p] == remote.conversations[p]))
  {
    if IsBlank(newName) then Outcome(Failure(BlankName), local, remote)
    else if groupId !in remote.groups then Outcome(Failure(GroupNotFound), local, remote)
    else
      var g := remote.groups[groupId];
      var local1 := match GetGroupById(local, groupId)
        case None => local
        case Some(e) => InsertGroup(local, e.(name := newName));
      if !MemberRowsExist(remote, groupId, g.memberIds) then Outcome(Failure(NotFound), local1, remote)
      else
        var convs := UpdateWhere(remote.conversations,
                                 (p: DocId, c: Conversation) => p.id == groupId && p.parent in g.memberIds,
                                 (c: Conversation) => c.(partnerName := newName));
        Outcome(Success(()), local1,
                remote.(groups := remote.groups[groupId := g.(name := newName)], conversations := convs))
  }

  /** Renaming twice to the same name is renaming once. */
  lemma RenameIdempotent(local: Db, remote: Store, groupId: string, newName: string)
    requires Valid(local)
    requires RenameGroup(local, remote, groupId, newName).result.Success?
    ensures var r := RenameGroup(local, remote, groupId, newName);
      var r2 := RenameGroup(r.local, r.remote, groupId, newName);
      r2.result.Success? && r2.remote == r.remote && r2.local == r.local
  {
    var r := RenameGroup(local, remote, groupId, newName);
    var g := remote.groups[groupId];
    assert r.remote.groups[groupId].memberIds == g.memberIds;
    var r2 := RenameGroup(r.local, r.remote, groupId, newName);
    assert r2.remote.conversations == r.remote.conversations;
    assert r2.remote.groups == r.remote.groups;
  }

  // ----- leaveGroup -----

  /** The local step: the caller's conversation row goes; the group row is
      deleted when it has at most one member, else the caller is filtered out. */
  function LeaveLocally(local: Db, me: string, groupId: string): (r: Db)
    requires Valid(local)
    ensures Valid(r)
    ensures groupId !in r.conversations
    ensures groupId in local.groups && |local.groups[groupId].memberIds| <= 1 ==> groupId !in r.groups
    ensures groupId in local.groups && |local.groups[groupId].memberIds| > 1 ==>
      groupId in r.groups
      && r.groups[groupId].memberIds == Without(local.groups[groupId].memberIds, me)
      && r.groups[groupId].adminIds == Without(local.groups[groupId].adminIds, me)
    ensures groupId !in local.groups ==> r.groups == local.groups
  {
    var local1 := DeleteConversationByPartnerId(local, groupId);
    match GetGroupById(local1, groupId)
    case None => local1
    case Some(g) =>
      if |g.memberIds| <= 1 then DeleteGroupById(local1, groupId)
      else InsertGroup(local1, g.(memberIds := Without(g.memberIds, me), adminIds := Without(g.adminIds, me)))
  }

  /** The caller is the group's only member. */
  predicate SoleMember(g: Group, me: string) {
    |g.memberIds| == 1 && me in g.memberIds
  }

  function LeaveGroup(local: Db, remote: Store, me: Option<string>, groupId: string): (r: Step<()>)
    requires Valid(local)
    ensures Valid(r.local)
    ensures me.None? ==> r == Outcome(Failure(NotSignedIn), local, remote)
    ensures me.Some? ==> r.local == LeaveLocally(local, me.value, groupId)
    ensures me.Some? && groupId !in remote.groups ==> r.result == Failure(GroupNotFound) && r.remote == remote
    ensures me.Some? && groupId in remote.groups ==>
      && r.result.Success?
      && DocId(me.value, groupId) !in r.remote.conversations
      && (groupId in r.remote.groups <==> !SoleMember(remote.groups[groupId], me.value))
      && (groupId in r.remote.groups ==>
            r.remote.groups[groupId].memberIds == Without(remote.groups[groupId].memberIds, me.value)
            && r.remote.groups[groupId].adminIds == Without(remote.groups[groupId].adminIds, me.value))
      && r.remote.groups == (
           if SoleMember(remote.groups[groupId], me.value) then remote.groups - {groupId}
           else remote.groups[groupId := remote.groups[groupId].(
                  memberIds := Without(remote.groups[groupId].memberIds, me.value),
                  adminIds := Without(remote.groups[groupId].adminIds, me.value))])
      && r.remote.conversations == remote.conversations - {DocId(me.value, groupId)}
      && r.remote == remote.(groups := r.remote.groups, conversations := r.remote.conversations)
  {
    if me.None? then Outcome(Failure(NotSignedIn), local, remote)
    else
      var local1 := LeaveLocally(local, me.value, groupId);
      if groupId !in remote.groups then Outcome(Failure(GroupNotFound), local1, remote)
      else
        var g := remote.groups[groupId];
        var groups := if SoleMember(g, me.value) then remote.groups - {groupId}
                      else remote.groups[groupId := g.(memberIds := Without(g.memberIds, me.value),
                                                       adminIds := Without(g.adminIds, me.value))];
        Outcome(Success(()), local1,
                remote.(groups := groups, conversations := remote.conversations - {DocId(me.value, groupId)}))
  }

  /** After a successful leave the caller is no longer a member of the group,
      whether the group was deleted or kept. */
  lemma LeaverIsGone(local: Db, remote: Store, me: string, groupId: string)
    requires Valid(local) && groupId in remote.groups
    ensures var r := LeaveGroup(local, remote, Some(me), groupId).remote;
      groupId in r.groups ==> me !in r.groups[groupId].memberIds && me !in r.groups[groupId].adminIds
  {
  }

  /** The group document is deleted exactly when the leaver was its only member:
      a group whose one member is someone else keeps that member. */
  lemma SoleOtherMemberKeepsGroup(local: Db, remote: Store, me: string, other: string, groupId: string)
    requires Valid(local) && groupId in remote.groups && remote.groups[groupId].memberIds == [other] && other != me
    ensures var r := LeaveGroup(local, remote, Some(me), groupId).remote;
      groupId in r.groups && r.groups[groupId].memberIds == [other]
  {
    assert Without([other], me) == [other] + Without([], me);
  }
}

=== FILE: home_screen.dfy ===
/** The conversation list of the home screen: the listeners that copy Firestore
    into Room, the display list (conversations with the contact's own name laid
    over the partner name), and the blocked / search / category filters. */
module HomeScreen {
  import opened Wrappers
  import opened Model
  import opened Seqs
  import opened Text
  import opened Mappers
  import opened LocalStore
  import opened RemoteStore

  // ----- filter chips -----

  const AllChats: string := "Todas"
  const UnreadChats: string := "Não lidas"
  const GroupChats: string := "Grupos"

  /** The chips in display order; the first one is selected when the screen opens. */
  const Filters: seq<string> := [AllChats, UnreadChats, GroupChats]
  const DefaultFilter: string := AllChats

  // ----- listeners -----

  /** The conversations listener: a snapshot that arrived without error is
      upserted into Room; a failed listen (`None`) changes nothing. No row is
      ever deleted, so a conversation missing from the snapshot stays. */
  function SyncConversations(db: Db, snapshot: Option<seq<Conversation>>): (r: Db)
    requires Valid(db)
    ensures Valid(r)
    ensures r == db.(conversations := r.conversations)
    ensures snapshot.None? ==> r == db
    ensures forall k :: k in db.conversations ==> k in r.conversations
    ensures snapshot.Some? ==>
      forall c :: c in snapshot.value ==> c.partnerId in r.conversations
    ensures snapshot.Some? ==> forall k ::
      LastWithKey(Map(ToConversationEntity, snapshot.value), ConversationKey, k).Some? ==>
        r.conversations[k] == LastWithKey(Map(ToConversationEntity, snapshot.value), ConversationKey, k).value
    ensures snapshot.Some? ==>
      forall k :: k in db.conversations && (forall c :: c in snapshot.value ==> c.partnerId != k) ==>
        r.conversations[k] == db.conversations[k]
  {
    if snapshot.None? then db
    else
      var rows := Map(ToConversationEntity, snapshot.value);
      assert forall c :: c in snapshot.value ==> ToConversationEntity(c) in rows;
      InsertAllConversations(db, rows)
  }

  /** The contacts listener, with the same upsert-only rule. */
  function SyncContacts(db: Db, snapshot: Option<seq<Contact>>): (r: Db)
    requires Valid(db)
    ensures Valid(r)
    ensures r == db.(contacts := r.contacts)
    ensures snapshot.None? ==> r == db
    ensures forall k :: k in db.contacts ==> k in r.contacts
    ensures snapshot.Some? ==>
      forall c :: c in snapshot.value ==> c.uid in r.contacts
    ensures snapshot.Some? ==> forall k ::
      LastWithKey(Map(ToContactEntity, snapshot.value), ContactKey, k).Some? ==>
        r.contacts[k] == LastWithKey(Map(ToContactEntity, snapshot.value), ContactKey, k).value
    ensures snapshot.Some? ==>
      forall k :: k in db.contacts && (forall c :: c in snapshot.value ==> c.uid != k) ==>
        r.contacts[k] == db.contacts[k]
  {
    if snapshot.None? then db
    else
      var rows := Map(ToContactEntity, snapshot.value);
      assert forall c :: c in snapshot.value ==> ToContactEntity(c) in rows;
      InsertAllContacts(db, rows)
  }

  /** A conversation that one snapshot delivered survives a later snapshot
      that no longer lists it. */
  lemma SyncNeverDeletes(db: Db, first: seq<Conversation>, second: seq<Conversation>, c: Conversation)
    requires Valid(db)
    requires c in first
    ensures c.partnerId in SyncConversations(SyncConversations(db, Some(first)), Some(second)).conversations
  {
  }

  /** The ids of the documents in the user's blockedUsers collection. */
  function BlockedIds(remote: Store, me: string): (r: set<string>)
    ensures forall u :: u in r <==> DocId(me, u) in remote.blocked
  {
    set p | p in remote.blocked && p.parent == me :: p.id
  }

  /** The blocked-users listener: a snapshot replaces the set with exactly its
      document ids; an error (no snapshot) keeps the previous set. */
  function SyncBlocked(current: set<string>, me: string, snapshot: Option<Store>): (r: set<string>)
    ensures snapshot.None? ==> r == current
    ensures snapshot.Some? ==> forall u :: u in r <==> DocId(me, u) in snapshot.value.blocked
  {
    if snapshot.None? then current else BlockedIds(snapshot.value, me)
  }

  // ----- display list -----

  /** `associateBy(uid, customName)` looked up at `uid`: the name of the last contact
      row with that uid. */
  function CustomNameFor(contacts: seq<ContactEntity>, uid: string): (r: Option<string>)
    ensures r.Some? ==> exists e :: e in contacts && e.uid == uid && e.customName == r.value
    ensures r.None? <==> forall i :: 0 <= i < |contacts| ==> contacts[i].uid != uid
  {
    match LastWithKey(contacts, ContactKey, uid)
    case None => None
    case Some(e) => Some(e.customName)
  }

  /** One row of the display list. */
  function Display(e: ConversationEntity, contacts: seq<ContactEntity>, now: Timestamp): (c: Conversation)
    ensures c.partnerName == CustomNameFor(contacts, e.partnerId).GetOr(e.partnerName)
    ensures c == ToDataConversation(e, now).(partnerName := c.partnerName)
  {
    ToDataConversation(e, now).(partnerName := CustomNameFor(contacts, e.partnerId).GetOr(e.partnerName))
  }

  /** The display list: the stored conversations, in the order Room returned them,
      each under the contact's custom name when the partner is a contact. */
  function DisplayList(conversations: seq<ConversationEntity>, contacts: seq<ContactEntity>, now: Timestamp)
    : (r: seq<Conversation>)
    ensures |r| == |conversations|
    ensures forall i :: 0 <= i < |r| ==>
      && r[i].partnerId == conversations[i].partnerId
      && r[i].unreadCount == conversations[i].unreadCount
      && r[i].isGroup == conversations[i].isGroup
    ensures forall i :: 0 <= i < |r| && (forall j :: 0 <= j < |contacts| ==> contacts[j].uid != conversations[i].partnerId) ==>
      r[i].partnerName == conversations[i].partnerName
  {
    Map((e: ConversationEntity) => Display(e, contacts, now), conversations)
  }

  /** When the contact rows are those of the local contacts table, the overlaid
      name is the table's name for the partner, and the stored name otherwise. */
  lemma DisplayNameFromTable(db: Db, contacts: seq<ContactEntity>, e: ConversationEntity, now: Timestamp)
    requires Valid(db)
    requires forall x :: x in contacts <==> x in db.contacts.Values
    ensures e.partnerId in db.contacts ==>
      Display(e, contacts, now).partnerName == db.contacts[e.partnerId].customName
    ensures e.partnerId !in db.contacts ==> Display(e, contacts, now).partnerName == e.partnerName
  {
    assert forall k :: k in db.contacts ==> db.contacts[k] in contacts;
    var hit := LastWithKey(contacts, ContactKey, e.partnerId);
    if hit.Some? {
      assert hit.value in db.contacts.Values;
      var k :| k in db.contacts && db.contacts[k] == hit.value;
      assert ContactKey(db.contacts[k]) == k;
    }
  }

  // ----- filtered list -----

  /** The three row conditions of `filteredList`, one per stage. */
  function NotBlocked(blocked: set<string>): (p: Conversation -> bool)
    ensures forall c :: p(c) <==> c.partnerId !in blocked
  {
    (c: Conversation) => c.partnerId !in blocked
  }

  function MatchesQuery(query: string): (p: Conversation -> bool)
    ensures forall c :: p(c) <==> ContainsIgnoringCase(c.partnerName, query)
  {
    (c: Conversation) => ContainsIgnoringCase(c.partnerName, query)
  }

  /** The chip's condition; "Todas" and any unknown chip keep every row. */
  function InCategory(filter: string): (p: Conversation -> bool)
    ensures filter == UnreadChats ==> forall c :: p(c) <==> c.unreadCount > 0
    ensures filter == GroupChats ==> forall c :: p(c) <==> c.isGroup
    ensures filter != UnreadChats && filter != GroupChats ==> forall c :: p(c)
  {
    if filter == UnreadChats then (c: Conversation) => c.unreadCount > 0
    else if filter == GroupChats then (c: Conversation) => c.isGroup
    else (c: Conversation) => true
  }

  /** Whether a row of the display list is shown: not blocked, matching the
      query (a blank query matches everything), and in the selected category. */
  predicate Shown(blocked: set<string>, query: string, filter: string, c: Conversation) {
    && c.partnerId !in blocked
    && (IsBlank(query) || ContainsIgnoringCase(c.partnerName, query))
    && (filter == UnreadChats ==> c.unreadCount > 0)
    && (filter == GroupChats ==> c.isGroup)
  }

  /** `filteredList`: blocked partners out, then the text search (skipped for a
      blank query), then the chip (skipped for "Todas"). */
  function Filtered(display: seq<Conversation>, blocked: set<string>, query: string, filter: string)
    : (r: seq<Conversation>)
    ensures Subseq(r, display)
    ensures forall c :: c in r <==> c in display && Shown(blocked, query, filter, c)
    ensures forall i :: 0 <= i < |r| ==> r[i].partnerId !in blocked
  {
    var unblocked := Filter(NotBlocked(blocked), display);
    var searched := if IsBlank(query) then unblocked else Filter(MatchesQuery(query), unblocked);
    var r :=
      if filter == UnreadChats || filter == GroupChats then Filter(InCategory(filter), searched)
      else searched;
    assert Subseq(searched, display) by {
      if !IsBlank(query) { SubseqTrans(searched, unblocked, display); }
    }
    assert Subseq(r, display) by {
      if filter == UnreadChats || filter == GroupChats { SubseqTrans(r, searched, display); }
    }
    r
  }

  /** The stages together are one filter by `Shown`: the display order is kept
      and nothing but `Shown` decides whether a row appears. */
  lemma FilteredIsOneFilter(display: seq<Conversation>, blocked: set<string>, query: string, filter: string)
    ensures Filtered(display, blocked, query, filter)
         == Filter((c: Conversation) => Shown(blocked, query, filter, c), display)
  {
    var shown := (c: Conversation) => Shown(blocked, query, filter, c);
    var p1 := NotBlocked(blocked);
    var ps: Conversation -> bool;
    if IsBlank(query) {
      ps := p1;
    } else {
      FilterFuse(p1, MatchesQuery(query), display);
      ps := Both(p1, MatchesQuery(query));
    }
    if filter == UnreadChats || filter == GroupChats {
      FilterFuse(ps, InCategory(filter), display);
      FilterExt(Both(ps, InCategory(filter)), shown, display);
    } else {
      FilterExt(ps, shown, display);
    }
  }

  /** On the default chip, with an empty search box and nobody blocked, the
      whole display list is shown. */
  lemma DefaultShowsEverything(display: seq<Conversation>)
    ensures Filtered(display, {}, "", DefaultFilter) == display
  {
    FilterAll(NotBlocked({}), display);
  }

  // ----- unread badge -----

  /** The green badge with the count is drawn iff the row has unread messages. */
  predicate ShowsBadge(c: Conversation) {
    c.unreadCount > 0
  }

  /** Every row listed under "Não lidas" carries the badge, and every row with a
      badge that passes the other filters is listed there. */
  lemma UnreadChipListsBadgedRows(display: seq<Conversation>, blocked: set<string>, query: string)
    ensures forall c :: c in Filtered(display, blocked, query, UnreadChats) <==>
      c in Filtered(display, blocked, query, AllChats) && ShowsBadge(c)
  {
  }
}

=== FILE: local_store.dfy ===
/** The Room database: one table per entity, each a finite map from the
    entity's @PrimaryKey to its row. Every `@Insert` uses
    `OnConflictStrategy.REPLACE`, so an insert is an upsert. */
module LocalStore {
  import opened Wrappers
  import opened Model
  import opened Seqs
  import opened Sorting

  // ----- Generic keyed table -----

  /** Every row is stored under its own primary key. */
  predicate KeyConsistent<V>(t: map<string, V>, key: V -> string) {
    forall k :: k in t ==> key(t[k]) == k
  }

  /** `INSERT OR REPLACE`: the row takes its key's place; other rows are kept. */
  function Upsert<V>(t: map<string, V>, key: V -> string, v: V): (r: map<string, V>)
    ensures key(v) in r && r[key(v)] == v
    ensures forall k :: k != key(v) ==> (k in r <==> k in t)
    ensures forall k :: k != key(v) && k in t ==> r[k] == t[k]
    ensures KeyConsistent(t, key) ==> KeyConsistent(r, key)
  {
    t[key(v) := v]
  }

  /** The last row of `rows` whose key is `k`, if any. */
  function LastWithKey<V>(rows: seq<V>, key: V -> string, k: string): (r: Option<V>)
    ensures r.Some? ==> key(r.value) == k && r.value in rows
    ensures r.None? ==> forall i :: 0 <= i < |rows| ==> key(rows[i]) != k
    decreases |rows|
  {
    if |rows| == 0 then None
    else if key(rows[|rows| - 1]) == k then Some(rows[|rows| - 1])
    else LastWithKey(rows[..|rows| - 1], key, k)
  }

  /** `insertAll` with REPLACE: the rows are upserted one after the other.
      A key present in `rows` ends up holding the LAST row with that key;
      every other key keeps its old row. */
  function UpsertAll<V>(t: map<string, V>, key: V -> string, rows: seq<V>): (r: map<string, V>)
    ensures forall k :: k in r <==> k in t || LastWithKey(rows, key, k).Some?
    ensures forall k :: LastWithKey(rows, key, k).Some? ==> r[k] == LastWithKey(rows, key, k).value
    ensures forall k :: k in t && LastWithKey(rows, key, k).None? ==> r[k] == t[k]
    ensures KeyConsistent(t, key) ==> KeyConsistent(r, key)
    decreases |rows|
  {
    if |rows| == 0 then t
    else Upsert(UpsertAll(t, key, rows[..|rows| - 1]), key, rows[|rows| - 1])
  }

  /** The loop Room runs for a list insert: one REPLACE per row, in list order. */
  method InsertAll<V>(t: map<string, V>, key: V -> string, rows: seq<V>) returns (r: map<string, V>)
    ensures forall k :: k in r <==> k in t || LastWithKey(rows, key, k).Some?
    ensures forall k :: LastWithKey(rows, key, k).Some? ==> r[k] == LastWithKey(rows, key, k).value
    ensures forall k :: k in t && LastWithKey(rows, key, k).None? ==> r[k] == t[k]
  {
    r := t;
    var i := 0;
    while i < |rows|
      invariant 0 <= i <= |rows|
      invariant r == UpsertAll(t, key, rows[..i])
    {
      assert rows[..i + 1][..i] == rows[..i];
      r := r[key(rows[i]) := rows[i]];
      i := i + 1;
    }
    assert rows[..i] == rows;
  }

  /** `DELETE ... WHERE key = k`. */
  function Delete<V>(t: map<string, V>, k: string): (r: map<string, V>)
    ensures k !in r
    ensures forall k' :: k' != k ==> (k' in r <==> k' in t)
    ensures forall k' :: k' != k && k' in t ==> r[k'] == t[k']
  {
    t - {k}
  }

  /** Deleting a missing key changes nothing, so a delete is idempotent. */
  lemma DeleteIdempotent<V>(t: map<string, V>, k: string)
    ensures k !in t ==> Delete(t, k) == t
    ensures Delete(Delete(t, k), k) == Delete(t, k)
  {
  }

  /** An insert followed by the delete of its key is the delete alone. */
  lemma DeleteUndoesUpsert<V>(t: map<string, V>, key: V -> string, v: V)
    ensures Delete(Upsert(t, key, v), key(v)) == Delete(t, key(v))
  {
  }

  /** Re-inserting the same row changes nothing. */
  lemma UpsertIdempotent<V>(t: map<string, V>, key: V -> string, v: V)
    ensures Upsert(Upsert(t, key, v), key, v) == Upsert(t, key, v)
  {
  }

  /** A row lookup by key: the stored row, or nothing. */
  function Lookup<V>(t: map<string, V>, k: string): (r: Option<V>)
    ensures r.Some? <==> k in t
    ensures r.Some? ==> r.value == t[k]
  {
    if k in t then Some(t[k]) else None
  }

  /** A lookup after a list insert sees the last row inserted with that key. */
  lemma LookupAfterUpsertAll<V>(t: map<string, V>, key: V -> string, rows: seq<V>, k: string)
    requires LastWithKey(rows, key, k).Some?
    ensures Lookup(UpsertAll(t, key, rows), k) == LastWithKey(rows, key, k)
  {
  }

  /** All rows of a table, each exactly once, with the key it is stored under. */
  method Rows<V(==)>(t: map<string, V>) returns (keys: seq<string>, rows: seq<V>)
    ensures NoDup(keys)
    ensures forall k :: k in keys <==> k in t
    ensures |rows| == |keys| == |t|
    ensures forall i :: 0 <= i < |keys| ==> keys[i] in t && rows[i] == t[keys[i]]
    ensures forall v :: v in rows <==> v in t.Values
  {
    var rest := t.Keys;
    keys, rows := [], [];
    while rest != {}
      invariant rest <= t.Keys
      invariant forall k :: k in keys <==> k in t && k !in rest
      invariant NoDup(keys)
      invariant |keys| + |rest| == |t|
      invariant |rows| == |keys|
      invariant forall i :: 0 <= i < |keys| ==> keys[i] in t && rows[i] == t[keys[i]]
      decreases |rest|
    {
      var k :| k in rest;
      keys, rows := keys + [k], rows + [t[k]];
      rest := rest - {k};
    }
    forall v | v in t.Values
      ensures v in rows
    {
      var k :| k in t && t[k] == v;
      var i :| 0 <= i < |keys| && keys[i] == k;
      assert rows[i] == v;
    }
  }

  /** A permutation has the same members. */
  lemma SameMembers<T>(s: seq<T>, r: seq<T>)
    requires multiset(r) == multiset(s)
    ensures forall x :: x in r <==> x in s
  {
    forall x
      ensures x in r <==> x in s
    {
      assert x in r <==> x in multiset(r);
      assert x in s <==> x in multiset(s);
    }
  }

  // ----- The five tables -----

  datatype Db = Db(
    conversations: map<string, ConversationEntity>,
    messages: map<string, MessageEntity>,
    contacts: map<string, ContactEntity>,
    groups: map<string, GroupEntity>,
    users: map<string, UserEntity>)

  const EmptyDb := Db(map[], map[], map[], map[], map[])

  function ConversationKey(e: ConversationEntity): string { e.partnerId }
  function MessageKey(e: MessageEntity): string { e.id }
  function ContactKey(e: ContactEntity): string { e.uid }
  function GroupKey(e: GroupEntity): string { e.id }
  function UserKey(e: UserEntity): string { e.uid }

  /** Every table stores its rows under their primary keys. */
  predicate Valid(db: Db) {
    && KeyConsistent(db.conversations, ConversationKey)
    && KeyConsistent(db.messages, MessageKey)
    && KeyConsistent(db.contacts, ContactKey)
    && KeyConsistent(db.groups, GroupKey)
    && KeyConsistent(db.users, UserKey)
  }

  // ConversationDao

  function InsertConversation(db: Db, e: ConversationEntity): (r: Db)
    ensures e.partnerId in r.conversations && r.conversations[e.partnerId] == e
    ensures forall k :: k != e.partnerId ==> (k in r.conversations <==> k in db.conversations)
    ensures forall k :: k != e.partnerId && k in db.conversations ==> r.conversations[k] == db.conversations[k]
    ensures r == db.(conversations := r.conversations)
    ensures Valid(db) ==> Valid(r)
  {
    db.(conversations := Upsert(db.conversations, ConversationKey, e))
  }

  function InsertAllConversations(db: Db, rows: seq<ConversationEntity>): (r: Db)
    ensures forall k :: k in r.conversations <==> k in db.conversations || LastWithKey(rows, ConversationKey, k).Some?
    ensures forall k :: LastWithKey(rows, ConversationKey, k).Some? ==>
      k in r.conversations && r.conversations[k] == LastWithKey(rows, ConversationKey, k).value
    ensures forall k :: k in db.conversations && LastWithKey(rows, ConversationKey, k).None? ==>
      k in r.conversations && r.conversations[k] == db.conversations[k]
    ensures r == db.(conversations := r.conversations)
    ensures Valid(db) ==> Valid(r)
  {
    db.(conversations := UpsertAll(db.conversations, ConversationKey, rows))
  }

  function DeleteConversationByPartnerId(db: Db, partnerId: string): (r: Db)
    ensures partnerId !in r.conversations
    ensures forall k :: k != partnerId ==> (k in r.conversations <==> k in db.conversations)
    ensures forall k :: k != partnerId && k in db.conversations ==> r.conversations[k] == db.conversations[k]
    ensures r == db.(conversations := r.conversations)
    ensures Valid(db) ==> Valid(r)
  {
    db.(conversations := Delete(db.conversations, partnerId))
  }

  /** `SELECT * FROM conversations ORDER BY timestamp DESC`. */
  method GetAllConversations(db: Db) returns (rows: seq<ConversationEntity>)
    ensures |rows| == |db.conversations|
    ensures forall e :: e in rows <==> e in db.conversations.Values
    ensures SortedBy((e: ConversationEntity) => NullableKey(e.timestamp), true, rows)
  {
    var _, all := Rows(db.conversations);
    rows := Sort((e: ConversationEntity) => NullableKey(e.timestamp), true, all);
    assert |multiset(rows)| == |multiset(all)|;
    SameMembers(all, rows);
  }

  // MessageDao

  function InsertMessage(db: Db, e: MessageEntity): (r: Db)
    ensures e.id in r.messages && r.messages[e.id] == e
    ensures forall k :: k != e.id ==> (k in r.messages <==> k in db.messages)
    ensures forall k :: k != e.id && k in db.messages ==> r.messages[k] == db.messages[k]
    ensures r == db.(messages := r.messages)
    ensures Valid(db) ==> Valid(r)
  {
    db.(messages := Upsert(db.messages, MessageKey, e))
  }

  function InsertAllMessages(db: Db, rows: seq<MessageEntity>): (r: Db)
    ensures forall k :: k in r.messages <==> k in db.messages || LastWithKey(rows, MessageKey, k).Some?
    ensures forall k :: LastWithKey(rows, MessageKey, k).Some? ==>
      k in r.messages && r.messages[k] == LastWithKey(rows, MessageKey, k).value
    ensures forall k :: k in db.messages && LastWithKey(rows, MessageKey, k).None? ==>
      k in r.messages && r.messages[k] == db.messages[k]
    ensures r == db.(messages := r.messages)
    ensures Valid(db) ==> Valid(r)
  {
    db.(messages := UpsertAll(db.messages, MessageKey, rows))
  }

  /** The message table is keyed by id alone: re-inserting an id under
      another chat moves the row, and the old chat no longer holds it. */
  lemma MessageMovesBetweenChats(db: Db, e: MessageEntity, chatId: string)
    requires e.id in db.messages && db.messages[e.id].chatId == chatId && e.chatId != chatId
    ensures var r := InsertMessage(db, e);
      r.messages[e.id].chatId == e.chatId && |r.messages| == |db.messages|
  {
    assert InsertMessage(db, e).messages.Keys == db.messages.Keys;
  }

  /** The ids of the stored messages that belong to a chat. */
  function ChatIds(db: Db, chatId: string): set<string> {
    set k | k in db.messages && db.messages[k].chatId == chatId
  }

  /** `DELETE FROM messages WHERE chatId = :chatId`. */
  function DeleteAllMessagesForChat(db: Db, chatId: string): (r: Db)
    ensures forall k :: k in r.messages <==> k in db.messages && db.messages[k].chatId != chatId
    ensures forall k :: k in r.messages ==> r.messages[k] == db.messages[k]
    ensures ChatIds(r, chatId) == {}
    ensures r == db.(messages := r.messages)
    ensures Valid(db) ==> Valid(r)
  {
    db.(messages := map k | k in db.messages && db.messages[k].chatId != chatId :: db.messages[k])
  }

  /** `SELECT * FROM messages WHERE chatId = :chatId ORDER BY timestamp ASC`:
      one row per stored message of the chat. */
  method GetMessagesForChat(db: Db, chatId: string) returns (rows: seq<MessageEntity>)
    ensures |rows| == |ChatIds(db, chatId)|
    ensures forall e :: e in rows <==> e in db.messages.Values && e.chatId == chatId
    ensures forall i :: 0 <= i < |rows| ==> rows[i].chatId == chatId
    ensures SortedBy((e: MessageEntity) => NullableKey(e.timestamp), false, rows)
  {
    var inChat := map k | k in ChatIds(db, chatId) :: db.messages[k];
    assert inChat.Keys == ChatIds(db, chatId);
    var _, all := Rows(inChat);
    rows := Sort((e: MessageEntity) => NullableKey(e.timestamp), false, all);
    assert |multiset(rows)| == |multiset(all)|;
    SameMembers(all, rows);
    forall e | e in db.messages.Values && e.chatId == chatId
      ensures e in inChat.Values
    {
      var k :| k in db.messages && db.messages[k] == e;
      assert k in inChat;
    }
  }

  /** Inserting a message of a chat adds its id to the chat's messages; the
      other chats lose it if it was theirs, and keep everything else. */
  lemma ChatIdsAfterInsert(db: Db, e: MessageEntity, chatId: string)
    ensures e.chatId == chatId ==> ChatIds(InsertMessage(db, e), chatId) == ChatIds(db, chatId) + {e.id}
    ensures e.chatId != chatId ==> ChatIds(InsertMessage(db, e), chatId) == ChatIds(db, chatId) - {e.id}
  {
  }

  // ContactDao

  function InsertContact(db: Db, e: ContactEntity): (r: Db)
    ensures e.uid in r.contacts && r.contacts[e.uid] == e
    ensures forall k :: k != e.uid ==> (k in r.contacts <==> k in db.contacts)
    ensures forall k :: k != e.uid && k in db.contacts ==> r.contacts[k] == db.contacts[k]
    ensures r == db.(contacts := r.contacts)
    ensures Valid(db) ==> Valid(r)
  {
    db.(contacts := Upsert(db.contacts, ContactKey, e))
  }

  function InsertAllContacts(db: Db, rows: seq<ContactEntity>): (r: Db)
    ensures forall k :: k in r.contacts <==> k in db.contacts || LastWithKey(rows, ContactKey, k).Some?
    ensures forall k :: LastWithKey(rows, ContactKey, k).Some? ==>
      k in r.contacts && r.contacts[k] == LastWithKey(rows, ContactKey, k).value
    ensures forall k :: k in db.contacts && LastWithKey(rows, ContactKey, k).None? ==>
      k in r.contacts && r.contacts[k] == db.contacts[k]
    ensures r == db.(contacts := r.contacts)
    ensures Valid(db) ==> Valid(r)
  {
    db.(contacts := UpsertAll(db.contacts, ContactKey, rows))
  }

  function DeleteContactByUid(db: Db, uid: string): (r: Db)
    ensures uid !in r.contacts
    ensures forall k :: k != uid ==> (k in r.contacts <==> k in db.contacts)
    ensures forall k :: k != uid && k in db.contacts ==> r.contacts[k] == db.contacts[k]
    ensures r == db.(contacts := r.contacts)
    ensures Valid(db) ==> Valid(r)
  {
    db.(contacts := Delete(db.contacts, uid))
  }

  /** `SELECT * FROM contacts ORDER BY customName ASC`. */
  method GetAllContacts(db: Db) returns (rows: seq<ContactEntity>)
    ensures |rows| == |db.contacts|
    ensures forall e :: e in rows <==> e in db.contacts.Values
    ensures SortedBy((e: ContactEntity) => TextKey(e.customName), false, rows)
  {
    var _, all := Rows(db.contacts);
    rows := Sort((e: ContactEntity) => TextKey(e.customName), false, all);
    assert |multiset(rows)| == |multiset(all)|;
    SameMembers(all, rows);
  }

  // GroupDao

  function InsertGroup(db: Db, e: GroupEntity): (r: Db)
    ensures e.id in r.groups && r.groups[e.id] == e
    ensures forall k :: k != e.id ==> (k in r.groups <==> k in db.groups)
    ensures forall k :: k != e.id && k in db.groups ==> r.groups[k] == db.groups[k]
    ensures r == db.(groups := r.groups)
    ensures Valid(db) ==> Valid(r)
  {
    db.(groups := Upsert(db.groups, GroupKey, e))
  }

  function InsertAllGroups(db: Db, rows: seq<GroupEntity>): (r: Db)
    ensures forall k :: k in r.groups <==> k in db.groups || LastWithKey(rows, GroupKey, k).Some?
    ensures forall k :: LastWithKey(rows, GroupKey, k).Some? ==>
      k in r.groups && r.groups[k] == LastWithKey(rows, GroupKey, k).value
    ensures forall k :: k in db.groups && LastWithKey(rows, GroupKey, k).None? ==>
      k in r.groups && r.groups[k] == db.groups[k]
    ensures r == db.(groups := r.groups)
    ensures Valid(db) ==> Valid(r)
  {
    db.(groups := UpsertAll(db.groups, GroupKey, rows))
  }

  /** `SELECT * FROM groups WHERE id = :groupId`: the row or null. */
  function GetGroupById(db: Db, groupId: string): (r: Option<GroupEntity>)
    ensures r.Some? <==> groupId in db.groups
    ensures r.Some? ==> r.value == db.groups[groupId]
    ensures Valid(db) && r.Some? ==> r.value.id == groupId
  {
    Lookup(db.groups, groupId)
  }

  /** A group read back after its insert is the inserted row; the other ids
      read as before. */
  lemma GroupReadsBack(db: Db, e: GroupEntity, groupId: string)
    ensures GetGroupById(InsertGroup(db, e), e.id) == Some(e)
    ensures groupId != e.id ==> GetGroupById(InsertGroup(db, e), groupId) == GetGroupById(db, groupId)
  {
  }

  function DeleteGroupById(db: Db, groupId: string): (r: Db)
    ensures GetGroupById(r, groupId).None?
    ensures forall k :: k != groupId ==> GetGroupById(r, k) == GetGroupById(db, k)
    ensures r == db.(groups := r.groups)
    ensures Valid(db) ==> Valid(r)
  {
    db.(groups := Delete(db.groups, groupId))
  }

  // UserDao

  function InsertUser(db: Db, e: UserEntity): (r: Db)
    ensures e.uid in r.users && r.users[e.uid] == e
    ensures forall k :: k != e.uid ==> (k in r.users <==> k in db.users)
    ensures forall k :: k != e.uid && k in db.users ==> r.users[k] == db.users[k]
    ensures r == db.(users := r.users)
    ensures Valid(db) ==> Valid(r)
  {
    db.(users := Upsert(db.users, UserKey, e))
  }

  function InsertAllUsers(db: Db, rows: seq<UserEntity>): (r: Db)
    ensures forall k :: k in r.users <==> k in db.users || LastWithKey(rows, UserKey, k).Some?
    ensures forall k :: LastWithKey(rows, UserKey, k).Some? ==>
      k in r.users && r.users[k] == LastWithKey(rows, UserKey, k).value
    ensures forall k :: k in db.users && LastWithKey(rows, UserKey, k).None? ==>
      k in r.users && r.users[k] == db.users[k]
    ensures r == db.(users := r.users)
    ensures Valid(db) ==> Valid(r)
  {
    db.(users := UpsertAll(db.users, UserKey, rows))
  }

  /** `SELECT * FROM users WHERE uid = :uid`: the row or null. */
  function GetUserById(db: Db, uid: string): (r: Option<UserEntity>)
    ensures r.Some? <==> uid in db.users
    ensures r.Some? ==> r.value == db.users[uid]
    ensures Valid(db) && r.Some? ==> r.value.uid == uid
  {
    Lookup(db.users, uid)
  }

  /** After inserting a list of users, a lookup returns the last row inserted with that uid. */
  lemma GetUserAfterInsertAll(db: Db, rows: seq<UserEntity>, uid: string)
    requires LastWithKey(rows, UserKey, uid).Some?
    ensures GetUserById(InsertAllUsers(db, rows), uid) == LastWithKey(rows, UserKey, uid)
  {
  }

  /** A single insert is a list insert of one row. */
  lemma InsertIsInsertAllOfOne(db: Db, e: UserEntity)
    ensures InsertUser(db, e) == InsertAllUsers(db, [e])
  {
    assert [e][..0] == [];
  }
}

=== FILE: mappers.dfy ===
/** Conversions between the Firestore records and the Room entities
    (the `to*Entity` / `toData*` extension functions), with their round trips. */
module Mappers {
  import opened Wrappers
  import opened Model

  /** The optional timestamp stored as whole seconds. */
  function SecondsOf(t: Option<Timestamp>): Option<int> {
    match t
    case None => None
    case Some(ts) => Some(ts.seconds)
  }

  /** Whole seconds read back as a timestamp with no sub-second part. */
  function TimestampOf(s: Option<int>): Option<Timestamp> {
    match s
    case None => None
    case Some(sec) => Some(Timestamp(sec, 0))
  }

  // ----- Conversation -----

  function ToConversationEntity(c: Conversation): ConversationEntity {
    ConversationEntity(c.partnerId, c.partnerName, c.partnerProfilePictureUrl, Some(c.lastMessage),
                       Some(c.timestamp.seconds), c.partnerPhoneNumber, c.unreadCount, c.isGroup)
  }

  /** `now` stands for `Timestamp.now()`, used when the row has no timestamp. */
  function ToDataConversation(e: ConversationEntity, now: Timestamp): Conversation {
    Conversation(e.partnerId, e.partnerName, e.partnerProfilePictureUrl, e.lastMessage.GetOr(""),
                 if e.timestamp.Some? then Timestamp(e.timestamp.value, 0) else now,
                 e.partnerPhoneNumber, e.unreadCount, e.isGroup)
  }

  /** Every field is copied; the lastMessage is never NULL and the timestamp is kept in seconds. */
  lemma ConversationEntityFields(c: Conversation)
    ensures var e := ToConversationEntity(c);
      && e.partnerId == c.partnerId && e.partnerName == c.partnerName
      && e.partnerProfilePictureUrl == c.partnerProfilePictureUrl
      && e.lastMessage == Some(c.lastMessage) && e.timestamp == Some(c.timestamp.seconds)
      && e.partnerPhoneNumber == c.partnerPhoneNumber
      && e.unreadCount == c.unreadCount && e.isGroup == c.isGroup
  {
  }

  /** A NULL lastMessage reads as "" and a NULL timestamp reads as `now`. */
  lemma ConversationNullDefaults(e: ConversationEntity, now: Timestamp)
    ensures e.lastMessage.None? ==> ToDataConversation(e, now).lastMessage == ""
    ensures e.timestamp.None? ==> ToDataConversation(e, now).timestamp == now
    ensures e.timestamp.Some? ==> ToDataConversation(e, now).timestamp == Timestamp(e.timestamp.value, 0)
  {
  }

  /** A row with a lastMessage and a timestamp survives entity -> data -> entity unchanged. */
  lemma ConversationEntityRoundTrip(e: ConversationEntity, now: Timestamp)
    requires e.lastMessage.Some? && e.timestamp.Some?
    ensures ToConversationEntity(ToDataConversation(e, now)) == e
  {
  }

  /** data -> entity -> data loses only the sub-second part of the timestamp. */
  lemma ConversationDataRoundTrip(c: Conversation, now: Timestamp)
    ensures ToDataConversation(ToConversationEntity(c), now) == c.(timestamp := WholeSeconds(c.timestamp))
  {
  }

  // ----- Group -----

  function ToGroupEntity(g: Group): GroupEntity {
    GroupEntity(g.id, g.name, g.memberIds, g.adminIds, g.groupPictureUrl, g.lastMessage, SecondsOf(g.timestamp))
  }

  function ToDataGroup(e: GroupEntity): Group {
    Group(e.id, e.name, e.memberIds, e.adminIds, e.groupPictureUrl, e.lastMessage, TimestampOf(e.timestamp))
  }

  /** Members and admins keep their order; a NULL timestamp stays NULL. */
  lemma GroupFields(g: Group, e: GroupEntity)
    ensures ToGroupEntity(g).memberIds == g.memberIds && ToGroupEntity(g).adminIds == g.adminIds
    ensures ToGroupEntity(g).timestamp.None? <==> g.timestamp.None?
    ensures g.timestamp.Some? ==> ToGroupEntity(g).timestamp == Some(g.timestamp.value.seconds)
    ensures ToDataGroup(e).memberIds == e.memberIds && ToDataGroup(e).adminIds == e.adminIds
    ensures ToDataGroup(e).timestamp.None? <==> e.timestamp.None?
  {
  }

  lemma GroupEntityRoundTrip(e: GroupEntity)
    ensures ToGroupEntity(ToDataGroup(e)) == e
  {
  }

  /** data -> entity -> data loses only the sub-second part of the timestamp. */
  lemma GroupDataRoundTrip(g: Group)
    ensures ToDataGroup(ToGroupEntity(g)) ==
      g.(timestamp := if g.timestamp.Some? then Some(WholeSeconds(g.timestamp.value)) else None)
  {
  }

  // ----- Message -----

  /** The entity records the room (`chatId`) the message was read from. */
  function ToMessageEntity(m: Message, chatId: string): MessageEntity {
    MessageEntity(m.id, chatId, m.message, m.senderId, SecondsOf(m.timestamp), m.imageUrl, m.videoUrl)
  }

  /** The status and media URL are not stored, so they read back as their defaults. */
  function ToDataMessage(e: MessageEntity): Message {
    Message(e.id, e.message, e.senderId, TimestampOf(e.timestamp), SENT, None, e.imageUrl, e.videoUrl)
  }

  lemma MessageFields(m: Message, chatId: string)
    ensures var e := ToMessageEntity(m, chatId);
      && e.chatId == chatId && e.id == m.id && e.message == m.message && e.senderId == m.senderId
      && e.imageUrl == m.imageUrl && e.videoUrl == m.videoUrl
      && (e.timestamp.None? <==> m.timestamp.None?)
  {
  }

  lemma MessageEntityRoundTrip(e: MessageEntity)
    ensures ToMessageEntity(ToDataMessage(e), e.chatId) == e
  {
  }

  /** data -> entity -> data resets the status to "SENT", drops the media URL
      and the sub-second part of the timestamp, and keeps everything else. */
  lemma MessageDataRoundTrip(m: Message, chatId: string)
    ensures ToDataMessage(ToMessageEntity(m, chatId)) ==
      m.(timestamp := if m.timestamp.Some? then Some(WholeSeconds(m.timestamp.value)) else None,
         status := SENT, mediaUrl := None)
  {
  }

  // ----- User -----

  /** A user document without a uid is stored under the empty key. */
  function ToUserEntity(u: User): UserEntity {
    UserEntity(u.uid.GetOr(""), u.name, u.phoneNumber, u.email, u.profilePictureUrl, u.status)
  }

  function ToDataUser(e: UserEntity): User {
    User(e.name, Some(e.uid), e.phoneNumber, e.email, e.profilePictureUrl, e.status)
  }

  lemma UserFields(u: User)
    ensures u.uid.None? ==> ToUserEntity(u).uid == ""
    ensures u.uid.Some? ==> ToUserEntity(u).uid == u.uid.value
    ensures var e := ToUserEntity(u);
      e.name == u.name && e.phoneNumber == u.phoneNumber && e.email == u.email
      && e.profilePictureUrl == u.profilePictureUrl && e.status == u.status
  {
  }

  lemma UserEntityRoundTrip(e: UserEntity)
    ensures ToUserEntity(ToDataUser(e)) == e
  {
  }

  /** data -> entity -> data is the identity exactly when the uid is present. */
  lemma UserDataRoundTrip(u: User)
    ensures ToDataUser(ToUserEntity(u)) == u <==> u.uid.Some?
  {
  }

  // ----- Contact -----

  function ToContactEntity(c: Contact): ContactEntity {
    ContactEntity(c.uid, c.customName, c.phoneNumber, c.profilePictureUrl)
  }

  function ToDataContact(e: ContactEntity): Contact {
    Contact(e.uid, e.customName, e.phoneNumber, e.profilePictureUrl)
  }

  /** The two contact mappers are mutually inverse, and the uid becomes the entity key. */
  lemma ContactRoundTrips(c: Contact, e: ContactEntity)
    ensures ToDataContact(ToContactEntity(c)) == c
    ensures ToContactEntity(ToDataContact(e)) == e
    ensures ToContactEntity(c).uid == c.uid
  {
  }
}

=== FILE: messaging_service.dfy ===
/** The push-message service: which payloads become a notification, what the
    notification shows, its id, and where a refreshed token is saved. */
module MessagingService {
  import opened Wrappers
  import opened Text
  import opened RemoteStore
  import opened LocalStore

  const DefaultTitle: string := "VibeChat"

  // ----- Java's String.hashCode -----

  const TwoTo16: int := 0x1_0000
  const TwoTo31: int := 0x8000_0000
  const TwoTo32: int := 0x1_0000_0000

  /** The UTF-16 code units of a string: one per character below U+10000, a
      surrogate pair for the others. */
  function Utf16(s: string): (units: seq<int>)
    ensures forall i :: 0 <= i < |units| ==> 0 <= units[i] < TwoTo16
    ensures (forall i :: 0 <= i < |s| ==> (s[i] as int) < TwoTo16) ==> |units| == |s|
    decreases |s|
  {
    if |s| == 0 then []
    else
      var c := s[0] as int;
      var head := if c < TwoTo16 then [c]
                  else [0xD800 + (c - TwoTo16) / 0x400, 0xDC00 + (c - TwoTo16) % 0x400];
      head + Utf16(s[1..])
  }

  /** `s[0]*31^(n-1) + ... + s[n-1]` over the code units, without overflow. */
  function Poly(units: seq<int>): int
    decreases |units|
  {
    if |units| == 0 then 0 else units[0] * Pow31(|units| - 1) + Poly(units[1..])
  }

  function Pow31(n: nat): (p: int)
    ensures p >= 1
  {
    if n == 0 then 1 else 31 * Pow31(n - 1)
  }

  /** The loop `h = 31 * h + unit` in 32-bit arithmetic, kept as an unsigned value. */
  function HashLoop(units: seq<int>): (h: int)
    ensures 0 <= h < TwoTo32
    decreases |units|
  {
    if |units| == 0 then 0
    else (31 * HashLoop(units[..|units| - 1]) + units[|units| - 1]) % TwoTo32
  }

  /** A 32-bit pattern read as a signed Java `int`. */
  function ToInt32(h: int): (r: int)
    requires 0 <= h < TwoTo32
    ensures -TwoTo31 <= r < TwoTo31
    ensures (r - h) % TwoTo32 == 0
  {
    if h < TwoTo31 then h else h - TwoTo32
  }

  /** `String.hashCode()`. */
  function HashCode(s: string): (r: int)
    ensures -TwoTo31 <= r < TwoTo31
    ensures (r - Poly(Utf16(s))) % TwoTo32 == 0
  {
    var units := Utf16(s);
    HashLoopIsPoly(units);
    ToInt32(HashLoop(units))
  }

  /** Appending one unit to the polynomial multiplies it by 31 and adds the unit. */
  lemma {:induction false} PolySnoc(units: seq<int>, u: int)
    ensures Poly(units + [u]) == 31 * Poly(units) + u
    decreases |units|
  {
    if |units| == 0 {
      assert Poly([u]) == u * Pow31(0) + Poly([]);
    } else {
      assert (units + [u])[1..] == units[1..] + [u];
      PolySnoc(units[1..], u);
      assert Poly(units + [u]) == units[0] * Pow31(|units|) + Poly(units[1..] + [u]);
      assert Pow31(|units|) == 31 * Pow31(|units| - 1);
      calc {
        units[0] * Pow31(|units|) + Poly(units[1..] + [u]);
        units[0] * (31 * Pow31(|units| - 1)) + 31 * Poly(units[1..]) + u;
        { MulAssoc(units[0], 31, Pow31(|units| - 1)); }
        31 * (units[0] * Pow31(|units| - 1) + Poly(units[1..])) + u;
      }
    }
  }

  lemma MulAssoc(a: int, b: int, c: int)
    ensures a * (b * c) == b * (a * c)
  {
  }

  /** `(31 * (a mod 2^32) + u) mod 2^32 == (31 * a + u) mod 2^32`. */
  lemma ModStep(a: int, u: int)
    ensures (31 * (a % TwoTo32) + u) % TwoTo32 == (31 * a + u) % TwoTo32
  {
    var q := a / TwoTo32;
    assert a == q * TwoTo32 + a % TwoTo32;
    assert 31 * a + u == (31 * q) * TwoTo32 + (31 * (a % TwoTo32) + u);
  }

  /** The 32-bit loop computes the polynomial modulo 2^32. */
  lemma {:induction false} HashLoopIsPoly(units: seq<int>)
    ensures HashLoop(units) == Poly(units) % TwoTo32
    decreases |units|
  {
    if |units| > 0 {
      var init := units[..|units| - 1];
      var last := units[|units| - 1];
      HashLoopIsPoly(init);
      assert init + [last] == units;
      PolySnoc(init, last);
      ModStep(Poly(init), last);
    }
  }

  /** Two known values of the hash. */
  lemma HashExamples()
    ensures HashCode("") == 0
    ensures HashCode("ab") == 97 * 31 + 98
  {
    assert Utf16("ab") == [97, 98] by {
      assert "ab"[1..] == "b";
      assert Utf16("b") == [98] + Utf16("");
    }
    assert [97, 98][..1] == [97];
    assert HashLoop([97]) == 97 by { assert [97][..0] == []; }
  }

  // ----- onMessageReceived -----

  /** A received message: whether it carries a notification block, and its data map. */
  datatype Payload = Payload(hasNotification: bool, data: map<string, string>)

  /** The notification shown: its id, the request code of its tap intent, the
      texts, and the extras the tap passes on to the app. */
  datatype Notification = Notification(id: int, requestCode: int, title: string, body: string,
                                       partnerUid: Option<string>, partnerName: Option<string>,
                                       partnerPhone: Option<string>)

  /** `partnerUid?.hashCode() ?: 0`. */
  function NotificationId(partnerUid: Option<string>): (r: int)
    ensures partnerUid.None? ==> r == 0
    ensures partnerUid.Some? ==> r == HashCode(partnerUid.value)
  {
    match partnerUid
    case None => 0
    case Some(uid) => HashCode(uid)
  }

  /** A payload with a notification block is dropped (the system shows that one);
      a data-only payload is shown from its data fields. */
  function OnMessageReceived(p: Payload): (r: Option<Notification>)
    ensures r.None? <==> p.hasNotification
    ensures r.Some? ==>
      && r.value.title == (if "title" in p.data then p.data["title"] else DefaultTitle)
      && r.value.body == (if "body" in p.data then p.data["body"] else "")
      && r.value.partnerUid == Lookup(p.data, "partnerUid")
      && r.value.partnerName == Lookup(p.data, "partnerName")
      && r.value.partnerPhone == Lookup(p.data, "partnerPhone")
      && r.value.id == r.value.requestCode == NotificationId(Lookup(p.data, "partnerUid"))
  {
    if p.hasNotification then None
    else
      var uid := Lookup(p.data, "partnerUid");
      var id := NotificationId(uid);
      Some(Notification(id, id, Lookup(p.data, "title").GetOr(DefaultTitle), Lookup(p.data, "body").GetOr(""),
                        uid, Lookup(p.data, "partnerName"), Lookup(p.data, "partnerPhone")))
  }

  /** Messages from the same partner get the same notification id, so a newer
      one replaces the older one; without a partner the id is 0. */
  lemma SamePartnerSameNotification(p: Payload, q: Payload)
    requires !p.hasNotification && !q.hasNotification
    requires Lookup(p.data, "partnerUid") == Lookup(q.data, "partnerUid")
    ensures OnMessageReceived(p).value.id == OnMessageReceived(q).value.id
  {
  }

  // ----- onNewToken -----

  /** The token is written to the signed-in user's document as `fcmToken`; an
      empty uid writes nothing, and an update of a missing document fails
      (the failure is not observed). */
  function OnNewToken(remote: Store, me: Option<string>, token: string): (r: Store)
    ensures r == remote.(fcmTokens := r.fcmTokens)
    ensures me.Some? && |me.value| > 0 && me.value in remote.users ==>
      r.fcmTokens == remote.fcmTokens[me.value := token]
    ensures !(me.Some? && |me.value| > 0 && me.value in remote.users) ==> r == remote
  {
    if me.Some? && IsNotEmpty(me.value) && me.value in remote.users then
      remote.(fcmTokens := remote.fcmTokens[me.value := token])
    else remote
  }

  /** Each refresh replaces the saved token: after two refreshes the store is
      as if only the later one had happened, and the user's token is it. */
  lemma LatestTokenWins(remote: Store, me: Option<string>, t1: string, t2: string)
    ensures OnNewToken(OnNewToken(remote, me, t1), me, t2) == OnNewToken(remote, me, t2)
    ensures me.Some? && |me.value| > 0 && me.value in remote.users ==>
      me.value in OnNewToken(remote, me, t2).fcmTokens && OnNewToken(remote, me, t2).fcmTokens[me.value] == t2
  {
  }
}

=== FILE: model.dfy ===
/** The app's records: the Firestore data classes (package `data`) and the Room
    entities (package `data.local.entities`). Kotlin nullable fields are `Option`s. */
module Model {
  import opened Wrappers

  /** A Firestore Timestamp: seconds since the epoch and a sub-second part. */
  datatype Timestamp = Timestamp(seconds: int, nanoseconds: int)

  /** A timestamp with its sub-second part dropped, as `Timestamp(seconds, 0)` rebuilds it. */
  function WholeSeconds(t: Timestamp): Timestamp {
    Timestamp(t.seconds, 0)
  }

  // ----- Firestore documents -----

  /** users/{uid}. The default status of a fresh profile is "Disponível". */
  datatype User = User(
    name: Option<string>,
    uid: Option<string>,
    phoneNumber: Option<string>,
    email: Option<string>,
    profilePictureUrl: Option<string>,
    status: Option<string>)

  /** users/{owner}/contacts/{uid}: the owner's alias for another user. */
  datatype Contact = Contact(
    uid: string,
    customName: string,
    phoneNumber: string,
    profilePictureUrl: Option<string>)

  /** users/{owner}/conversations/{partnerId}: one row of the owner's chat list.
      `unreadCount` and `isGroup` are the fields every writer and mapper uses. */
  datatype Conversation = Conversation(
    partnerId: string,
    partnerName: string,
    partnerProfilePictureUrl: Option<string>,
    lastMessage: string,
    timestamp: Timestamp,
    partnerPhoneNumber: string,
    unreadCount: int,
    isGroup: bool)

  /** A Conversation built with only the named arguments the callers pass:
      `partnerPhoneNumber` "", `unreadCount` 0 and `isGroup` false by default. */
  function NewConversation(partnerId: string, partnerName: string, picture: Option<string>,
                           lastMessage: string, timestamp: Timestamp): (c: Conversation)
    ensures c.partnerPhoneNumber == "" && c.unreadCount == 0 && !c.isGroup
  {
    Conversation(partnerId, partnerName, picture, lastMessage, timestamp, "", 0, false)
  }

  /** groups/{id}. `id` is the document id (`@DocumentId`). */
  datatype Group = Group(
    id: string,
    name: string,
    memberIds: seq<string>,
    adminIds: seq<string>,
    groupPictureUrl: Option<string>,
    lastMessage: string,
    timestamp: Option<Timestamp>)

  /** chats/{room}/messages/{id}. `id` is the document id; `status` is
      "SENT", "DELIVERED" or "READ" ("SENT" by default). */
  datatype Message = Message(
    id: string,
    message: Option<string>,
    senderId: Option<string>,
    timestamp: Option<Timestamp>,
    status: string,
    mediaUrl: Option<string>,
    imageUrl: Option<string>,
    videoUrl: Option<string>)

  const SENT: string := "SENT"
  const DELIVERED: string := "DELIVERED"
  const READ: string := "READ"

  // ----- Room entities (keyed by their @PrimaryKey) -----

  /** Room table `conversations`, key `partnerId`; the timestamp is in seconds. */
  datatype ConversationEntity = ConversationEntity(
    partnerId: string,
    partnerName: string,
    partnerProfilePictureUrl: Option<string>,
    lastMessage: Option<string>,
    timestamp: Option<int>,
    partnerPhoneNumber: string,
    unreadCount: int,
    isGroup: bool)

  /** Room table `messages`, key `id`; `chatId` names the room. */
  datatype MessageEntity = MessageEntity(
    id: string,
    chatId: string,
    message: Option<string>,
    senderId: Option<string>,
    timestamp: Option<int>,
    imageUrl: Option<string>,
    videoUrl: Option<string>)

  /** Room table `contacts`, key `uid`. */
  datatype ContactEntity = ContactEntity(
    uid: string,
    customName: string,
    phoneNumber: string,
    profilePictureUrl: Option<string>)

  /** Room table `groups`, key `id`. */
  datatype GroupEntity = GroupEntity(
    id: string,
    name: string,
    memberIds: seq<string>,
    adminIds: seq<string>,
    groupPictureUrl: Option<string>,
    lastMessage: string,
    timestamp: Option<int>)

  /** Room table `users`, key `uid`. */
  datatype UserEntity = UserEntity(
    uid: string,
    name: Option<string>,
    phoneNumber: Option<string>,
    email: Option<string>,
    profilePictureUrl: Option<string>,
    status: Option<string>)
}

=== FILE: otp_screen.dfy ===
/** The one-time-code screen: six one-digit cells, the verify button and its
    outcome, and the resend countdown. */
module OtpScreen {
  import opened Wrappers
  import opened Text

  const Cells: nat := 6
  const ResendSeconds: int := 30
  const WrongLength: string := "Digite os 6 dígitos."
  const InvalidCode: string := "Código inválido. Tente novamente."

  datatype Otp = Otp(cells: seq<string>, isLoading: bool, error: Option<string>, timer: int)

  /** Six cells of at most one digit each, and a timer within 0..30. */
  predicate WellFormed(o: Otp) {
    && |o.cells| == Cells
    && (forall i :: 0 <= i < |o.cells| ==> |o.cells[i]| <= 1 && AllDigits(o.cells[i]))
    && 0 <= o.timer <= ResendSeconds
  }

  /** Six empty cells, no error, and the resend timer at 30. */
  function Opened(): (o: Otp)
    ensures WellFormed(o)
    ensures forall i :: 0 <= i < |o.cells| ==> o.cells[i] == ""
    ensures o.timer == ResendSeconds && !o.isLoading && o.error.None?
  {
    Otp(seq(Cells, _ => ""), false, None, ResendSeconds)
  }

  // ----- typing -----

  /** What the field at `index` receives: accepted only when it is at most one
      character and all digits; an empty input clears the cell, a digit sets it. */
  function OnInput(o: Otp, index: nat, input: string): (r: Otp)
    requires index < |o.cells|
    ensures |input| <= 1 && AllDigits(input) ==>
      && |r.cells| == |o.cells| && r.cells[index] == input
      && (forall i :: 0 <= i < |o.cells| && i != index ==> r.cells[i] == o.cells[i])
      && r == o.(cells := r.cells)
    ensures !(|input| <= 1 && AllDigits(input)) ==> r == o
    ensures WellFormed(o) ==> WellFormed(r)
  {
    if |input| <= 1 && AllDigits(input) then o.(cells := o.cells[index := input]) else o
  }

  // ----- verifying -----

  /** `joinToString("")` of the cells. */
  function Join(cells: seq<string>): (code: string)
    ensures (forall i :: 0 <= i < |cells| ==> |cells[i]| <= 1) ==> |code| <= |cells|
    ensures (forall i :: 0 <= i < |cells| ==> |cells[i]| == 1) ==> |code| == |cells|
    ensures (forall i :: 0 <= i < |cells| ==> AllDigits(cells[i])) ==> AllDigits(code)
    decreases |cells|
  {
    if |cells| == 0 then "" else cells[0] + Join(cells[1..])
  }

  /** Enabled when every cell holds a character and no sign-in is running. */
  predicate VerifyEnabled(o: Otp) {
    (forall i :: 0 <= i < |o.cells| ==> IsNotEmpty(o.cells[i])) && !o.isLoading
  }

  /** A click on verify: the screen afterwards, and the code sent for sign-in, if any. */
  datatype Submitted = Submitted(otp: Otp, code: Option<string>)

  /** The button clears the error and starts loading; a code of six characters
      is sent, any other length sets the length message and stops loading. */
  function OnVerify(o: Otp): (r: Submitted)
    ensures r.code.Some? ==> |r.code.value| == 6 && r.otp == o.(isLoading := true, error := None)
    ensures r.code.None? ==> r.otp == o.(isLoading := false, error := Some(WrongLength))
    ensures r.code.Some? <==> |Join(o.cells)| == 6
  {
    var code := Join(o.cells);
    if |code| == 6 then Submitted(o.(isLoading := true, error := None), Some(code))
    else Submitted(o.(isLoading := false, error := Some(WrongLength)), None)
  }

  /** An enabled button on a well-formed screen always sends a six-digit code. */
  lemma EnabledSendsSixDigits(o: Otp)
    requires WellFormed(o) && VerifyEnabled(o)
    ensures OnVerify(o).code.Some?
    ensures |OnVerify(o).code.value| == 6 && AllDigits(OnVerify(o).code.value)
  {
    assert forall i :: 0 <= i < |o.cells| ==> |o.cells[i]| == 1;
  }

  /** Where a finished sign-in leads. */
  datatype Destination = CreateProfile | Home | Stay

  /** The sign-in result: success with the provider's new-user flag (`None`
      when the provider did not say), or failure. */
  datatype SignIn = SignedIn(isNewUser: Option<bool>) | Rejected

  function OnSignIn(o: Otp, result: SignIn): (r: (Otp, Destination))
    ensures !r.0.isLoading
    ensures result == SignedIn(Some(true)) <==> r.1 == CreateProfile
    ensures result.SignedIn? && result.isNewUser != Some(true) <==> r.1 == Home
    ensures result.Rejected? <==> r.1 == Stay
    ensures result.Rejected? ==> r.0 == o.(isLoading := false, error := Some(InvalidCode))
    ensures result.SignedIn? ==> r.0 == o.(isLoading := false)
  {
    match result
    case Rejected => (o.(isLoading := false, error := Some(InvalidCode)), Stay)
    case SignedIn(isNewUser) =>
      (o.(isLoading := false), if isNewUser.GetOr(false) then CreateProfile else Home)
  }

  // ----- resend countdown -----

  /** One second of the countdown: it only runs while positive. */
  function Tick(o: Otp): (r: Otp)
    ensures o.timer > 0 ==> r == o.(timer := o.timer - 1)
    ensures o.timer <= 0 ==> r == o
  {
    if o.timer > 0 then o.(timer := o.timer - 1) else o
  }

  function Ticks(o: Otp, n: nat): (r: Otp)
    ensures r == o.(timer := r.timer)
    decreases n
  {
    if n == 0 then o else Ticks(Tick(o), n - 1)
  }

  /** After `n` seconds the timer reads `max(0, timer - n)`: it never goes below zero. */
  lemma {:induction false} TicksCountDown(o: Otp, n: nat)
    requires o.timer >= 0
    ensures Ticks(o, n).timer == if o.timer >= n then o.timer - n else 0
    decreases n
  {
    if n > 0 {
      TicksCountDown(Tick(o), n - 1);
    }
  }

  predicate ResendEnabled(o: Otp) {
    o.timer == 0
  }

  /** A resend click restarts the countdown; the disabled button does nothing. */
  function OnResend(o: Otp): (r: Otp)
    ensures ResendEnabled(o) ==> r == o.(timer := ResendSeconds)
    ensures !ResendEnabled(o) ==> r == o
  {
    if ResendEnabled(o) then o.(timer := ResendSeconds) else o
  }

  /** Thirty seconds after opening (or after a resend) the resend button is enabled. */
  lemma ResendAfterThirtySeconds(o: Otp)
    requires o.timer == ResendSeconds
    ensures ResendEnabled(Ticks(o, 30))
    ensures !ResendEnabled(Ticks(o, 29))
  {
    TicksCountDown(o, 30);
    TicksCountDown(o, 29);
  }
}

=== FILE: phone_auth.dfy ===
/** The phone-verification view model: the UI state it publishes and how the
    verification callbacks move it. */
module PhoneAuth {
  import opened Wrappers

  datatype UiState = Idle | Loading | Error(message: string) | CodeSent(verificationId: string, phoneNumber: string)

  const UnknownError: string := "Ocorreu um erro desconhecido."

  /** What can happen to the view model. Each callback carries the phone number
      of the verification it belongs to (the callbacks are created per call). */
  datatype Event =
    | Started(phone: string)
    | VerificationCompleted(phone: string)
    | VerificationFailed(phone: string, message: Option<string>)
    | CodeSentTo(phone: string, verificationId: string)
    | ResetRequested

  /** The published state and the numbers a verification was started for. */
  datatype Vm = Vm(ui: UiState, started: set<string>)

  const Initial: Vm := Vm(Idle, {})

  /** One event. A callback of a verification that was never started cannot
      occur, and is ignored here. */
  function Step(vm: Vm, e: Event): (r: Vm)
    ensures e.Started? ==> r == Vm(Loading, vm.started + {e.phone})
    ensures e.ResetRequested? ==> r == vm.(ui := Idle)
    ensures !e.Started? ==> r.started == vm.started
    ensures e.VerificationCompleted? && e.phone in vm.started ==> r.ui == Idle
    ensures e.VerificationFailed? && e.phone in vm.started ==>
      r.ui == Error(if e.message.Some? then e.message.value else UnknownError)
    ensures e.CodeSentTo? && e.phone in vm.started ==> r.ui == CodeSent(e.verificationId, e.phone)
    ensures !e.Started? && !e.ResetRequested? && e.phone !in vm.started ==> r == vm
  {
    match e
    case Started(phone) => Vm(Loading, vm.started + {phone})
    case ResetRequested => vm.(ui := Idle)
    case VerificationCompleted(phone) => if phone in vm.started then vm.(ui := Idle) else vm
    case VerificationFailed(phone, message) =>
      if phone in vm.started then vm.(ui := Error(message.GetOr(UnknownError))) else vm
    case CodeSentTo(phone, verificationId) =>
      if phone in vm.started then vm.(ui := CodeSent(verificationId, phone)) else vm
  }

  /** A sequence of events, from the first. */
  function Run(vm: Vm, events: seq<Event>): (r: Vm)
    ensures vm.started <= r.started
    decreases |events|
  {
    if |events| == 0 then vm else Run(Step(vm, events[0]), events[1..])
  }

  /** The state never names a number no verification was started for. */
  predicate Consistent(vm: Vm) {
    vm.ui.CodeSent? ==> vm.ui.phoneNumber in vm.started
  }

  /** Every run from a consistent state stays consistent; in particular a
      CodeSent state always carries a number passed to a start call. */
  lemma {:induction false} RunConsistent(vm: Vm, events: seq<Event>)
    requires Consistent(vm)
    ensures Consistent(Run(vm, events))
    decreases |events|
  {
    if |events| > 0 {
      RunConsistent(Step(vm, events[0]), events[1..]);
    }
  }

  /** The usual path: start, then the code arrives. */
  lemma StartThenCodeSent(vm: Vm, phone: string, verificationId: string)
    ensures Run(vm, [Started(phone), CodeSentTo(phone, verificationId)]).ui == CodeSent(verificationId, phone)
    ensures Run(vm, [Started(phone), VerificationFailed(phone, None)]).ui == Error(UnknownError)
  {
    var s1 := Step(vm, Started(phone));
    var sent := [Started(phone), CodeSentTo(phone, verificationId)];
    assert sent[1..] == [CodeSentTo(phone, verificationId)];
    assert Run(vm, sent) == Run(s1, sent[1..]) == Step(s1, CodeSentTo(phone, verificationId));
    var failed := [Started(phone), VerificationFailed(phone, None)];
    assert failed[1..] == [VerificationFailed(phone, None)];
    assert Run(vm, failed) == Run(s1, failed[1..]) == Step(s1, VerificationFailed(phone, None));
  }
}

=== FILE: phone_number_screen.dfy ===
/** The phone-number entry screen: the country picker, the number passed to
    verification, and the reaction to the view model's state. */
module PhoneNumberScreen {
  import opened Wrappers
  import opened PhoneAuth

  /** The pickable countries and their dialling codes, in menu order. */
  const Countries: seq<(string, string)> := [("Brasil", "+55"), ("Portugal", "+351"), ("EUA", "+1"), ("Espanha", "+34")]

  const InvalidNumberToast: string := "Por favor, insira um número válido."

  datatype Entry = Entry(country: string, code: string, number: string)

  /** The screen opens on the first country. */
  function Opened(): (e: Entry)
    ensures e.country == "Brasil" && e.code == "+55" && e.number == ""
    ensures (e.country, e.code) == Countries[0]
  {
    Entry(Countries[0].0, Countries[0].1, "")
  }

  /** Picking the i-th menu item sets the name and code of the same pair. */
  function PickCountry(e: Entry, i: nat): (r: Entry)
    requires i < |Countries|
    ensures (r.country, r.code) in Countries
    ensures (r.country, r.code) == Countries[i] && r.number == e.number
  {
    e.(country := Countries[i].0, code := Countries[i].1)
  }

  /** Every reachable entry has a country name and code from the same menu pair. */
  lemma PickedPairsMatch(i: nat, j: nat)
    requires i < |Countries| && j < |Countries|
    ensures PickCountry(PickCountry(Opened(), i), j).code == Countries[j].1
    ensures Countries[i].0 != Countries[j].0 ==> Countries[i].1 != Countries[j].1
  {
  }

  /** The submit button is disabled while a verification is loading. */
  predicate SubmitEnabled(ui: UiState) {
    !ui.Loading?
  }

  /** What a click on the submit button does: nothing while it is disabled,
      a verification of the full number, or the invalid-number toast. */
  datatype Submitted = Ignored | Verify(number: string) | Toast(message: string)

  /** A click: the number passed on is the dialling code followed by the typed
      number, and only when that is longer than five characters; a shorter one
      shows the invalid-number toast. */
  function OnSubmit(e: Entry, ui: UiState): (r: Submitted)
    ensures !SubmitEnabled(ui) ==> r == Ignored
    ensures r.Verify? <==> SubmitEnabled(ui) && |e.code + e.number| > 5
    ensures r.Verify? ==> r.number == e.code + e.number && r.number[..|e.code|] == e.code
    ensures SubmitEnabled(ui) && |e.code + e.number| <= 5 ==> r == Toast(InvalidNumberToast)
  {
    var full := e.code + e.number;
    if !SubmitEnabled(ui) then Ignored
    else if |full| > 5 then Verify(full)
    else Toast(InvalidNumberToast)
  }

  /** With the opening country a number needs at least three typed characters. */
  lemma BrazilNeedsThreeDigits(number: string)
    ensures OnSubmit(Opened().(number := number), Idle).Verify? <==> |number| >= 3
    ensures |number| < 3 ==> OnSubmit(Opened().(number := number), Idle) == Toast(InvalidNumberToast)
  {
  }

  /** The screen's reaction to a state: an Error is shown once and the view
      model is reset to Idle; the message shown, if any, is returned. */
  function OnUiState(vm: Vm): (r: (Vm, Option<string>))
    ensures vm.ui.Error? ==> r.0 == vm.(ui := Idle) && r.1 == Some(vm.ui.message)
    ensures !vm.ui.Error? ==> r == (vm, None)
  {
    if vm.ui.Error? then (Step(vm, ResetRequested), Some(vm.ui.message)) else (vm, None)
  }

  /** A submitted number starts a verification for exactly that number, and the
      button is then disabled until a callback or a reset arrives. */
  lemma SubmitStartsLoading(e: Entry, vm: Vm)
    requires OnSubmit(e, vm.ui).Verify?
    ensures var next := Step(vm, Started(e.code + e.number));
      !SubmitEnabled(next.ui) && e.code + e.number in next.started
  {
  }
}

=== FILE: presence.dfy ===
/** The presence manager: the user's status node in the realtime database,
    the disconnect hook the server runs when the app drops, and the explicit
    online / offline writes. */
module Presence {
  import opened Wrappers

  /** `bound`: the uid whose status node the manager refers to, once
      initialized; `hook`: the node whose disconnect hook is armed;
      `online`: the isOnline flag of each status node. The lastSeen server
      timestamp is not modelled. */
  datatype Presence = Presence(bound: Option<string>, hook: Option<string>, online: map<string, bool>)

  const Fresh: Presence := Presence(None, None, map[])

  /** `initialize`: binds the signed-in user's node and arms its hook, only the
      first time and only when someone is signed in. */
  function Initialize(p: Presence, me: Option<string>): (r: Presence)
    ensures me.Some? && p.bound.None? ==> r == p.(bound := me, hook := me)
    ensures me.None? || p.bound.Some? ==> r == p
  {
    if me.Some? && p.bound.None? then p.(bound := me, hook := me) else p
  }

  /** A second initialize, even for another user, changes nothing. */
  lemma InitializeOnce(p: Presence, me: Option<string>, later: Option<string>)
    requires me.Some?
    ensures Initialize(Initialize(p, me), later) == Initialize(p, me)
  {
  }

  /** `goOnline` / `goOffline`: replace the bound node's value; nothing happens
      when nobody is signed in or before initialize. */
  function Write(p: Presence, me: Option<string>, isOnline: bool): (r: Presence)
    ensures me.Some? && p.bound.Some? ==> r == p.(online := p.online[p.bound.value := isOnline])
    ensures me.None? || p.bound.None? ==> r == p
  {
    if me.Some? && p.bound.Some? then p.(online := p.online[p.bound.value := isOnline]) else p
  }

  /** The server runs the armed hook when the connection drops: the node goes
      offline and the hook is spent, since an `onDisconnect` operation runs once. */
  function Disconnect(p: Presence): (r: Presence)
    ensures p.hook.Some? ==> r == p.(online := p.online[p.hook.value := false], hook := None)
    ensures p.hook.None? ==> r == p
    ensures r.hook.None?
  {
    if p.hook.Some? then p.(online := p.online[p.hook.value := false], hook := None) else p
  }

  datatype Event = GoOnline | GoOffline | Dropped

  function Apply(p: Presence, me: Option<string>, e: Event): (r: Presence)
    ensures r.bound == p.bound
    ensures e != Dropped ==> r.hook == p.hook
    ensures e == Dropped ==> r.hook.None?
  {
    match e
    case GoOnline => Write(p, me, true)
    case GoOffline => Write(p, me, false)
    case Dropped => Disconnect(p)
  }

  function Run(p: Presence, me: Option<string>, events: seq<Event>): (r: Presence)
    ensures r.bound == p.bound
    ensures Dropped !in events ==> r.hook == p.hook
    decreases |events|
  {
    if |events| == 0 then p else Run(Apply(p, me, events[0]), me, events[1..])
  }

  /** While the hook is still armed, that is up to the first drop, each event
      replaces the whole node, so the observed state is that of the last event. */
  lemma {:induction false} LastEventWins(p: Presence, me: string, events: seq<Event>)
    requires p.bound == Some(me) && p.hook == Some(me)
    requires |events| > 0
    requires Dropped !in events[..|events| - 1]
    ensures me in Run(p, Some(me), events).online
    ensures Run(p, Some(me), events).online[me] <==> events[|events| - 1] == GoOnline
    decreases |events|
  {
    if |events| > 1 {
      assert events[0] in events[..|events| - 1];
      assert events[1..][..|events| - 2] == events[..|events| - 1][1..];
      LastEventWins(Apply(p, Some(me), events[0]), me, events[1..]);
    } else {
      assert Run(p, Some(me), events) == Run(Apply(p, Some(me), events[0]), Some(me), events[1..]);
    }
  }

  /** Once the hook is spent, a drop leaves the node as it is. */
  lemma SpentHookIgnoresDrops(p: Presence, me: Option<string>)
    requires p.hook.None?
    ensures Apply(p, me, Dropped) == p
  {
  }

  /** Nothing re-arms the hook: after the app comes back and goes online, a
      second drop leaves the user shown online. */
  lemma StaleOnlineAfterSecondDrop(me: string)
    ensures var p := Run(Initialize(Fresh, Some(me)), Some(me), [GoOnline, Dropped, GoOnline, Dropped]);
      me in p.online && p.online[me] && p.hook.None?
  {
  }

  // ----- re-arming the hook on every goOnline -----

  /** `goOnline` that also re-arms the bound node's disconnect hook, as the
      realtime database's presence recipe does on every reconnect. */
  function ApplyRearmed(p: Presence, me: Option<string>, e: Event): (r: Presence)
    ensures r.bound == p.bound
    ensures e == GoOnline && me.Some? && p.bound.Some? ==> r.hook == p.bound
    ensures e != Dropped ==> r.online == Apply(p, me, e).online
  {
    match e
    case GoOnline => if me.Some? && p.bound.Some? then Write(p, me, true).(hook := p.bound) else p
    case GoOffline => Write(p, me, false)
    case Dropped => Disconnect(p)
  }

  function RunRearmed(p: Presence, me: Option<string>, events: seq<Event>): (r: Presence)
    ensures r.bound == p.bound
    decreases |events|
  {
    if |events| == 0 then p else RunRearmed(ApplyRearmed(p, me, events[0]), me, events[1..])
  }

  /** The node shows online only while its hook is armed. */
  predicate OnlineIsArmed(p: Presence, me: string) {
    && p.bound == Some(me)
    && (p.hook.Some? ==> p.hook == Some(me))
    && (me in p.online && p.online[me] ==> p.hook == Some(me))
  }

  /** With re-arming, every drop shows the user offline: whatever the run, the
      node is online exactly when the last event was a goOnline. */
  lemma {:induction false} RearmedLastEventWins(p: Presence, me: string, events: seq<Event>)
    requires OnlineIsArmed(p, me)
    requires |events| > 0
    ensures var r := RunRearmed(p, Some(me), events);
      OnlineIsArmed(r, me)
      && ((me in r.online && r.online[me]) <==> events[|events| - 1] == GoOnline)
    decreases |events|
  {
    var next := ApplyRearmed(p, Some(me), events[0]);
    assert OnlineIsArmed(next, me);
    if |events| > 1 {
      RearmedLastEventWins(next, me, events[1..]);
    } else {
      assert RunRearmed(p, Some(me), events) == RunRearmed(next, Some(me), events[1..]);
    }
  }

  /** Before initialize every event is a no-op. */
  lemma {:induction false} UninitializedIgnoresEvents(me: Option<string>, events: seq<Event>)
    ensures Run(Fresh, me, events) == Fresh
    decreases |events|
  {
    if |events| > 0 {
      UninitializedIgnoresEvents(me, events[1..]);
    }
  }
}

=== FILE: remote_store.dfy ===
/** The Firestore database as the app uses it: one map per collection, with
    sub-collection documents addressed by their parent document's id and their own id.
      users/{uid}                         -> users, fcmTokens
      users/{owner}/contacts/{uid}        -> contacts
      users/{owner}/conversations/{id}    -> conversations
      users/{owner}/blockedUsers/{uid}    -> blocked
      groups/{id}                         -> groups
      chats/{room}/messages/{id}          -> messages
    Every call is one atomic step; a batch or a transaction either applies all
    its writes or none. */
module RemoteStore {
  import opened Wrappers
  import opened Model

  /** The address of a document in a sub-collection: its parent's id and its own id. */
  datatype DocId = DocId(parent: string, id: string)

  datatype Store = Store(
    users: map<string, User>,
    fcmTokens: map<string, string>,
    contacts: map<DocId, Contact>,
    conversations: map<DocId, Conversation>,
    blocked: set<DocId>,
    groups: map<string, Group>,
    messages: map<DocId, Message>)

  /** The error of an `update` whose document does not exist; it fails the whole batch. */
  const NotFound: string := "NOT_FOUND: No document to update"

  /** The outcome of a repository call: its result and both stores afterwards.
      Local (Room) writes made before a failing remote step are kept. */
  datatype Outcome<T, L> = Outcome(result: Result<T>, local: L, remote: Store)

  /** The outcome of a call that touches only Firestore. */
  datatype Written<T> = Written(result: Result<T>, remote: Store)

  /** `set(c)` on users/{m}/conversations/{id} for every `m` in `owners`. */
  function SetForOwners(convs: map<DocId, Conversation>, owners: seq<string>, id: string, c: Conversation)
    : (r: map<DocId, Conversation>)
    ensures forall m :: m in owners ==> DocId(m, id) in r && r[DocId(m, id)] == c
    ensures forall p: DocId :: p.id != id || p.parent !in owners ==>
      (p in r <==> p in convs) && (p in convs ==> r[p] == convs[p])
  {
    var added := set m | m in owners :: DocId(m, id);
    map p | p in convs.Keys + added :: if p in added then c else convs[p]
  }

  /** Applies `f` to every conversation document satisfying `sel`; the other
      documents, and the set of documents, are unchanged. */
  function UpdateWhere(convs: map<DocId, Conversation>, sel: (DocId, Conversation) -> bool,
                       f: Conversation -> Conversation): (r: map<DocId, Conversation>)
    ensures r.Keys == convs.Keys
    ensures forall p :: p in convs && sel(p, convs[p]) ==> r[p] == f(convs[p])
    ensures forall p :: p in convs && !sel(p, convs[p]) ==> r[p] == convs[p]
  {
    map p | p in convs :: if sel(p, convs[p]) then f(convs[p]) else convs[p]
  }

  /** `whereEqualTo("phoneNumber", phone).limit(1)`: some user document whose
      phoneNumber field is `phone`, or none when no document has it. */
  method FindUserByPhone(store: Store, phone: string) returns (hit: Option<User>)
    ensures hit.Some? ==> hit.value in store.users.Values && hit.value.phoneNumber == Some(phone)
    ensures hit.None? <==> forall k :: k in store.users ==> store.users[k].phoneNumber != Some(phone)
  {
    if k :| k in store.users && store.users[k].phoneNumber == Some(phone) {
      hit := Some(store.users[k]);
    } else {
      hit := None;
    }
  }
}

=== FILE: select_contact_screen.dfy ===
/** The contact picker: the listed contacts, opening a chat, and the delete dialog. */
module SelectContactScreen {
  import opened Wrappers
  import opened Model
  import opened Text
  import opened LocalStore
  import opened RemoteStore
  import UserRepository

  /** The listed contacts, whether the delete dialog is open, and the contact it is about. */
  datatype Picker = Picker(contacts: seq<Contact>, showDelete: bool, pending: Option<Contact>)

  const Opened: Picker := Picker([], false, None)

  /** The contacts listener: a failed listen or a missing snapshot empties the list. */
  function OnContactsSnapshot(p: Picker, snapshot: Option<seq<Contact>>): (r: Picker)
    ensures r == p.(contacts := r.contacts)
    ensures snapshot.None? ==> r.contacts == []
    ensures snapshot.Some? ==> r.contacts == snapshot.value
  {
    p.(contacts := snapshot.GetOr([]))
  }

  /** Where a tap on a contact leads: the chat route carries the contact's name,
      uid and phone number. */
  datatype ChatRoute = ChatRoute(partnerName: string, partnerId: string, phone: string)

  /** A tap opens the chat only when both uid and custom name are non-empty;
      otherwise the screen shows an error and stays. */
  function OpenChat(c: Contact): (r: Option<ChatRoute>)
    ensures r.Some? <==> |c.uid| > 0 && |c.customName| > 0
    ensures r.Some? ==> r.value == ChatRoute(c.customName, c.uid, c.phoneNumber)
  {
    if IsNotEmpty(c.uid) && IsNotEmpty(c.customName) then Some(ChatRoute(c.customName, c.uid, c.phoneNumber))
    else None
  }

  /** The delete icon opens the dialog for that contact. */
  function OnDeleteIcon(p: Picker, c: Contact): (r: Picker)
    ensures r == p.(showDelete := true, pending := Some(c))
    ensures r.contacts == p.contacts
  {
    p.(showDelete := true, pending := Some(c))
  }

  /** The screen and both stores after the dialog's confirm button, and whether
      deleteContact was called. */
  datatype Confirmed = Confirmed(picker: Picker, local: Db, remote: Store, called: bool)

  /** Confirming deletes the pending contact when its uid is non-empty; with an
      invalid uid nothing is deleted. Either way the dialog is closed and the
      pending contact cleared. With no pending contact the click does nothing. */
  function OnConfirmDelete(p: Picker, local: Db, remote: Store, me: Option<string>): (r: Confirmed)
    requires Valid(local)
    ensures Valid(r.local)
    ensures p.pending.None? ==> r == Confirmed(p, local, remote, false)
    ensures p.pending.Some? ==> r.picker == p.(showDelete := false, pending := None)
    ensures r.called <==> p.pending.Some? && |p.pending.value.uid| > 0
    ensures !r.called ==> r.local == local && r.remote == remote
    ensures r.called ==>
      var d := UserRepository.DeleteContact(local, remote, me, p.pending.value.uid);
      r.local == d.local && r.remote == d.remote
  {
    match p.pending
    case None => Confirmed(p, local, remote, false)
    case Some(c) =>
      var closed := p.(showDelete := false, pending := None);
      if IsNotEmpty(c.uid) then
        var d := UserRepository.DeleteContact(local, remote, me, c.uid);
        Confirmed(closed, d.local, d.remote, true)
      else Confirmed(closed, local, remote, false)
  }

  /** A confirmed delete of a valid contact by a signed-in user removes the
      contact locally and remotely, and a second confirm does nothing. */
  lemma ConfirmedDeleteRemoves(p: Picker, local: Db, remote: Store, me: string, c: Contact)
    requires Valid(local)
    requires |c.uid| > 0
    ensures var r := OnConfirmDelete(OnDeleteIcon(p, c), local, remote, Some(me));
      && c.uid !in r.local.contacts
      && DocId(me, c.uid) !in r.remote.contacts
      && !r.picker.showDelete
      && OnConfirmDelete(r.picker, r.local, r.remote, Some(me)) == Confirmed(r.picker, r.local, r.remote, false)
  {
  }
}

=== FILE: selection.dfy ===
/** The contact selection kept by the group screens: a Kotlin `Set<Contact>`
    (a LinkedHashSet, so insertion-ordered and duplicate-free), modelled as a
    duplicate-free sequence. A click toggles one contact. */
module Selection {
  import opened Seqs

  /** `if (s.contains(x)) s - x else s + x`. */
  function Toggle<T(==,!new)>(s: seq<T>, x: T): (r: seq<T>)
    ensures x in r <==> x !in s
    ensures forall y :: y != x ==> (y in r <==> y in s)
    ensures NoDup(s) ==> NoDup(r)
  {
    if x in s then Without(s, x) else s + [x]
  }

  /** Toggling the same contact twice restores the selected set; when the contact
      was not selected before, it restores the very same sequence. */
  lemma ToggleTwice<T(!new)>(s: seq<T>, x: T)
    ensures forall y :: y in Toggle(Toggle(s, x), x) <==> y in s
    ensures x !in s ==> Toggle(Toggle(s, x), x) == s
  {
    if x !in s {
      WithoutAppended(s, x);
    }
  }

  /** The create-group toggle: clicks are ignored while the group is being created. */
  function ToggleUnlessLoading<T(==,!new)>(s: seq<T>, x: T, isLoading: bool): (r: seq<T>)
    ensures isLoading ==> r == s
    ensures !isLoading ==> (x in r <==> x !in s)
    ensures forall y :: y != x ==> (y in r <==> y in s)
    ensures NoDup(s) ==> NoDup(r)
  {
    if isLoading then s else Toggle(s, x)
  }
}

=== FILE: seqs.dfy ===
/** The list and array algebra the app relies on: Kotlin's `distinct` and
    `filter`, and Firestore's `arrayUnion` / `arrayRemove` field transforms. */
module Seqs {

  /** No element occurs twice. */
  predicate NoDup<T(==,!new)>(s: seq<T>) {
    forall i, j :: 0 <= i < j < |s| ==> s[i] != s[j]
  }

  /** `a` is an order-preserving subsequence of `b`. */
  predicate Subseq<T(==,!new)>(a: seq<T>, b: seq<T>)
    decreases |b|
  {
    |a| == 0 || (|b| > 0 && ((a[0] == b[0] && Subseq(a[1..], b[1..])) || Subseq(a, b[1..])))
  }

  lemma {:induction false} SubseqRefl<T(!new)>(a: seq<T>)
    ensures Subseq(a, a)
    decreases |a|
  {
    if |a| > 0 {
      SubseqRefl(a[1..]);
    }
  }

  /** Taking a subsequence of a subsequence gives a subsequence. */
  lemma {:induction false} SubseqTrans<T(!new)>(a: seq<T>, b: seq<T>, c: seq<T>)
    requires Subseq(a, b) && Subseq(b, c)
    ensures Subseq(a, c)
    decreases |c|
  {
    if |a| == 0 {
    } else if Subseq(b, c[1..]) {
      SubseqTrans(a, b, c[1..]);
    } else {
      assert b[0] == c[0] && Subseq(b[1..], c[1..]);
      if a[0] == b[0] && Subseq(a[1..], b[1..]) {
        SubseqTrans(a[1..], b[1..], c[1..]);
      } else {
        SubseqTrans(a, b[1..], c[1..]);
      }
    }
  }

  /** Every element of a subsequence is an element of the whole. */
  lemma {:induction false} SubseqMembers<T(!new)>(a: seq<T>, b: seq<T>)
    requires Subseq(a, b)
    ensures forall x :: x in a ==> x in b
    decreases |b|
  {
    if |a| == 0 {
    } else if Subseq(a, b[1..]) {
      SubseqMembers(a, b[1..]);
    } else {
      SubseqMembers(a[1..], b[1..]);
      assert forall x :: x in a ==> x == a[0] || x in a[1..];
    }
  }

  /** Kotlin's `filter`: the elements satisfying `p`, in their original order. */
  function Filter<T(==,!new)>(p: T -> bool, s: seq<T>): (r: seq<T>)
    ensures forall x :: x in r <==> x in s && p(x)
    ensures forall i :: 0 <= i < |r| ==> p(r[i])
    ensures Subseq(r, s)
    ensures |r| <= |s|
    decreases |s|
  {
    if |s| == 0 then []
    else
      var rest := Filter(p, s[1..]);
      assert forall x :: x in s <==> x == s[0] || x in s[1..];
      if p(s[0]) then
        assert ([s[0]] + rest)[1..] == rest;
        [s[0]] + rest
      else rest
  }

  /** Filtering a duplicate-free list keeps it duplicate-free. */
  lemma {:induction false} FilterNoDup<T(!new)>(p: T -> bool, s: seq<T>)
    requires NoDup(s)
    ensures NoDup(Filter(p, s))
    decreases |s|
  {
    if |s| > 0 {
      assert NoDup(s[1..]);
      FilterNoDup(p, s[1..]);
      assert s[0] !in s[1..];
    }
  }

  /** The conjunction of two conditions. */
  function Both<T(!new)>(p: T -> bool, q: T -> bool): (b: T -> bool)
    ensures forall x :: b(x) <==> p(x) && q(x)
  {
    x => p(x) && q(x)
  }

  /** Two filters in a row keep what both conditions accept, in the original order. */
  lemma {:induction false} FilterFuse<T(!new)>(p: T -> bool, q: T -> bool, s: seq<T>)
    ensures Filter(q, Filter(p, s)) == Filter(Both(p, q), s)
    decreases |s|
  {
    if |s| > 0 {
      FilterFuse(p, q, s[1..]);
      if p(s[0]) {
        var rest := Filter(p, s[1..]);
        assert Filter(p, s) == [s[0]] + rest;
        assert ([s[0]] + rest)[1..] == rest;
      }
    }
  }

  /** Conditions that agree on every element of the list filter it alike. */
  lemma {:induction false} FilterExt<T(!new)>(p: T -> bool, q: T -> bool, s: seq<T>)
    requires forall x :: x in s ==> p(x) == q(x)
    ensures Filter(p, s) == Filter(q, s)
    decreases |s|
  {
    if |s| > 0 {
      assert forall x :: x in s[1..] ==> x in s;
      FilterExt(p, q, s[1..]);
    }
  }

  /** The list without any occurrence of `x`: Kotlin's `filter { it != x }`
      and Firestore's `arrayRemove(x)`, which removes every instance. */
  function Without<T(==,!new)>(s: seq<T>, x: T): (r: seq<T>)
    ensures x !in r
    ensures forall y :: y != x ==> (y in r <==> y in s)
    ensures Subseq(r, s)
    ensures x in s ==> |r| < |s|
    ensures x !in s ==> r == s
    ensures NoDup(s) ==> NoDup(r)
    decreases |s|
  {
    if |s| == 0 then []
    else
      var rest := Without(s[1..], x);
      assert forall y :: y in s <==> y == s[0] || y in s[1..];
      if s[0] == x then rest
      else
        assert ([s[0]] + rest)[1..] == rest;
        assert NoDup(s) ==> NoDup(s[1..]) && s[0] !in s[1..] && s[0] !in rest;
        [s[0]] + rest
  }

  /** Appending an element that was absent and then removing it gives back the list. */
  lemma {:induction false} WithoutAppended<T(!new)>(s: seq<T>, x: T)
    requires x !in s
    ensures Without(s + [x], x) == s
    decreases |s|
  {
    if |s| > 0 {
      assert (s + [x])[1..] == s[1..] + [x];
      WithoutAppended(s[1..], x);
      assert [s[0]] + s[1..] == s;
    }
  }

  /** Filtering with a condition every element meets returns the list unchanged. */
  lemma {:induction false} FilterAll<T(!new)>(p: T -> bool, s: seq<T>)
    requires forall i :: 0 <= i < |s| ==> p(s[i])
    ensures Filter(p, s) == s
    decreases |s|
  {
    if |s| > 0 {
      FilterAll(p, s[1..]);
      assert [s[0]] + s[1..] == s;
    }
  }

  /** Two duplicate-free lists with no common element concatenate to a duplicate-free list. */
  lemma NoDupAppend<T(!new)>(a: seq<T>, b: seq<T>)
    requires NoDup(a) && NoDup(b)
    requires forall x :: x in b ==> x !in a
    ensures NoDup(a + b)
  {
    forall i, j | 0 <= i < j < |a + b|
      ensures (a + b)[i] != (a + b)[j]
    {
      if i < |a| && j >= |a| {
        assert (a + b)[j] == b[j - |a|] && b[j - |a|] in b;
      }
    }
  }

  /** Kotlin's `distinct()`: the first occurrence of every element, in order. */
  function Distinct<T(==,!new)>(s: seq<T>): (r: seq<T>)
    ensures NoDup(r)
    ensures forall x :: x in r <==> x in s
    ensures |r| <= |s|
    decreases |s|
  {
    if |s| == 0 then []
    else
      var r := Distinct(s[..|s| - 1]);
      var x := s[|s| - 1];
      assert s == s[..|s| - 1] + [x];
      if x in r then r else r + [x]
  }

  /** A list that already has no duplicates is its own `distinct()`. */
  lemma {:induction false} DistinctOfNoDup<T(!new)>(s: seq<T>)
    requires NoDup(s)
    ensures Distinct(s) == s
    decreases |s|
  {
    if |s| > 0 {
      var init := s[..|s| - 1];
      assert NoDup(init);
      DistinctOfNoDup(init);
      assert s[|s| - 1] !in init;
      assert s == init + [s[|s| - 1]];
    }
  }

  /** Firestore's `arrayUnion(xs...)`: each element of `xs` that is not yet in
      the array is appended, in order; elements already present are left alone. */
  function ArrayUnion<T(==,!new)>(s: seq<T>, xs: seq<T>): (r: seq<T>)
    ensures forall y :: y in r <==> y in s || y in xs
    ensures |s| <= |r| && r[..|s|] == s
    ensures NoDup(s) ==> NoDup(r)
    decreases |xs|
  {
    if |xs| == 0 then s
    else
      var next := if xs[0] in s then s else s + [xs[0]];
      assert forall y :: y in xs <==> y == xs[0] || y in xs[1..];
      var r := ArrayUnion(next, xs[1..]);
      assert r[..|s|] == r[..|next|][..|s|];
      r
  }

  /** `arrayUnion` adds at most one element per argument, and strictly fewer
      than it was given when one of them was already in the array. */
  lemma {:induction false} ArrayUnionLength<T(!new)>(s: seq<T>, xs: seq<T>)
    ensures |ArrayUnion(s, xs)| <= |s| + |xs|
    ensures (exists x :: x in xs && x in s) ==> |ArrayUnion(s, xs)| < |s| + |xs|
    decreases |xs|
  {
    if |xs| > 0 {
      var next := if xs[0] in s then s else s + [xs[0]];
      ArrayUnionLength(next, xs[1..]);
      assert ArrayUnion(s, xs) == ArrayUnion(next, xs[1..]);
      if xs[0] !in s && exists x :: x in xs && x in s {
        var x :| x in xs && x in s;
        assert x in xs[1..] && x in next;
      }
    }
  }

  /** Applying `f` to every element (Kotlin's `map`). */
  function Map<T, U>(f: T -> U, s: seq<T>): (r: seq<U>)
    ensures |r| == |s|
    ensures forall i :: 0 <= i < |s| ==> r[i] == f(s[i])
  {
    seq(|s|, i requires 0 <= i < |s| => f(s[i]))
  }
}

=== FILE: sorting.dfy ===
/** The ORDER BY of the Room queries. Every sort key is mapped to a sequence
    of integers compared lexicographically, which covers the three orders the
    DAOs use: nullable timestamps (SQLite sorts NULL before every number) and
    strings (SQLite's BINARY collation compares code points). */
module Sorting {
  import opened Wrappers

  /** Lexicographic order on integer sequences; a proper prefix sorts first. */
  predicate LexLe(a: seq<int>, b: seq<int>)
    decreases |a|
  {
    |a| == 0 || (|b| > 0 && (a[0] < b[0] || (a[0] == b[0] && LexLe(a[1..], b[1..]))))
  }

  lemma {:induction false} LexLeTotal(a: seq<int>, b: seq<int>)
    ensures LexLe(a, b) || LexLe(b, a)
    decreases |a|
  {
    if |a| > 0 && |b| > 0 && a[0] == b[0] {
      LexLeTotal(a[1..], b[1..]);
    }
  }

  lemma {:induction false} LexLeTrans(a: seq<int>, b: seq<int>, c: seq<int>)
    requires LexLe(a, b) && LexLe(b, c)
    ensures LexLe(a, c)
    decreases |a|
  {
    if |a| > 0 && a[0] == b[0] && b[0] == c[0] {
      LexLeTrans(a[1..], b[1..], c[1..]);
    }
  }

  /** Sort key of a nullable number: NULL sorts before every value. */
  function NullableKey(v: Option<int>): (k: seq<int>)
    ensures v.None? ==> k == []
  {
    match v
    case None => []
    case Some(x) => [0, x]
  }

  lemma NullableKeyOrder(a: Option<int>, b: Option<int>)
    ensures a.None? ==> LexLe(NullableKey(a), NullableKey(b))
    ensures a.Some? && b.Some? ==> (LexLe(NullableKey(a), NullableKey(b)) <==> a.value <= b.value)
    ensures a.Some? && b.None? ==> !LexLe(NullableKey(a), NullableKey(b))
  {
    if a.Some? && b.Some? {
      var ka, kb := NullableKey(a), NullableKey(b);
      assert ka[1..] == [a.value] && kb[1..] == [b.value];
      assert [a.value][1..] == [] && [b.value][1..] == [];
      assert LexLe([a.value], [b.value]) <==> a.value <= b.value;
    }
  }

  /** Sort key of a string: its code points. */
  function TextKey(s: string): (k: seq<int>)
    ensures |k| == |s|
    ensures forall i :: 0 <= i < |s| ==> k[i] == s[i] as int
  {
    seq(|s|, i requires 0 <= i < |s| => s[i] as int)
  }

  /** `a` may come before `b` in an ascending (or, with `desc`, descending) sort. */
  predicate InOrder(desc: bool, a: seq<int>, b: seq<int>) {
    if desc then LexLe(b, a) else LexLe(a, b)
  }

  lemma InOrderTotal(desc: bool, a: seq<int>, b: seq<int>)
    ensures InOrder(desc, a, b) || InOrder(desc, b, a)
  {
    LexLeTotal(a, b);
  }

  lemma InOrderTrans(desc: bool, a: seq<int>, b: seq<int>, c: seq<int>)
    requires InOrder(desc, a, b) && InOrder(desc, b, c)
    ensures InOrder(desc, a, c)
  {
    if desc { LexLeTrans(c, b, a); } else { LexLeTrans(a, b, c); }
  }

  /** `s` is ordered by `key`. */
  predicate SortedBy<T>(key: T -> seq<int>, desc: bool, s: seq<T>) {
    forall i, j :: 0 <= i < j < |s| ==> InOrder(desc, key(s[i]), key(s[j]))
  }

  /** Putting in front an element that may precede every element keeps a list ordered. */
  lemma PrependSorted<T>(key: T -> seq<int>, desc: bool, x: T, s: seq<T>)
    requires SortedBy(key, desc, s)
    requires forall j :: 0 <= j < |s| ==> InOrder(desc, key(x), key(s[j]))
    ensures SortedBy(key, desc, [x] + s)
  {
    var r := [x] + s;
    assert forall j :: 1 <= j < |r| ==> r[j] == s[j - 1];
  }

  /** An element that may precede the head of an ordered list may precede all of it. */
  lemma PrecedesAll<T>(key: T -> seq<int>, desc: bool, x: T, s: seq<T>)
    requires SortedBy(key, desc, s) && |s| > 0
    requires InOrder(desc, key(x), key(s[0]))
    ensures forall j :: 0 <= j < |s| ==> InOrder(desc, key(x), key(s[j]))
  {
    forall j | 0 <= j < |s|
      ensures InOrder(desc, key(x), key(s[j]))
    {
      if j > 0 { InOrderTrans(desc, key(x), key(s[0]), key(s[j])); }
    }
  }

  /** An element that may precede every element of a list may precede every element of a permutation of it. */
  lemma PrecedesPermutation<T>(key: T -> seq<int>, desc: bool, x: T, s: seq<T>, t: seq<T>)
    requires forall j :: 0 <= j < |s| ==> InOrder(desc, key(x), key(s[j]))
    requires forall y :: y in multiset(t) ==> y in multiset(s)
    ensures forall j :: 0 <= j < |t| ==> InOrder(desc, key(x), key(t[j]))
  {
    forall j | 0 <= j < |t|
      ensures InOrder(desc, key(x), key(t[j]))
    {
      assert t[j] in multiset(t);
      var i :| 0 <= i < |s| && s[i] == t[j];
    }
  }

  /** Inserts `x` into an ordered list, after the elements that sort equal to it. */
  function Insert<T>(key: T -> seq<int>, desc: bool, x: T, s: seq<T>): (r: seq<T>)
    requires SortedBy(key, desc, s)
    ensures SortedBy(key, desc, r)
    ensures multiset(r) == multiset(s) + multiset{x}
    decreases |s|
  {
    if |s| == 0 then [x]
    else if !InOrder(desc, key(s[0]), key(x)) then
      InOrderTotal(desc, key(s[0]), key(x));
      PrecedesAll(key, desc, x, s);
      PrependSorted(key, desc, x, s);
      [x] + s
    else
      var rest := Insert(key, desc, x, s[1..]);
      assert s == [s[0]] + s[1..];
      InOrderTotal(desc, key(s[0]), key(s[0]));
      PrecedesAll(key, desc, s[0], s);
      assert forall j :: 0 <= j < |s[1..]| ==> InOrder(desc, key(s[0]), key(s[1..][j]));
      PrecedesPermutation(key, desc, s[0], s[1..] + [x], rest);
      PrependSorted(key, desc, s[0], rest);
      [s[0]] + rest
  }

  /** Insertion sort: an ordered permutation of `s`. */
  function Sort<T>(key: T -> seq<int>, desc: bool, s: seq<T>): (r: seq<T>)
    ensures SortedBy(key, desc, r)
    ensures multiset(r) == multiset(s)
    decreases |s|
  {
    if |s| == 0 then []
    else
      assert s == [s[0]] + s[1..];
      Insert(key, desc, s[0], Sort(key, desc, s[1..]))
  }
}

=== FILE: text.dfy ===
/** Character and string predicates the screens use: Kotlin's `isBlank`,
    `isDigit`, and `contains(query, ignoreCase = true)`. */
module Text {

  /** Kotlin/JVM `Char.isWhitespace()`: the ASCII controls TAB..CR and FS..US,
      the space separators (category Zs), and the line and paragraph separators. */
  predicate IsWhitespace(c: char) {
    || ('\U{0009}' <= c <= '\U{000D}')
    || ('\U{001C}' <= c <= '\U{001F}')
    || c == ' ' || c == '\U{00A0}' || c == '\U{1680}'
    || ('\U{2000}' <= c <= '\U{200A}')
    || c == '\U{2028}' || c == '\U{2029}' || c == '\U{202F}' || c == '\U{205F}' || c == '\U{3000}'
  }

  /** Kotlin `isBlank()`: empty, or whitespace only. */
  predicate IsBlank(s: string) {
    forall i :: 0 <= i < |s| ==> IsWhitespace(s[i])
  }

  /** Kotlin `isNotEmpty()` on a string. */
  predicate IsNotEmpty(s: string) {
    |s| > 0
  }

  /** A decimal digit (ASCII). */
  predicate IsDigit(c: char) {
    '0' <= c <= '9'
  }

  predicate AllDigits(s: string) {
    forall i :: 0 <= i < |s| ==> IsDigit(s[i])
  }

  /** Lower-case folding of the ASCII letters. */
  function Lower(c: char): (r: char)
    ensures 'A' <= c <= 'Z' ==> r as int == c as int + 32
    ensures !('A' <= c <= 'Z') ==> r == c
  {
    if 'A' <= c <= 'Z' then (c as int + 32) as char else c
  }

  /** Two characters are equal when case is ignored. */
  predicate SameIgnoringCase(a: char, b: char) {
    Lower(a) == Lower(b)
  }

  /** `q` occurs in `s` at offset `i`, ignoring case. */
  predicate MatchesAt(s: string, q: string, i: nat)
    requires i + |q| <= |s|
  {
    forall j :: 0 <= j < |q| ==> SameIgnoringCase(s[i + j], q[j])
  }

  /** Kotlin `s.contains(q, ignoreCase = true)`. */
  predicate ContainsIgnoringCase(s: string, q: string) {
    exists i: nat :: i + |q| <= |s| && MatchesAt(s, q, i)
  }

  /** Every string contains itself, whatever its case. */
  lemma ContainsSelf(s: string)
    ensures ContainsIgnoringCase(s, s)
  {
    assert MatchesAt(s, s, 0);
  }

  /** Matching ignores case in the query as well: a query and its
      upper-case spelling select the same strings. */
  lemma ContainsIsCaseBlind(s: string, q: string, q': string)
    requires |q| == |q'|
    requires forall j :: 0 <= j < |q| ==> SameIgnoringCase(q[j], q'[j])
    ensures ContainsIgnoringCase(s, q) <==> ContainsIgnoringCase(s, q')
  {
    if ContainsIgnoringCase(s, q) {
      var i: nat :| i + |q| <= |s| && MatchesAt(s, q, i);
      assert MatchesAt(s, q', i);
    }
    if ContainsIgnoringCase(s, q') {
      var i: nat :| i + |q'| <= |s| && MatchesAt(s, q', i);
      assert MatchesAt(s, q, i);
    }
  }
}

=== FILE: user_repository.dfy ===
/** `UserRepository`: contacts, blocking, and the profile updates that fan
    out into every conversation naming the user. */
module UserRepository {
  import opened Wrappers
  import opened Model
  import opened Mappers
  import opened LocalStore
  import opened RemoteStore

  type Step<T> = Outcome<T, Db>

  const NotSignedIn: string := "Usuário não autenticado."
  const NotSignedInPt: string := "Utilizador não autenticado."
  const NoUserWithPhone: string := "Usuário não encontrado com este número de telefone."
  /** `contactUser.uid!!` on a user document without a uid field throws. */
  const NullUid: string := "NullPointerException"

  // ----- addContact -----

  /** The contact and conversation written for a found user. */
  function NewContact(user: User, uid: string, phone: string, customName: string): (c: Contact)
    ensures c.uid == uid && c.customName == customName && c.phoneNumber == phone
    ensures c.profilePictureUrl == user.profilePictureUrl
  {
    Contact(uid, customName, phone, user.profilePictureUrl)
  }

  /** The conversation row: named after the contact, keyed by the found uid, not a group. */
  function ContactConversation(user: User, uid: string, customName: string, now: Timestamp): (c: Conversation)
    ensures c.partnerId == uid && c.partnerName == customName && !c.isGroup
    ensures c.partnerPhoneNumber == user.phoneNumber.GetOr("")
  {
    Conversation(uid, customName, user.profilePictureUrl, "", now, user.phoneNumber.GetOr(""), 0, false)
  }

  /** addContact once the phone-number query has answered `hit`. The conversation
      is written with `set(..., merge())` from a complete Conversation object,
      so every field of an existing document is overwritten. */
  function AddContactWith(local: Db, remote: Store, me: Option<string>, hit: Option<User>,
                          phone: string, customName: string, now: Timestamp): (r: Step<()>)
    requires Valid(local)
    ensures Valid(r.local)
    ensures me.None? ==> r == Outcome(Failure(NotSignedIn), local, remote)
    ensures me.Some? && hit.None? ==> r == Outcome(Failure(NoUserWithPhone), local, remote)
    ensures me.Some? && hit.Some? && hit.value.uid.None? ==> r == Outcome(Failure(NullUid), local, remote)
    ensures r.result.Success? <==> me.Some? && hit.Some? && hit.value.uid.Some?
    ensures r.result.Success? ==>
      var user := hit.value;
      var uid := user.uid.value;
      var key := DocId(me.value, uid);
      var contact := NewContact(user, uid, phone, customName);
      var conv := ContactConversation(user, uid, customName, now);
      && key in r.remote.contacts && r.remote.contacts[key].customName == customName
      && r.remote.contacts[key].phoneNumber == phone && r.remote.contacts[key].uid == uid
      && key in r.remote.conversations && r.remote.conversations[key].partnerName == customName
      && !r.remote.conversations[key].isGroup
      && r.remote == remote.(contacts := remote.contacts[key := contact],
                             conversations := remote.conversations[key := conv])
      && uid in r.local.contacts && r.local.contacts[uid].customName == customName
      && uid in r.local.users
      && uid in r.local.conversations && r.local.conversations[uid].partnerName == customName
      && r.local == local.(users := local.users[uid := ToUserEntity(user)],
                           contacts := local.contacts[uid := ToContactEntity(contact)],
                           conversations := local.conversations[uid := ToConversationEntity(conv)])
  {
    if me.None? then Outcome(Failure(NotSignedIn), local, remote)
    else if hit.None? then Outcome(Failure(NoUserWithPhone), local, remote)
    else if hit.value.uid.None? then Outcome(Failure(NullUid), local, remote)
    else
      var user := hit.value;
      var uid := user.uid.value;
      var contact := NewContact(user, uid, phone, customName);
      var local1 := InsertUser(InsertContact(local, ToContactEntity(contact)), ToUserEntity(user));
      var conv := ContactConversation(user, uid, customName, now);
      var remote1 := remote.(contacts := remote.contacts[DocId(me.value, uid) := contact],
                             conversations := remote.conversations[DocId(me.value, uid) := conv]);
      Outcome(Success(()), InsertConversation(local1, ToConversationEntity(conv)), remote1)
  }

  /** addContact: look the user up by phone number, then add it. */
  method AddContact(local: Db, remote: Store, me: Option<string>, phone: string, customName: string,
                    now: Timestamp) returns (r: Step<()>)
    requires Valid(local)
    ensures Valid(r.local)
    ensures me.None? ==> r.result == Failure(NotSignedIn) && r.remote == remote
    ensures me.Some? && (forall k :: k in remote.users ==> remote.users[k].phoneNumber != Some(phone)) ==>
      r == Outcome(Failure(NoUserWithPhone), local, remote)
    ensures (&& me.Some?
             && (exists k :: k in remote.users && remote.users[k].phoneNumber == Some(phone))
             && (forall k :: k in remote.users && remote.users[k].phoneNumber == Some(phone) ==>
                   remote.users[k].uid.Some?)) ==>
      r.result.Success?
    ensures r.result.Failure? ==> r.remote == remote
    ensures r.result.Success? ==>
      exists u :: u in remote.users.Values && u.phoneNumber == Some(phone)
        && u.uid.Some? && DocId(me.value, u.uid.value) in r.remote.contacts
        && r.remote.contacts[DocId(me.value, u.uid.value)] == NewContact(u, u.uid.value, phone, customName)
        && DocId(me.value, u.uid.value) in r.remote.conversations
        && r.remote.conversations[DocId(me.value, u.uid.value)].partnerId == u.uid.value
        && r.remote.conversations[DocId(me.value, u.uid.value)].partnerName == customName
  {
    if me.None? {
      return Outcome(Failure(NotSignedIn), local, remote);
    }
    var hit := FindUserByPhone(remote, phone);
    r := AddContactWith(local, remote, me, hit, phone, customName, now);
  }

  // ----- deleteContact -----

  /** Removes the local contact row and both remote documents; the local
      conversation row is left in place. */
  function DeleteContact(local: Db, remote: Store, me: Option<string>, uid: string): (r: Step<()>)
    requires Valid(local)
    ensures Valid(r.local)
    ensures me.None? ==> r == Outcome(Failure(NotSignedInPt), local, remote)
    ensures me.Some? ==>
      && r.result.Success?
      && uid !in r.local.contacts
      && r.local.conversations == local.conversations
      && r.local == DeleteContactByUid(local, uid)
      && r.remote == remote.(contacts := remote.contacts - {DocId(me.value, uid)},
                             conversations := remote.conversations - {DocId(me.value, uid)})
  {
    if me.None? then Outcome(Failure(NotSignedInPt), local, remote)
    else
      Outcome(Success(()), DeleteContactByUid(local, uid),
              remote.(contacts := remote.contacts - {DocId(me.value, uid)},
                      conversations := remote.conversations - {DocId(me.value, uid)}))
  }

  /** Adding a contact and then deleting it removes the contact everywhere
      but leaves the new local conversation row behind. */
  lemma DeleteAfterAddLeavesLocalConversation(local: Db, remote: Store, me: string, hit: User,
                                              phone: string, customName: string, now: Timestamp)
    requires Valid(local) && hit.uid.Some?
    ensures var a := AddContactWith(local, remote, Some(me), Some(hit), phone, customName, now);
      var d := DeleteContact(a.local, a.remote, Some(me), hit.uid.value);
      && d.result.Success?
      && hit.uid.value !in d.local.contacts
      && DocId(me, hit.uid.value) !in d.remote.contacts
      && DocId(me, hit.uid.value) !in d.remote.conversations
      && hit.uid.value in d.local.conversations
  {
  }

  // ----- blocking -----

  /** isContactBlocked: false when nobody is signed in. */
  function IsContactBlocked(remote: Store, me: Option<string>, uid: string): (b: bool)
    ensures b ==> me.Some?
    ensures me.Some? ==> (b <==> DocId(me.value, uid) in remote.blocked)
  {
    me.Some? && DocId(me.value, uid) in remote.blocked
  }

  function BlockContact(remote: Store, me: Option<string>, uid: string): (r: Written<()>)
    ensures me.None? ==> r == Written(Failure(NotSignedInPt), remote)
    ensures me.Some? ==> r.result.Success? && r.remote == remote.(blocked := remote.blocked + {DocId(me.value, uid)})
  {
    if me.None? then Written(Failure(NotSignedInPt), remote)
    else Written(Success(()), remote.(blocked := remote.blocked + {DocId(me.value, uid)}))
  }

  function UnblockContact(remote: Store, me: Option<string>, uid: string): (r: Written<()>)
    ensures me.None? ==> r == Written(Failure(NotSignedInPt), remote)
    ensures me.Some? ==> r.result.Success? && r.remote == remote.(blocked := remote.blocked - {DocId(me.value, uid)})
  {
    if me.None? then Written(Failure(NotSignedInPt), remote)
    else Written(Success(()), remote.(blocked := remote.blocked - {DocId(me.value, uid)}))
  }

  /** Block and unblock are observed by isContactBlocked, and they leave
      every other user's blocked state as it was. */
  lemma BlockUnblockObserved(remote: Store, me: string, uid: string, other: string)
    requires other != uid
    ensures IsContactBlocked(BlockContact(remote, Some(me), uid).remote, Some(me), uid)
    ensures !IsContactBlocked(UnblockContact(remote, Some(me), uid).remote, Some(me), uid)
    ensures IsContactBlocked(BlockContact(remote, Some(me), uid).remote, Some(me), other)
            == IsContactBlocked(remote, Some(me), other)
    ensures IsContactBlocked(UnblockContact(remote, Some(me), uid).remote, Some(me), other)
            == IsContactBlocked(remote, Some(me), other)
  {
  }

  /** Unblocking undoes a block of a user that was not blocked. */
  lemma UnblockUndoesBlock(remote: Store, me: string, uid: string)
    requires !IsContactBlocked(remote, Some(me), uid)
    ensures UnblockContact(BlockContact(remote, Some(me), uid).remote, Some(me), uid).remote == remote
  {
  }

  // ----- profile fan-out -----

  /** The collection-group query: conversation documents, under any owner, whose partnerId field is `userId`. */
  predicate Names(userId: string, p: DocId, c: Conversation) {
    c.partnerId == userId
  }

  function UpdateUserPictureInAllConversations(remote: Store, userId: string, url: string): (r: Written<()>)
    ensures r.result.Success?
    ensures r.remote == remote.(conversations := r.remote.conversations)
    ensures r.remote.conversations.Keys == remote.conversations.Keys
    ensures forall p :: p in remote.conversations && remote.conversations[p].partnerId == userId ==>
      r.remote.conversations[p] == remote.conversations[p].(partnerProfilePictureUrl := Some(url))
    ensures forall p :: p in remote.conversations && remote.conversations[p].partnerId != userId ==>
      r.remote.conversations[p] == remote.conversations[p]
  {
    Written(Success(()), remote.(conversations := UpdateWhere(remote.conversations,
      (p: DocId, c: Conversation) => Names(userId, p, c),
      (c: Conversation) => c.(partnerProfilePictureUrl := Some(url)))))
  }

  function UpdateUserNameInAllConversations(remote: Store, userId: string, newName: string): (r: Written<()>)
    ensures r.result.Success?
    ensures r.remote == remote.(conversations := r.remote.conversations)
    ensures r.remote.conversations.Keys == remote.conversations.Keys
    ensures forall p :: p in remote.conversations && remote.conversations[p].partnerId == userId ==>
      r.remote.conversations[p] == remote.conversations[p].(partnerName := newName)
    ensures forall p :: p in remote.conversations && remote.conversations[p].partnerId != userId ==>
      r.remote.conversations[p] == remote.conversations[p]
  {
    Written(Success(()), remote.(conversations := UpdateWhere(remote.conversations,
      (p: DocId, c: Conversation) => Names(userId, p, c),
      (c: Conversation) => c.(partnerName := newName))))
  }

  /** After a name fan-out every conversation naming the user carries the new name. */
  lemma NameFanOutReachesAll(remote: Store, userId: string, newName: string)
    ensures var r := UpdateUserNameInAllConversations(remote, userId, newName).remote;
      forall p :: p in r.conversations && r.conversations[p].partnerId == userId ==>
        r.conversations[p].partnerName == newName
  {
  }

  /** The local user row is patched only if it exists; the remote `update`
      fails when the user document is missing. The fan-out's own result is
      ignored. */
  function UpdateUserProfilePicture(local: Db, remote: Store, userId: string, url: string): (r: Step<()>)
    requires Valid(local)
    ensures Valid(r.local)
    ensures userId in local.users <==> userId in r.local.users
    ensures userId in local.users ==>
      r.local.users[userId] == local.users[userId].(profilePictureUrl := Some(url))
    ensures r.local == local.(users := r.local.users)
    ensures forall k :: k != userId ==>
      (k in r.local.users <==> k in local.users) && (k in local.users ==> r.local.users[k] == local.users[k])
    ensures r.result.Success? <==> userId in remote.users
    ensures r.result.Failure? ==> r.remote == remote
    ensures r.result.Success? ==>
      && userId in r.remote.users
      && r.remote.users[userId] == remote.users[userId].(profilePictureUrl := Some(url))
      && r.remote == remote.(users := remote.users[userId := remote.users[userId].(profilePictureUrl := Some(url))],
                             conversations := r.remote.conversations)
      && r.remote.conversations == UpdateUserPictureInAllConversations(remote, userId, url).remote.conversations
  {
    var local1 := match GetUserById(local, userId)
      case None => local
      case Some(u) => InsertUser(local, u.(profilePictureUrl := Some(url)));
    if userId !in remote.users then Outcome(Failure(NotFound), local1, remote)
    else
      var remote1 := remote.(users := remote.users[userId := remote.users[userId].(profilePictureUrl := Some(url))]);
      var fanOut := UpdateUserPictureInAllConversations(remote1, userId, url);
      Outcome(Success(()), local1, fanOut.remote)
  }

  function UpdateUserName(local: Db, remote: Store, userId: string, newName: string): (r: Step<()>)
    requires Valid(local)
    ensures Valid(r.local)
    ensures userId in local.users <==> userId in r.local.users
    ensures userId in local.users ==> r.local.users[userId] == local.users[userId].(name := Some(newName))
    ensures r.local == local.(users := r.local.users)
    ensures forall k :: k != userId ==>
      (k in r.local.users <==> k in local.users) && (k in local.users ==> r.local.users[k] == local.users[k])
    ensures r.result.Success? <==> userId in remote.users
    ensures r.result.Failure? ==> r.remote == remote
    ensures r.result.Success? ==>
      && userId in r.remote.users
      && r.remote.users[userId] == remote.users[userId].(name := Some(newName))
      && r.remote == remote.(users := remote.users[userId := remote.users[userId].(name := Some(newName))],
                             conversations := r.remote.conversations)
      && r.remote.conversations == UpdateUserNameInAllConversations(remote, userId, newName).remote.conversations
  {
    var local1 := match GetUserById(local, userId)
      case None => local
      case Some(u) => InsertUser(local, u.(name := Some(newName)));
    if userId !in remote.users then Outcome(Failure(NotFound), local1, remote)
    else
      var remote1 := remote.(users := remote.users[userId := remote.users[userId].(name := Some(newName))]);
      var fanOut := UpdateUserNameInAllConversations(remote1, userId, newName);
      Outcome(Success(()), local1, fanOut.remote)
  }

  /** Only the status field changes; there is no conversation fan-out. */
  function UpdateUserStatus(local: Db, remote: Store, userId: string, newStatus: string): (r: Step<()>)
    requires Valid(local)
    ensures Valid(r.local)
    ensures userId in local.users <==> userId in r.local.users
    ensures userId in local.users ==> r.local.users[userId] == local.users[userId].(status := Some(newStatus))
    ensures r.local == local.(users := r.local.users)
    ensures forall k :: k != userId ==>
      (k in r.local.users <==> k in local.users) && (k in local.users ==> r.local.users[k] == local.users[k])
    ensures r.result.Success? <==> userId in remote.users
    ensures r.remote.conversations == remote.conversations
    ensures r.result.Failure? ==> r.remote == remote
    ensures r.result.Success? ==>
      r.remote == remote.(users := remote.users[userId := remote.users[userId].(status := Some(newStatus))])
  {
    var local1 := match GetUserById(local, userId)
      case None => local
      case Some(u) => InsertUser(local, u.(status := Some(newStatus)));
    if userId !in remote.users then Outcome(Failure(NotFound), local1, remote)
    else Outcome(Success(()), local1,
                 remote.(users := remote.users[userId := remote.users[userId].(status := Some(newStatus))]))
  }
}

=== FILE: wrappers.dfy ===
/** Optional values and the Result type that the repositories return
    (Kotlin's nullable types and kotlin.Result). */
module Wrappers {

  /** A Kotlin `T?`. */
  datatype Option<+T> = None | Some(value: T) {

    /** Kotlin's elvis operator `x ?: default`. */
    function GetOr(default: T): T {
      match this
      case Some(v) => v
      case None => default
    }
  }

  /** kotlin.Result: a value, or the message of the exception that was caught. */
  datatype Result<+T> = Success(value: T) | Failure(error: string) {
    predicate IsSuccess() {
      Success?
    }
  }
}
